=== FILE: README.md ===
# Weekly roster engine of escalapro, in Dafny

escalapro is a staff-rostering web app for a contact centre. Its core is a
fixed weekly grid:

- five weekdays (Segunda to Sexta);
- per day, one livechat row and three ligação (call) rows;
- per row, twenty half-hour cells from 08:00 to 17:30, each holding an
  optional employee id.

This project models that engine as pure functions over immutable data and
proves what the app relies on. The modelled operations are:

- the roster store's operations: create or clear the grid, add, update and
  remove employees, the double-booking and lunch-time rules, hour statistics,
  and the greedy `autoComplete` heuristic;
- the drag-to-assign and click-to-assign editing rules of the two grid
  components;
- the per-employee day listing of the view page;
- the occupancy and per-day counts of the reports page;
- the validation and add-or-update dispatch of the employee form.

Modelling choices:

- The schedule is `map<Day, DayRows>`, because the code handles days that are
  absent.
- A cell is a `ScheduleSlot` record, like the source's.
- Hours are counted in half-hour units, so `0.5` hours is `1`.
- Slot labels are the zero-padded "HH:MM" strings the source compares.
- Their lexicographic order is modelled by `JsString.StrLess`, and it is proved
  to coincide with slot-index order.

Modules, one per source concern:

| module | file | models |
|---|---|---|
| `Wrappers` | wrappers.dfy | `Option` |
| `JsString` | js_string.dfy | JavaScript string `<` and `trim()` |
| `Sorting` | sorting.dfy | the stable `Array.prototype.sort` |
| `TimeGrid` | time_grid.dfy | `DAYS`, `WORK_HOURS`, `generateTimeSlots`/`TIME_SLOTS`, label lookup |
| `Roster` | roster.dfy | the entity shapes; `createEmptySchedule`, `clearSchedule`, `addEmployee`, `updateEmployee`, `removeEmployee` |
| `Rules` | rules.dfy | `hasScheduleConflict`, `isEmployeeLunchTime` |
| `Stats` | stats.dfy | `getEmployeeStats` |
| `AutoFill`, `AutoFillProperties` | auto_fill.dfy, auto_fill_props.dfy | `autoComplete` and what it guarantees |
| `DragGrid` | drag_grid.dfy | `applyDragSelection`, `isInSelection`, `getSlotContent`, `handleClearSlot`, `getConsecutiveSlots` |
| `ClickGrid` | click_grid.dfy | `handleSlotClick` of the click grid |
| `EmployeeView` | employee_view.dfy | `getEmployeeScheduleForDay`, `groupConsecutiveSlots`, group durations |
| `Reports` | reports.dfy | occupancy, `dayStats`, `totalHoursWeek`, lunch-slot count, employee ranking |
| `EmployeeForm` | employee_form.dfy | `handleSubmit`, `availableLunchTimes`, `handleEdit`, `handleToggleActive` |

`autoComplete` is restructured as two passes, and this gives the same grid
and counters as the source:

1. A plan: per day and window, the chosen livechat and line employees, plus
   the hour counters.
2. A render of that plan onto an empty grid.

The two passes agree because the source's writes never feed back into its
choices, and the three windows are disjoint.

## Model

| member | source | states |
|---|---|---|
| TimeGrid.DaysListed | src/types/index.ts:32 | The week has exactly five weekdays, each listed once, with distinct names. |
| TimeGrid.GenerateTimeSlots | src/types/index.ts:54-63 | The generator yields 20 slots, and slot i is hour 8 + i/2 with minute 0 or 30 by parity. |
| TimeGrid.SlotsOfHour | src/types/index.ts:56-60 | Each working hour contributes its :00 slot and then its :30 slot, at positions 2(h-8) and 2(h-8)+1. |
| TimeGrid.TimeSlotsTable | src/types/index.ts:65 | TIME_SLOTS has 20 entries, and entry i's display is the grid label of index i. |
| TimeGrid.DisplayIsLabel | src/types/index.ts:57-60 | Label i is the zero-padded "HH:MM" of slot i's hour and minute. |
| TimeGrid.SlotStartMinutes | src/types/index.ts:54-63 | Slot i starts 480 + 30i minutes after midnight, and lies inside the working day [08:00, 18:00). |
| TimeGrid.GridBounds | src/types/index.ts:33 | The first slot is 08:00 and the last is 17:30, so the grid covers [WORK_HOURS.start, WORK_HOURS.end). |
| TimeGrid.DisplayOrder | src/types/index.ts:54-63 | Label i is lexicographically below label j iff i < j. |
| TimeGrid.DisplayIncreasing | src/types/index.ts:54-63 | Labels strictly increase as strings along the grid. |
| TimeGrid.DisplayDistinct | src/types/index.ts:54-63 | Distinct slots have distinct labels. |
| TimeGrid.SlotIndexSpec | src/hooks/useSchedule.ts:160 | The `findIndex` lookup returns the first index whose label equals the text. It finds none exactly when no label equals it. |
| TimeGrid.SlotIndexOfDisplay | src/hooks/useSchedule.ts:160 | Looking up label i gives back i, so lookup by label is a bijection onto 0..19. |
| TimeGrid.IndexOrMinusOne | src/hooks/useSchedule.ts:160-161 | The lookup yields -1 exactly for text that is not a grid label. |
| TimeGrid.FindLabelSpec | src/hooks/useSchedule.ts:160 | A label search from a position returns the first match at or after it, or none when no entry there matches. |
| JsString.StrLessIrreflexive | src/hooks/useSchedule.ts:184 | String `<` is irreflexive. |
| JsString.StrLessTransitive | src/hooks/useSchedule.ts:184 | String `<` is transitive. |
| JsString.StrLessConnected | src/hooks/useSchedule.ts:184 | Any two distinct strings are ordered one way or the other by `<`. |
| JsString.StrLessCommonPrefix | src/hooks/useSchedule.ts:189 | A common prefix does not change how two strings compare. |
| JsString.Trim | src/pages/FuncionariosPage.tsx:64 | `trim()` is empty iff the text is all white space; otherwise it neither starts nor ends with white space. |
| Sorting.SortBy | src/hooks/useSchedule.ts:237-239 | The sort returns a permutation of its input. |
| Sorting.SortBySorted | src/hooks/useSchedule.ts:237-239 | Under a strict weak order, the result is sorted by the key. |
| Sorting.SortByStable | src/hooks/useSchedule.ts:237-239 | The sort is stable: the items with any one key keep their input order. |
| Sorting.SortByDistinct | src/hooks/useSchedule.ts:237-239 | Sorting keeps the items pairwise distinct under any projection, for instance the ids. |
| Roster.EmptyRow | src/hooks/useSchedule.ts:29-45 | An empty row has 20 cells labelled with the grid's labels, the given day, channel and line, and no employee. |
| Roster.EmptyDay | src/hooks/useSchedule.ts:29-46 | A new day is well formed: a livechat row and exactly three call rows, line k tagged k, every cell empty. |
| Roster.CreateEmptySchedule | src/hooks/useSchedule.ts:25-52 | Every weekday is present and well formed, and every cell is empty. |
| Roster.ClearSchedule | src/hooks/useSchedule.ts:298-300 | Clearing yields a grid with every weekday present and every cell empty. |
| Roster.FindEmployee | src/hooks/useSchedule.ts:179 | `find` returns the first record with the id, or none exactly when no record has it. |
| Roster.AddEmployee | src/hooks/useSchedule.ts:113-122 | The roster is kept, and one record is appended with the fresh id and the draft's fields. An empty colour becomes palette entry `length % 8`, and a missing lunch end becomes 12:00 or 13:00. Unique ids stay unique. |
| Roster.UpdateEmployee | src/hooks/useSchedule.ts:124-128 | Records with the id get exactly the patched fields. All other records and all ids are unchanged. |
| Roster.WithoutId | src/hooks/useSchedule.ts:131 | The filter keeps exactly the records whose id differs, and is the identity when no record has the id. |
| Roster.WithoutIdConcat | src/hooks/useSchedule.ts:131 | The filter distributes over concatenation, so the kept records stay in order. |
| Roster.ClearIdInSchedule | src/hooks/useSchedule.ts:133-151 | Every cell holding the id becomes empty and every other cell keeps its value. The days present and well-formedness are unchanged. |
| Roster.RemoveEmployee | src/hooks/useSchedule.ts:130-153 | The id leaves the roster and no cell of any day refers to it afterwards. |
| Rules.HasScheduleConflict | src/hooks/useSchedule.ts:156-175 | True iff the day is present, the label is on the grid, and the employee holds that slot in some row other than the excluded one. |
| Rules.LineConflictSpec | src/hooks/useSchedule.ts:169-172 | The line loop finds the employee iff some call line from k on, other than the excluded line, holds the slot. |
| Rules.ConflictAtCell | src/hooks/useSchedule.ts:156-175 | Checking an occupied cell with its own row excluded is true iff another row of that day and slot holds the same employee. |
| Rules.NoDoubleBookingIffNoConflict | src/hooks/useSchedule.ts:156-175 | A grid has no employee in two rows at one day and slot iff no occupied cell conflicts when its own row is excluded. |
| Rules.IsEmployeeLunchTime | src/hooks/useSchedule.ts:178-193 | Never true for an unknown employee. A configured fixed window decides for everyone, half-open. Otherwise the first record with the id decides by its own half-open window, and is never at lunch when an end is unset. |
| Rules.InWindowOnGrid | src/hooks/useSchedule.ts:184-189 | On grid labels, the string test start <= t < end is the index test a <= i < b. |
| Rules.OwnLunchOnGrid | src/hooks/useSchedule.ts:188-190 | Without a fixed policy, an employee's own lunch labels a and b make exactly slots a..b-1 lunch time. |
| Rules.LunchBoundaryExample | src/hooks/useSchedule.ts:188-190 | A 12:00-13:00 lunch covers 12:00 and 12:30, but neither 11:30 nor 13:00. |
| Stats.GetEmployeeStats | src/hooks/useSchedule.ts:302-328 | Total hours are livechat hours plus call hours. |
| Stats.DayStats | src/hooks/useSchedule.ts:309-324 | Per day, total hours are livechat plus call hours, where the total is counted over the livechat row joined with the call lines. |
| Stats.DayStatsCells | src/hooks/useSchedule.ts:309-324 | A day's livechat hours are the number of livechat cells holding the employee. Its call hours are the sum, over the three lines, of the cells holding them. |
| Stats.CountWhereCells | src/hooks/useSchedule.ts:310-323 | Counting matching cells by walking a row gives the size of the set of matching indices. |
| Stats.CountInFlatten | src/hooks/useSchedule.ts:316-323 | Counting over the lines joined end to end is summing the per-line counts. |
| Stats.AbsentDayCountsZero | src/hooks/useSchedule.ts:309-324 | A day none of whose livechat or call-line cells holds the employee adds no hours for them. |
| Stats.SumDaysZero | src/hooks/useSchedule.ts:302-328 | An employee held by no cell of the grid has zero hours. |
| Stats.ClearedDayAbsent | src/hooks/useSchedule.ts:137-149 | After its cells holding an id are emptied, no cell of the day holds that id. |
| Stats.CountInRowConcat | src/hooks/useSchedule.ts:310-314 | Counting an employee's cells distributes over concatenation of rows. |
| Stats.RemovedEmployeeHasNoHours | src/hooks/useSchedule.ts:130-153 | After removal, the removed id has zero hours. |
| AutoFill.WindowOf | src/hooks/useSchedule.ts:211-215 | Every slot index lies in one of the three windows 0-7, 8-15 and 16-19. |
| AutoFill.ActiveEmployees | src/hooks/useSchedule.ts:197 | The filter keeps exactly the active records and keeps ids unique. |
| AutoFill.ActiveEmployeesConcat | src/hooks/useSchedule.ts:197 | The filter distributes over `+`, so the active records keep their roster order. |
| AutoFill.InitCounters | src/hooks/useSchedule.ts:205-208 | All counters start at zero, and work hours equal livechat plus call hours. |
| AutoFill.Available | src/hooks/useSchedule.ts:223-232 | A window's candidates are exactly the active employees with no lunch slot anywhere in the window. |
| AutoFill.AvailableConcat | src/hooks/useSchedule.ts:223-232 | The candidate filter distributes over concatenation, so candidates keep their roster order. |
| AutoFill.SortByHours | src/hooks/useSchedule.ts:237-239 | The result is a permutation of the candidates, ordered by hours worked, fewest first. Candidates with equal hours keep their roster order. |
| AutoFill.HoursSortStable | src/hooks/useSchedule.ts:237-239 | For every hour count, the candidates with that count appear in the same order before and after the sort. |
| AutoFill.FirstBalanced | src/hooks/useSchedule.ts:242-245 | Returns the first candidate who is unassigned that day or has livechat <= call hours, or none when no candidate qualifies. |
| AutoFill.SelectWindow | src/hooks/useSchedule.ts:235 | A window gets no assignment exactly when fewer than 4 candidates remain. |
| AutoFill.CreditLines | src/hooks/useSchedule.ts:281-283 | Each line employee's counter grows by the window's length, and nobody else's changes. |
| AutoFill.Credit | src/hooks/useSchedule.ts:261-285 | Crediting a window keeps work hours equal to livechat plus call hours. |
| AutoFill.PlanWeek | src/hooks/useSchedule.ts:217-288 | The plan covers every weekday and all three windows, and its counters stay consistent. |
| AutoFill.RenderRow | src/hooks/useSchedule.ts:261-285 | A rendered row is well formed, and cell i holds the plan's pick for that row in i's window. |
| AutoFill.RenderDay | src/hooks/useSchedule.ts:261-285 | A rendered day is well formed, and each cell is the plan's pick for its row and window. |
| AutoFill.Render | src/hooks/useSchedule.ts:200-290 | The render is built on an empty week: all weekdays are present, and each cell is the plan's pick. |
| AutoFill.AutoComplete | src/hooks/useSchedule.ts:196-291 | With fewer than 4 active employees the grid is unchanged; otherwise the result is a well-formed full week. |
| AutoFillProperties.WithoutPresentId | src/hooks/useSchedule.ts:252 | Dropping the livechat pick's id from unique-id candidates drops exactly one record. |
| AutoFillProperties.PickStaffs | src/hooks/useSchedule.ts:242-258 | With at least 4 unique candidates, the pick is one livechat employee and three line employees, all distinct and all candidates. |
| AutoFillProperties.PickFromCandidates | src/hooks/useSchedule.ts:242-258 | Everyone picked is one of the sorted candidates. |
| AutoFillProperties.StaffOfRemaining | src/hooks/useSchedule.ts:252-258 | The lines take the first three of the remaining candidates, who differ from the livechat pick. |
| AutoFillProperties.SelectWindowValid | src/hooks/useSchedule.ts:224-258 | A window's choice is empty exactly when fewer than 4 are available; otherwise it is drawn from the available employees. |
| AutoFillProperties.WithoutIdAscending | src/hooks/useSchedule.ts:252 | Dropping the livechat agent from candidates sorted by hours leaves them sorted. |
| AutoFillProperties.PrefixLeastLoaded | src/hooks/useSchedule.ts:253-254 | The first n of a list sorted by hours have no more hours than any member left out. |
| AutoFillProperties.PickLinesByHours | src/hooks/useSchedule.ts:252-258 | From candidates sorted by hours, lines 0, 1, 2 go in order of hours to people with no more hours than anyone left out of the window. |
| AutoFillProperties.FirstBalancedByHours | src/hooks/useSchedule.ts:242-245 | In candidates sorted by hours, the first who is unassigned that day or has livechat <= call hours satisfies the livechat rule. So does the first candidate when nobody qualifies. |
| AutoFillProperties.PickLivechatByHours | src/hooks/useSchedule.ts:242-245 | The livechat pick is a candidate. If it qualifies under the balance rule, no candidate with fewer hours does. Otherwise nobody qualifies and it has the fewest hours. |
| AutoFillProperties.SelectWindowByHours | src/hooks/useSchedule.ts:223-258 | For each window filled, the line agents have no more hours than any available employee left out. The livechat agent is the least-loaded available employee meeting the balance rule, or the least-loaded of all when none meets it. |
| AutoFillProperties.PlanShiftsValid | src/hooks/useSchedule.ts:221-287 | Every window of a day gets a valid choice, whatever the counters are. |
| AutoFillProperties.PlanDaysValid | src/hooks/useSchedule.ts:217-288 | Every day of the plan is valid. |
| AutoFillProperties.AutoCompleteBuilt | src/hooks/useSchedule.ts:200-290 | With enough staff, the result is the valid week plan rendered onto an empty grid, so no prior assignment survives. |
| AutoFillProperties.AutoCompleteOnlyActive | src/hooks/useSchedule.ts:197-290 | Every occupied cell of the result holds an active employee. |
| AutoFillProperties.AutoCompleteRespectsLunch | src/hooks/useSchedule.ts:224-233 | No employee is placed in a slot where `isEmployeeLunchTime` holds. |
| AutoFillProperties.AutoCompleteFillsWindows | src/hooks/useSchedule.ts:235-285 | A cell is empty exactly when fewer than 4 employees are available in its window, so a filled window is filled on all four rows. |
| AutoFillProperties.AutoCompleteWindowsUniform | src/hooks/useSchedule.ts:261-285 | Within one window, every slot of a row holds the same value. |
| AutoFillProperties.AutoCompleteNoDoubleBooking | src/hooks/useSchedule.ts:252-285 | No employee is in two rows at the same day and slot. |
| AutoFillProperties.PlanShiftsCounts | src/hooks/useSchedule.ts:272-283 | The counters grow by exactly the units the day's windows assign, per channel. |
| AutoFillProperties.RenderRowCount | src/hooks/useSchedule.ts:302-328 | An employee's cells in a rendered row number exactly the plan's units for that row. |
| AutoFillProperties.RenderDayStats | src/hooks/useSchedule.ts:302-328 | A rendered day's livechat and call counts equal the plan's units for that day. |
| AutoFillProperties.WeekStats | src/hooks/useSchedule.ts:302-328 | Summed over the days, the statistics equal the plan's units over the week. |
| AutoFillProperties.RenderedStats | src/hooks/useSchedule.ts:272-283 | The stats of the rendered week equal the counters, per channel and in total. |
| AutoFillProperties.AutoCompleteHoursMatchCounters | src/hooks/useSchedule.ts:272-283 | On `autoComplete`'s output, `getEmployeeStats` equals the internal counters: livechat, calls and work hours. |
| DragGrid.ConflictFrom | src/components/DragScheduleGrid.tsx:71-83 | The conflict loop finds a conflict iff some index of the range conflicts, with the target row excluded. |
| DragGrid.Commit | src/components/DragScheduleGrid.tsx:94-124 | A missing day is materialised empty. Then exactly the range of the target row gets the employee, and every other cell and day is unchanged. |
| DragGrid.Hi | src/components/DragScheduleGrid.tsx:65-66 | min <= max, and both are on the grid. |
| DragGrid.ApplyDragSelection | src/components/DragScheduleGrid.tsx:44-133 | A selection is applied only if it passed the endpoint checks, and then it yields a well-formed grid. |
| DragGrid.ApplyUnchecked | src/components/DragScheduleGrid.tsx:45-63 | With no employee, a missing endpoint, differing channels or lines, or an off-grid label, the selection is invalid and nothing is written. |
| DragGrid.ApplyChecked | src/components/DragScheduleGrid.tsx:65-92 | A checked selection works on the inclusive range [min, max] of the endpoint indices. |
| DragGrid.ApplyOutcome | src/components/DragScheduleGrid.tsx:44-133 | The result is invalid, rejected for a conflict, or applied, each iff its condition holds. A rejection writes nothing. |
| DragGrid.ApplyWritesRange | src/components/DragScheduleGrid.tsx:94-131 | On success, exactly cells min..max of the target row hold the employee and all else is unchanged. The reported count is max - min + 1. |
| DragGrid.ApplySymmetric | src/components/DragScheduleGrid.tsx:65-66 | Swapping the two endpoints of a same-day selection gives the same result. |
| DragGrid.NoConflictAtWrittenCell | src/components/DragScheduleGrid.tsx:71-92 | After a passed conflict check, no other row holds the employee anywhere in the range. |
| DragGrid.CommitKeepsNoDoubleBooking | src/components/DragScheduleGrid.tsx:117-124 | Writing a conflict-free range keeps a grid free of double booking. |
| DragGrid.ApplyKeepsNoDoubleBooking | src/components/DragScheduleGrid.tsx:44-133 | A grid without double booking stays without it after any applied selection. |
| DragGrid.IsInSelection | src/components/DragScheduleGrid.tsx:167-180 | A highlighted cell has the start's day, channel and line. The start cell is always highlighted, and so is the end cell when it is on the start's row. An off-grid cell is highlighted only when an endpoint is off the grid too, through the -1 of `findIndex`. |
| DragGrid.SelectionIsWhatIsWritten | src/components/DragScheduleGrid.tsx:167-180 | A cell is highlighted iff it has the start's day and row and its index lies between the endpoints, which are exactly the cells the apply writes. |
| DragGrid.FindTime | src/components/DragScheduleGrid.tsx:187 | `find` by time returns the first cell with that label, or none when no cell has it. |
| DragGrid.FindCellOnGrid | src/components/DragScheduleGrid.tsx:187-191 | On a well-formed row, reading by label reads the cell at the label's index. |
| DragGrid.GetSlotContent | src/components/DragScheduleGrid.tsx:182-194 | An absent day, or a call without a line, reads as empty. An employee read back is held by a cell of that row carrying the requested label. |
| DragGrid.GetSlotContentIsCell | src/components/DragScheduleGrid.tsx:182-194 | Reading a cell gives its occupant. It gives nothing for an absent day, an off-grid label or a call without a line. |
| DragGrid.GetSlotContentAt | src/components/DragScheduleGrid.tsx:182-194 | Reading the cell at day, row and index gives that cell, or nothing for an absent day. |
| DragGrid.EmptyOneCell | src/components/DragScheduleGrid.tsx:196-212 | Emptying one cell of a materialised day keeps the set of days and every other cell of that day. |
| DragGrid.ClearCell | src/components/DragScheduleGrid.tsx:196-212 | Clearing nulls the addressed cell and keeps every other cell and day. |
| DragGrid.ClearSlot | src/components/DragScheduleGrid.tsx:196-212 | The addressed cell becomes empty, and an off-grid label or a call without a line changes nothing. |
| DragGrid.ClearSlotEmpties | src/components/DragScheduleGrid.tsx:196-212 | After a clear, reading the cell gives nothing, and every other cell reads as before. |
| DragGrid.ClearSlotIdempotent | src/components/DragScheduleGrid.tsx:196-212 | Clearing twice is clearing once. |
| DragGrid.ClosedGroupsCover | src/components/DragScheduleGrid.tsx:215-262 | The closed groups over a row cover exactly its occupied cells. |
| DragGrid.ConsecutiveSlots | src/components/DragScheduleGrid.tsx:215-262 | The groups are maximal runs of one employee, left to right and disjoint. Each lists its labels, and together they cover exactly the occupied cells. |
| DragGrid.RowContentsCells | src/components/DragScheduleGrid.tsx:227-228 | On a well-formed grid, reading a row label by label gives the row's cells; an absent day reads as empty. |
| DragGrid.RowGroups | src/components/DragScheduleGrid.tsx:215-262 | A row's groups are disjoint maximal runs, left to right. On a well-formed grid a slot is covered exactly when its cell holds someone. |
| ClickGrid.HandleSlotClick | src/components/ScheduleGrid.tsx:30-72 | Without a selected employee nothing is handed over. Otherwise the grid stays well formed and gains the clicked day. |
| ClickGrid.ClickWritesCell | src/components/ScheduleGrid.tsx:35-69 | A click overwrites exactly the addressed cell with the selected employee. A missing day appears empty, and all other cells and days are kept. |
| ClickGrid.ClickThenRead | src/components/ScheduleGrid.tsx:92-104 | Reading the clicked cell back gives the selected employee. |
| ClickGrid.ClickIdempotent | src/components/ScheduleGrid.tsx:59-69 | Clicking the same cell twice is clicking it once. |
| ClickGrid.ClickThenClear | src/components/ScheduleGrid.tsx:74-90 | Clearing a clicked cell of a present day gives the original grid with that cell cleared. |
| EmployeeView.RowSlots | src/pages/VisualizarEscalaPage.tsx:54-62 | Every collected entry carries the row's channel label and a position inside the row. |
| EmployeeView.RowSlotsMembers | src/pages/VisualizarEscalaPage.tsx:54-62 | An entry is collected from a row iff that row's cell at its position holds the employee, with the cell's label. |
| EmployeeView.LinesSlotsMembers | src/pages/VisualizarEscalaPage.tsx:64-74 | An entry is collected from the lines iff some line's cell holds the employee, tagged "Ligação k+1". |
| EmployeeView.CollectedMembers | src/pages/VisualizarEscalaPage.tsx:52-74 | The collected list holds exactly the day's cells of the employee, each tagged with its channel. |
| EmployeeView.TimeLessIsStrictWeakOrder | src/pages/VisualizarEscalaPage.tsx:76 | Comparing entries by time label is a strict weak order. |
| EmployeeView.GetEmployeeScheduleForDay | src/pages/VisualizarEscalaPage.tsx:48-77 | An absent day gives []. Otherwise the result is a permutation of the collected cells, sorted by time. |
| EmployeeView.ScheduleForDayMembers | src/pages/VisualizarEscalaPage.tsx:48-77 | An entry is listed iff the day is present and one of its cells holds the employee with that tag. |
| EmployeeView.ScheduleForDayCount | src/pages/VisualizarEscalaPage.tsx:48-77 | The list is as long as the employee's hours that day, in half hours. |
| EmployeeView.ScheduleForDayStable | src/pages/VisualizarEscalaPage.tsx:76 | Entries with one time label keep their collection order: livechat first, then lines in order. |
| EmployeeView.GroupConsecutiveSlots | src/pages/VisualizarEscalaPage.tsx:79-102 | Empty input gives []. The groups concatenate back to the input. Each group is a non-empty run of neighbours one slot apart on one channel, and a new group starts exactly where that fails. |
| EmployeeView.TotalDuration | src/pages/VisualizarEscalaPage.tsx:198 | The group durations add up to the number of listed slots. |
| EmployeeView.DurationsAreDayHours | src/pages/VisualizarEscalaPage.tsx:198 | The group durations of a day add up to the employee's total hours that day. |
| Reports.OccupiedInRow | src/pages/RelatoriosPage.tsx:33-44 | A row has at most as many occupied cells as cells. |
| Reports.LunchCells | src/pages/RelatoriosPage.tsx:36 | The lunch-band count of a row never exceeds its cells. |
| Reports.DayReportOf | src/pages/RelatoriosPage.tsx:56-79 | An absent day reports all zeros. A present day's livechat figure is the number of occupied livechat cells, and its call figure is the sum over the three lines of occupied cells. |
| Reports.DayReports | src/pages/RelatoriosPage.tsx:56-79 | There is one report per weekday, in week order. Absent days report zero. On a well-formed grid, each present day reports its occupied livechat cells and its occupied call cells. |
| Reports.DayOccupancyCells | src/pages/RelatoriosPage.tsx:63-71 | A day's occupied-cell counts are the sizes of the sets of occupied indices: livechat row, and each call line summed. |
| Reports.WeekOccupancy | src/pages/RelatoriosPage.tsx:29-44 | On a well-formed grid, livechat occupancy is at most 5×20 and call occupancy at most 5×20×3, the denominators of lines 25-27. Lunch slots are 7 per present day, whether or not the cells are occupied. |
| Reports.TotalHoursWeek | src/pages/RelatoriosPage.tsx:81 | `totalHoursWeek` equals the occupied livechat cells plus the occupied call cells counted by the occupancy loop. |
| Reports.SumAgrees | src/pages/RelatoriosPage.tsx:81 | Summing the day totals is summing the occupied cells of those days. |
| Reports.EmployeeReports | src/pages/RelatoriosPage.tsx:50-53 | The ranking is a permutation of the active employees with their stats, sorted by total hours, descending. The sort is stable: for every total, the ranking's employees with that total are exactly the roster's active employees with that total, in roster order. |
| Reports.EmployeeReportsMembers | src/pages/RelatoriosPage.tsx:22 | A row is in the ranking iff it is an active employee paired with that employee's stats. |
| Reports.ReportsInRosterOrder | src/pages/RelatoriosPage.tsx:50-52 | Before the sort, the reports with a given total are those of the active employees with that total, in roster order. |
| Reports.WithStats | src/pages/RelatoriosPage.tsx:50-52 | One report per active employee, in roster order. |
| Reports.EmployeeWithinWeek | src/pages/RelatoriosPage.tsx:29-44 | No employee's hours exceed the occupied cells of the week, per channel and in total. |
| Reports.LunchCellsOnGrid | src/pages/RelatoriosPage.tsx:36 | On a well-formed row, the cells labelled in [11:30, 15:00) are the seven from 11:30 to 14:30. |
| Reports.EmptyGridReport | src/pages/RelatoriosPage.tsx:29-81 | A grid with every cell empty reports no occupancy, no hours, and 7 lunch slots per day. |
| Reports.EmptyWeekReport | src/pages/RelatoriosPage.tsx:29-81 | The empty week reports occupancy 0 and 0, 35 lunch slots, and 0 hours. |
| EmployeeForm.LunchTimesAreSlots | src/pages/FuncionariosPage.tsx:46-48 | The seven lunch choices are the grid labels of slots 7 to 13. |
| EmployeeForm.ClockMinutes | src/pages/FuncionariosPage.tsx:75-76 | A parsed time is a minute of the day. |
| EmployeeForm.ClockMinutesOfLabel | src/pages/FuncionariosPage.tsx:75-77 | Parsing a label gives back 60·hour + minute. |
| EmployeeForm.ClockMinutesOfDisplay | src/pages/FuncionariosPage.tsx:75-77 | Parsing grid label i gives 480 + 30i minutes. |
| EmployeeForm.DraftOf | src/pages/FuncionariosPage.tsx:96 | The draft keeps the name. An unset colour or `active` becomes falsy. |
| EmployeeForm.HandleSubmit | src/pages/FuncionariosPage.tsx:61-105 | A blank name is rejected first, then a refused lunch. Otherwise it updates the edited record if editing, else appends the form's record under the fresh id, as `addEmployee` builds it. Each outcome holds iff its condition holds. |
| EmployeeForm.NameMissing | src/pages/FuncionariosPage.tsx:63-70 | The name is missing iff it is unset or made only of white space. |
| EmployeeForm.LunchRefused | src/pages/FuncionariosPage.tsx:72-86 | Only a window with both ends set and both readable as times can be refused. Such a window is refused iff it does not last more than 0 and at most 60 minutes. |
| EmployeeForm.LunchOnGrid | src/pages/FuncionariosPage.tsx:74-87 | For grid labels a and b, the lunch check passes iff b = a+1 or b = a+2, i.e. 30 or 60 minutes. |
| EmployeeForm.LunchChoices | src/pages/FuncionariosPage.tsx:46-87 | Among the offered choices, a window passes iff its end is one or two choices after its start. |
| EmployeeForm.InitialFormNeedsName | src/pages/FuncionariosPage.tsx:32-38 | The initial form's 12:00-13:00 lunch passes, but its empty name is refused. |
| EmployeeForm.EditForm | src/pages/FuncionariosPage.tsx:107-117 | Editing loads the employee's fields, with 12:00 and 13:00 standing in for an unset lunch start or end. |
| EmployeeForm.EditSubmitUnchanged | src/pages/FuncionariosPage.tsx:89-90 | Opening an employee and saving unchanged leaves a unique-id roster as it was. |
| EmployeeForm.ToggleActive | src/pages/FuncionariosPage.tsx:127-128 | Toggling changes only the `active` field of the records with that id. |
| EmployeeForm.ToggleBack | src/pages/FuncionariosPage.tsx:127-128 | Toggling back to the old value restores the record. |

## Left out

- Persistence is left out because it is I/O. This covers `localStorage` reads and writes, JSON encoding, `storage` events and `loadConfig`'s coercions (src/hooks/useSchedule.ts:56-111). The employees, schedule and config are inputs.
- Authentication and registration are left out because they are network calls to a foreign client (src/hooks/useAuth.tsx, src/pages/RegisterPage.tsx).
- Rendering, CSS, toasts, icons and routing are left out; they are presentation.
- The mouse-drag state machine (`handleMouseDown`/`handleMouseEnter`/`handleMouseUp`) is left out; it is UI state. The modelled `applyDragSelection` takes the two endpoints as inputs. `handleMouseEnter` only ever extends a selection within the start's day.
- DragGrid.ApplySymmetric: requires both endpoints on the same day, because `handleMouseEnter` guarantees that. With different days the source writes on the start's day, so swapping is not symmetric.
- Coverage and lunch percentages and progress-bar widths are left out because they are floating-point presentation. The integer counts they divide are modelled.
- `Date.now()` ids become a `freshId` parameter, with a precondition that no record has it.
- `getEmployeeById` in the view page compares `id === id` and so returns the first employee. It feeds only the display and is not modelled.
- The drag grid's `getConsecutiveSlots` groups keep the employee id, not the looked-up record.
- The knobs of the auto-complete page and the settings forms are left out. They are never passed to `autoComplete`, and their 500 ms `setTimeout` is timing glue.
- React's shallow copies are left out. The source mutates row objects shared with the previous state; the model updates functionally.
- `localeCompare` in the day listing is modelled by `JsString.StrLess`, the code-unit order. The two agree on the zero-padded "HH:MM" labels the grid holds.
- `Object.values`/`Object.keys` iteration over the schedule is modelled as iteration over `DAYS`. The schedule's keys are weekdays, and sums are order-independent.
- DragGrid.Commit, DragGrid.ClearSlot, ClickGrid.HandleSlotClick and Reports.WeekOccupancy's bounds require a well-formed grid: a livechat row and three call rows of 20 labelled cells. The source indexes those rows without a check and would throw on a malformed day.
- DragGrid.ClearSlot: requires the day to be present when the cell is addressed, because the source dereferences the day there and would throw.
- DragGrid.GetSlotContentIsCell: reading a missing cell gives `None` for both the source's `null` and its `undefined`. DragGrid.RowGroups therefore yields no group for a present day whose row lacks a label, where the source builds a group with no employee and a start index one before its first slot, which the render then skips (src/components/DragScheduleGrid.tsx:188-191, 227-249, 331-335).
- EmployeeForm.ClockMinutes: parses only two-digit "HH:MM" with hour < 24 and minute < 60. Any other text stands for an invalid date (NaN), which the lunch check then does not refuse. JavaScript engines accept some further formats.
- EmployeeForm.DraftOf: an unset `active` is modelled as `false` and an unset colour as the empty string, matching how `addEmployee` reads them.
- Stats.GetEmployeeStats: hours are counted in half-hour units, so the source's `0.5` steps are integers. The per-cell count is the function's definition; its consequences are stated by Stats.RemovedEmployeeHasNoHours, EmployeeView.ScheduleForDayCount and AutoFillProperties.AutoCompleteHoursMatchCounters.
- AutoFillProperties.AutoCompleteFillsWindows: requires unique employee ids, which `autoComplete` never checks. The ids come from `Date.now()`, and Roster.AddEmployee keeps them unique. With duplicate ids the window count could cover one person twice.
- AutoFillProperties.AutoCompleteNoDoubleBooking: requires unique employee ids, for the same reason. Two records sharing an id could be picked for two rows of one slot.
- AutoFill.AutoComplete: the result's contents are stated by the AutoFillProperties lemmas rather than by its own contract.
- AutoFillProperties.SelectWindowByHours: ties between candidates with equal hours are not restated per pick. The roster-order tie-break is stated for the sort by AutoFill.SortByHours and AutoFill.AvailableConcat.
- DragGrid.ApplyDragSelection: its own contract states only well-formedness and that an applied selection passed the endpoint checks. The full behaviour is in DragGrid.ApplyOutcome and DragGrid.ApplyWritesRange.
- The click grid (`ScheduleGrid`) is modelled although the schedule page mounts the drag grid. Its click performs no conflict check, and the model keeps it that way.

=== FILE: auto_fill.dfy ===
/** `autoComplete` (src/hooks/useSchedule.ts): the greedy heuristic that
    rebuilds the whole week from an empty grid.

    Per day, per shift window in order, it collects the active employees
    whose lunch touches no slot of the window; with at least four of them it
    sorts them (stably) by the hours given so far, puts on livechat the first
    one who has no assignment yet that day or whose livechat hours do not
    exceed their call hours (else the least loaded one), and on lines 0..2
    the next three; it then writes them into every slot of the window and
    credits half an hour per slot to their counters.

    The model separates the choice from the writing: `PlanWeek` makes the
    choices and keeps the counters, and `Render` writes the chosen employees
    into fresh rows. The choices only read the counters and the day's
    assignments, never the grid, and the windows are disjoint, so this is
    the source's order of effects. */
module AutoFill {
  import opened Wrappers
  import opened TimeGrid
  import opened Roster
  import opened Rules
  import opened Sorting

  /** A shift window: slots `start..end`, both inclusive. */
  datatype Shift = Shift(start: nat, end: nat, hours: nat)

  /** 08:00-12:00, 12:00-16:00 and 16:00-18:00. */
  const SHIFTS: seq<Shift> := [Shift(0, 7, 4), Shift(8, 15, 4), Shift(16, 19, 2)]

  /** The number of slots of a window. */
  function Length(w: Shift): nat {
    if w.end < w.start then 0 else w.end - w.start + 1
  }

  /** The window holding slot `i`. */
  function WindowOf(i: nat): (k: nat)
    requires i < SLOT_COUNT
    ensures k < |SHIFTS| && SHIFTS[k].start <= i <= SHIFTS[k].end
  {
    if i < 8 then 0 else if i < 16 then 1 else 2
  }

  /** The minimum number of candidates a window needs. */
  const MIN_STAFF: nat := 4

  /** Per-employee hour counters, in half-hour units: total, livechat and
      call hours (`employeeWorkHours` and `employeeChannelHours`). */
  datatype Counters = Counters(work: map<EmpId, nat>, live: map<EmpId, nat>, lig: map<EmpId, nat>)

  function Get(m: map<EmpId, nat>, id: EmpId): nat {
    if id in m then m[id] else 0
  }

  function AddTo(m: map<EmpId, nat>, id: EmpId, n: nat): (r: map<EmpId, nat>)
    ensures forall x :: Get(r, x) == Get(m, x) + (if x == id then n else 0)
  {
    m[id := Get(m, id) + n]
  }

  /** `employees.filter(emp => emp.active)`. */
  function ActiveEmployees(employees: seq<Employee>): (r: seq<Employee>)
    ensures forall e :: e in r <==> e in employees && e.active
    ensures |r| <= |employees|
    ensures UniqueIds(employees) ==> UniqueIds(r)
  {
    if |employees| == 0 then []
    else
      var rest := ActiveEmployees(employees[1..]);
      assert employees == [employees[0]] + employees[1..];
      DistinctByCons(employees[0], employees[1..], IdOf);
      if employees[0].active then
        DistinctByCons(employees[0], rest, IdOf);
        [employees[0]] + rest
      else rest
  }

  /** Filtering distributes over concatenation, so the active employees
      keep their roster order. */
  lemma {:induction false} ActiveEmployeesConcat(a: seq<Employee>, b: seq<Employee>)
    ensures ActiveEmployees(a + b) == ActiveEmployees(a) + ActiveEmployees(b)
    decreases |a|
  {
    if |a| > 0 {
      assert (a + b)[0] == a[0] && (a + b)[1..] == a[1..] + b;
      ActiveEmployeesConcat(a[1..], b);
    } else {
      assert a + b == b;
    }
  }

  /** Every employee's total is their livechat hours plus their call hours. */
  ghost predicate Consistent(c: Counters) {
    forall x :: Get(c.work, x) == Get(c.live, x) + Get(c.lig, x)
  }

  /** Every active employee starts with zero hours. */
  function InitCounters(active: seq<Employee>): (c: Counters)
    ensures forall x :: Get(c.work, x) == 0 && Get(c.live, x) == 0 && Get(c.lig, x) == 0
    ensures Consistent(c)
  {
    var ids := set e | e in active :: e.id;
    Counters(map x | x in ids :: 0, map x | x in ids :: 0, map x | x in ids :: 0)
  }

  /** No slot of the window is lunch time for `id`. */
  predicate LunchFree(employees: seq<Employee>, config: ScheduleConfig, id: EmpId, w: Shift)
    requires w.end < SLOT_COUNT
  {
    forall i | w.start <= i <= w.end :: !IsEmployeeLunchTime(employees, config, id, Display(i))
  }

  /** `availableEmployees`: the active employees whose lunch touches no slot
      of the window, in roster order. */
  function Available(employees: seq<Employee>, config: ScheduleConfig, active: seq<Employee>, w: Shift): (r: seq<Employee>)
    requires w.end < SLOT_COUNT
    ensures forall e :: e in r <==> e in active && LunchFree(employees, config, e.id, w)
    ensures |r| <= |active|
    ensures UniqueIds(active) ==> UniqueIds(r)
  {
    if |active| == 0 then []
    else
      var rest := Available(employees, config, active[1..], w);
      assert active == [active[0]] + active[1..];
      DistinctByCons(active[0], active[1..], IdOf);
      if LunchFree(employees, config, active[0].id, w) then
        DistinctByCons(active[0], rest, IdOf);
        [active[0]] + rest
      else rest
  }

  /** Filtering distributes over concatenation, so the candidates keep the
      roster order: the sort's tie-break. */
  lemma {:induction false} AvailableConcat(employees: seq<Employee>, config: ScheduleConfig,
                                           a: seq<Employee>, b: seq<Employee>, w: Shift)
    requires w.end < SLOT_COUNT
    ensures Available(employees, config, a + b, w)
         == Available(employees, config, a, w) + Available(employees, config, b, w)
    decreases |a|
  {
    if |a| > 0 {
      assert (a + b)[0] == a[0] && (a + b)[1..] == a[1..] + b;
      AvailableConcat(employees, config, a[1..], b, w);
    } else {
      assert a + b == b;
    }
  }

  /** The order of the candidate sort: ascending hours. */
  function HoursKey(c: Counters): Employee -> int {
    (e: Employee) => Get(c.work, e.id)
  }

  function IntLess(): (int, int) -> bool {
    (a: int, b: int) => a < b
  }

  lemma IntLessIsStrictWeakOrder()
    ensures StrictWeakOrder(IntLess())
  {
  }

  /** Among candidates with equal hours the sort keeps their order. */
  lemma HoursSortStable(candidates: seq<Employee>, c: Counters)
    ensures forall h: int :: KeyFilter(SortBy(candidates, HoursKey(c), IntLess()), HoursKey(c), h)
                          == KeyFilter(candidates, HoursKey(c), h)
  {
    IntLessIsStrictWeakOrder();
    forall h: int
      ensures KeyFilter(SortBy(candidates, HoursKey(c), IntLess()), HoursKey(c), h)
           == KeyFilter(candidates, HoursKey(c), h)
    {
      SortByStable(candidates, HoursKey(c), IntLess(), h);
    }
  }

  /** `sortedByHours`: the candidates stably sorted by hours so far, fewest
      first; candidates with equal hours keep their order. */
  function SortByHours(candidates: seq<Employee>, c: Counters): (r: seq<Employee>)
    ensures multiset(r) == multiset(candidates) && |r| == |candidates|
    ensures forall i, j | 0 <= i < j < |r| :: Get(c.work, r[i].id) <= Get(c.work, r[j].id)
    ensures forall h: int :: KeyFilter(r, HoursKey(c), h) == KeyFilter(candidates, HoursKey(c), h)
  {
    IntLessIsStrictWeakOrder();
    SortBySorted(candidates, HoursKey(c), IntLess());
    HoursSortStable(candidates, c);
    SortBy(candidates, HoursKey(c), IntLess())
  }

  /** The channel-balance rule for the livechat pick. */
  predicate Balanced(e: Employee, daily: set<EmpId>, c: Counters) {
    e.id !in daily || Get(c.live, e.id) <= Get(c.lig, e.id)
  }

  /** `sortedByHours.find(...)`: the first candidate satisfying the rule. */
  function FirstBalanced(sorted: seq<Employee>, daily: set<EmpId>, c: Counters): (r: Option<nat>)
    ensures r.Some? ==> r.value < |sorted| && Balanced(sorted[r.value], daily, c)
    ensures r.Some? ==> forall j | 0 <= j < r.value :: !Balanced(sorted[j], daily, c)
    ensures r.None? ==> forall j | 0 <= j < |sorted| :: !Balanced(sorted[j], daily, c)
  {
    if |sorted| == 0 then None
    else if Balanced(sorted[0], daily, c) then Some(0)
    else
      var r := FirstBalanced(sorted[1..], daily, c);
      if r.Some? then Some(r.value + 1) else None
  }

  /** The choice for one window: who takes livechat and who takes lines
      0, 1, 2 (as many as there are candidates left). */
  datatype Assignment = Assignment(livechat: EmpId, lines: seq<EmpId>)

  /** The first `n` ids of `emps`. */
  function IdsOf(emps: seq<Employee>, n: nat): (r: seq<EmpId>)
    requires n <= |emps|
    ensures |r| == n && forall k | 0 <= k < n :: r[k] == emps[k].id
  {
    seq(n, k requires 0 <= k < n => emps[k].id)
  }

  /** The livechat pick and the line picks from sorted candidates. */
  function Pick(sorted: seq<Employee>, daily: set<EmpId>, c: Counters): (a: Assignment)
    requires |sorted| > 0
    ensures |a.lines| <= LINE_COUNT
  {
    var first := FirstBalanced(sorted, daily, c);
    var lc := if first.Some? then sorted[first.value] else sorted[0];
    var remaining := WithoutId(sorted, lc.id);
    var n := if |remaining| < LINE_COUNT then |remaining| else LINE_COUNT;
    Assignment(lc.id, IdsOf(remaining, n))
  }

  /** One window's selection; `None` when fewer than four are available. */
  function SelectWindow(employees: seq<Employee>, config: ScheduleConfig, active: seq<Employee>,
                        w: Shift, daily: set<EmpId>, c: Counters): (r: Option<Assignment>)
    requires w.end < SLOT_COUNT
    ensures r.None? <==> |Available(employees, config, active, w)| < MIN_STAFF
  {
    var avail := Available(employees, config, active, w);
    if |avail| < MIN_STAFF then None
    else Some(Pick(SortByHours(avail, c), daily, c))
  }

  /** Credits `n` units to every line id. */
  function CreditLines(m: map<EmpId, nat>, lines: seq<EmpId>, n: nat): (r: map<EmpId, nat>)
    ensures forall x :: Get(r, x) == Get(m, x) + LineUnits(lines, x, n)
    decreases |lines|
  {
    if |lines| == 0 then m else CreditLines(AddTo(m, lines[0], n), lines[1..], n)
  }

  /** `n` units for every line of `lines` held by `x`. */
  function LineUnits(lines: seq<EmpId>, x: EmpId, n: nat): nat {
    if |lines| == 0 then 0 else (if lines[0] == x then n else 0) + LineUnits(lines[1..], x, n)
  }

  /** The counter updates of a filled window of `n` slots. */
  function Credit(c: Counters, a: Assignment, n: nat): (r: Counters)
    ensures forall x ::
      && Get(r.live, x) == Get(c.live, x) + (if x == a.livechat then n else 0)
      && Get(r.lig, x) == Get(c.lig, x) + LineUnits(a.lines, x, n)
      && Get(r.work, x) == Get(c.work, x) + (if x == a.livechat then n else 0) + LineUnits(a.lines, x, n)
    ensures Consistent(c) ==> Consistent(r)
  {
    Counters(CreditLines(AddTo(c.work, a.livechat, n), a.lines, n),
             AddTo(c.live, a.livechat, n),
             CreditLines(c.lig, a.lines, n))
  }

  /** The ids given work by an assignment. */
  function AssignedIds(a: Assignment): set<EmpId> {
    {a.livechat} + set k | 0 <= k < |a.lines| :: a.lines[k]
  }

  /** The windows of one day, in order: the choices and the counters after
      them. `daily` is the set of ids already assigned that day. */
  function PlanShifts(employees: seq<Employee>, config: ScheduleConfig, active: seq<Employee>,
                      shifts: seq<Shift>, daily: set<EmpId>, c: Counters): (r: (seq<Option<Assignment>>, Counters))
    requires forall k | 0 <= k < |shifts| :: shifts[k].end < SLOT_COUNT
    ensures |r.0| == |shifts|
    ensures Consistent(c) ==> Consistent(r.1)
  {
    if |shifts| == 0 then ([], c)
    else
      var a := SelectWindow(employees, config, active, shifts[0], daily, c);
      var daily' := if a.Some? then daily + AssignedIds(a.value) else daily;
      var c' := if a.Some? then Credit(c, a.value, Length(shifts[0])) else c;
      var next := PlanShifts(employees, config, active, shifts[1..], daily', c');
      ([a] + next.0, next.1)
  }

  /** The days of the week, in order, each starting with no assignments;
      the counters carry over from day to day. */
  function PlanDays(employees: seq<Employee>, config: ScheduleConfig, active: seq<Employee>,
                    days: seq<Day>, c: Counters): (r: (seq<seq<Option<Assignment>>>, Counters))
    ensures |r.0| == |days|
    ensures forall j | 0 <= j < |days| :: |r.0[j]| == |SHIFTS|
    ensures Consistent(c) ==> Consistent(r.1)
  {
    if |days| == 0 then ([], c)
    else
      var today := PlanShifts(employees, config, active, SHIFTS, {}, c);
      var rest := PlanDays(employees, config, active, days[1..], today.1);
      ([today.0] + rest.0, rest.1)
  }

  /** The whole week's choices and the final counters. */
  function PlanWeek(employees: seq<Employee>, config: ScheduleConfig): (r: (seq<seq<Option<Assignment>>>, Counters))
    ensures |r.0| == |DAYS|
    ensures forall j | 0 <= j < |DAYS| :: |r.0[j]| == |SHIFTS|
    ensures Consistent(r.1)
  {
    var active := ActiveEmployees(employees);
    PlanDays(employees, config, active, DAYS, InitCounters(active))
  }

  /** Who a window's choice puts in row position `p` (0 livechat, 1 + k
      line k). */
  function AtRow(o: Option<Assignment>, p: nat): Option<EmpId> {
    match o
    case None => None
    case Some(a) => if p == 0 then Some(a.livechat) else if p - 1 < |a.lines| then Some(a.lines[p - 1]) else None
  }

  /** Who a day's choices put at row `p`, slot `i`. */
  function AssignedAt(plan: seq<Option<Assignment>>, p: nat, i: nat): Option<EmpId>
    requires |plan| == |SHIFTS| && i < SLOT_COUNT
  {
    AtRow(plan[WindowOf(i)], p)
  }

  /** The fresh row `p` of day `d` with the day's choices written in. */
  function RenderRow(d: Day, plan: seq<Option<Assignment>>, p: nat): (row: seq<ScheduleSlot>)
    requires |plan| == |SHIFTS| && p < ROW_COUNT
    ensures WellFormedRow(row, d, if p == 0 then Livechat else Ligacao, if p == 0 then None else Some(p - 1))
    ensures forall i | 0 <= i < SLOT_COUNT :: row[i].employeeId == AssignedAt(plan, p, i)
  {
    var channel := if p == 0 then Livechat else Ligacao;
    var line := if p == 0 then None else Some(p - 1);
    seq(SLOT_COUNT, i requires 0 <= i < SLOT_COUNT => ScheduleSlot(d, Display(i), AssignedAt(plan, p, i), channel, line))
  }

  function RenderDay(d: Day, plan: seq<Option<Assignment>>): (dr: DayRows)
    requires |plan| == |SHIFTS|
    ensures WellFormedDay(d, dr)
    ensures forall p, i | 0 <= p < ROW_COUNT && 0 <= i < SLOT_COUNT :: Cell(dr, p, i) == AssignedAt(plan, p, i)
  {
    var dr := DayRows(RenderRow(d, plan, 0), [RenderRow(d, plan, 1), RenderRow(d, plan, 2), RenderRow(d, plan, 3)]);
    assert forall p | 0 <= p < ROW_COUNT :: Row(dr, p) == RenderRow(d, plan, p);
    dr
  }

  /** The week's choices written onto a fresh grid. */
  function Render(plans: seq<seq<Option<Assignment>>>): (s: Schedule)
    requires |plans| == |DAYS| && forall j | 0 <= j < |DAYS| :: |plans[j]| == |SHIFTS|
    ensures forall d: Day :: d in s
    ensures WellFormed(s)
    ensures forall d, p, i | d in s && 0 <= p < ROW_COUNT && 0 <= i < SLOT_COUNT ::
      Cell(s[d], p, i) == AssignedAt(plans[DayIndex(d)], p, i)
  {
    DaysListed();
    map d | d in DAYS :: RenderDay(d, plans[DayIndex(d)])
  }

  /** `autoComplete`: with fewer than four active employees the grid is
      left as it is; otherwise every prior assignment is discarded and the
      week is rebuilt. */
  function AutoComplete(employees: seq<Employee>, config: ScheduleConfig, s: Schedule): (r: Schedule)
    ensures |ActiveEmployees(employees)| < MIN_STAFF ==> r == s
    ensures |ActiveEmployees(employees)| >= MIN_STAFF ==> (forall d: Day :: d in r) && WellFormed(r)
  {
    if |ActiveEmployees(employees)| < MIN_STAFF then s
    else Render(PlanWeek(employees, config).0)
  }
}

=== FILE: auto_fill_props.dfy ===
/** What `autoComplete` guarantees about the grid it builds: every window
    is either left empty (fewer than four candidates) or fully staffed by
    four different available employees, nobody works in a window touching
    their lunch, nobody is double-booked, and the hour counters it keeps
    are exactly the hours `getEmployeeStats` reads off the result. */
module AutoFillProperties {
  import opened Wrappers
  import opened TimeGrid
  import opened Roster
  import opened Rules
  import opened Sorting
  import opened Stats
  import opened AutoFill

  /** The ids of a sequence of employees. */
  function Ids(emps: seq<Employee>): set<EmpId> {
    set e | e in emps :: e.id
  }

  /** Removing a present id from a roster without duplicate ids removes
      exactly one record. */
  lemma {:induction false} WithoutPresentId(s: seq<Employee>, x: EmpId)
    requires UniqueIds(s) && x in Ids(s)
    ensures |WithoutId(s, x)| == |s| - 1
    ensures UniqueIds(WithoutId(s, x))
    decreases |s|
  {
    assert s == [s[0]] + s[1..];
    DistinctByCons(s[0], s[1..], IdOf);
    if s[0].id == x {
      assert WithoutId(s, x) == WithoutId(s[1..], x);
      assert forall e | e in s[1..] :: e.id != x;
    } else {
      var e :| e in s && e.id == x;
      assert e in s[1..];
      WithoutPresentId(s[1..], x);
      var rest := WithoutId(s[1..], x);
      assert WithoutId(s, x) == [s[0]] + rest;
      DistinctByCons(s[0], rest, IdOf);
    }
  }

  /** The people of an assignment: livechat first, then lines 0, 1, 2. */
  function Staff(a: Assignment): seq<EmpId> {
    [a.livechat] + a.lines
  }

  /** No id occurs twice. */
  ghost predicate DistinctIds(ids: seq<EmpId>) {
    forall i, j | 0 <= i < j < |ids| :: ids[i] != ids[j]
  }

  /** A window is staffed by one livechat agent and three line agents, four
      different people, all drawn from the window's candidates. */
  ghost predicate FullyStaffedFrom(a: Assignment, candidates: seq<Employee>) {
    && |a.lines| == LINE_COUNT
    && DistinctIds(Staff(a))
    && forall k | 0 <= k < |Staff(a)| :: Staff(a)[k] in Ids(candidates)
  }

  /** A livechat agent from `pool` together with the first three of
      `remaining`, which holds distinct ids of `pool` other than the
      livechat agent's, is a full staff drawn from `pool`. */
  lemma StaffOfRemaining(lc: Employee, remaining: seq<Employee>, pool: seq<Employee>)
    requires lc in pool && |remaining| >= LINE_COUNT && UniqueIds(remaining)
    requires forall e | e in remaining :: e in pool && e.id != lc.id
    ensures FullyStaffedFrom(Assignment(lc.id, IdsOf(remaining, LINE_COUNT)), pool)
  {
    var a := Assignment(lc.id, IdsOf(remaining, LINE_COUNT));
    forall k | 0 <= k < |Staff(a)| ensures Staff(a)[k] in Ids(pool) {
      if k > 0 {
        assert remaining[k - 1] in remaining;
      }
    }
    forall i, j | 0 <= i < j < |Staff(a)| ensures Staff(a)[i] != Staff(a)[j] {
      assert remaining[j - 1] in remaining;
      if i > 0 {
        assert Staff(a)[i] == IdOf(remaining[i - 1]) && Staff(a)[j] == IdOf(remaining[j - 1]);
      }
    }
  }

  /** The picks from at least four sorted candidates with distinct ids fill
      every row with a different candidate. */
  lemma PickStaffs(sorted: seq<Employee>, daily: set<EmpId>, c: Counters)
    requires |sorted| >= MIN_STAFF && UniqueIds(sorted)
    ensures FullyStaffedFrom(Pick(sorted, daily, c), sorted)
  {
    var first := FirstBalanced(sorted, daily, c);
    var lc := if first.Some? then sorted[first.value] else sorted[0];
    assert lc in sorted;
    var remaining := WithoutId(sorted, lc.id);
    WithoutPresentId(sorted, lc.id);
    StaffOfRemaining(lc, remaining, sorted);
    assert Pick(sorted, daily, c) == Assignment(lc.id, IdsOf(remaining, LINE_COUNT));
  }

  /** Everyone an assignment places is one of the candidates, even when
      ids repeat. */
  lemma PickFromCandidates(sorted: seq<Employee>, daily: set<EmpId>, c: Counters)
    requires |sorted| > 0
    ensures forall k | 0 <= k < |Staff(Pick(sorted, daily, c))| :: Staff(Pick(sorted, daily, c))[k] in Ids(sorted)
  {
    var a := Pick(sorted, daily, c);
    var first := FirstBalanced(sorted, daily, c);
    var lc := if first.Some? then sorted[first.value] else sorted[0];
    assert lc in sorted;
    var remaining := WithoutId(sorted, lc.id);
    forall k | 0 <= k < |Staff(a)| ensures Staff(a)[k] in Ids(sorted) {
      if k > 0 {
        assert remaining[k - 1] in remaining;
      }
    }
  }

  /** A window's choice as `autoComplete` makes it: empty exactly when
      fewer than four active employees are free of lunch in the window, and
      otherwise drawn from those employees; with unique ids, a full staff. */
  ghost predicate ValidChoice(employees: seq<Employee>, config: ScheduleConfig, active: seq<Employee>,
                              w: Shift, o: Option<Assignment>)
    requires w.end < SLOT_COUNT
  {
    var candidates := Available(employees, config, active, w);
    && (o.None? <==> |candidates| < MIN_STAFF)
    && (o.Some? ==> |o.value.lines| <= LINE_COUNT)
    && (o.Some? ==> forall k | 0 <= k < |Staff(o.value)| :: Staff(o.value)[k] in Ids(candidates))
    && (o.Some? && UniqueIds(active) ==> FullyStaffedFrom(o.value, candidates))
  }

  lemma SelectWindowValid(employees: seq<Employee>, config: ScheduleConfig, active: seq<Employee>,
                          w: Shift, daily: set<EmpId>, c: Counters)
    requires w.end < SLOT_COUNT
    ensures ValidChoice(employees, config, active, w, SelectWindow(employees, config, active, w, daily, c))
  {
    var candidates := Available(employees, config, active, w);
    if |candidates| >= MIN_STAFF {
      var sorted := SortByHours(candidates, c);
      forall e ensures e in sorted <==> e in candidates {
        InMultiset(e, sorted, candidates);
      }
      assert Ids(sorted) == Ids(candidates);
      PickFromCandidates(sorted, daily, c);
      if UniqueIds(active) {
        SortByDistinct(candidates, HoursKey(c), IntLess(), IdOf);
        PickStaffs(sorted, daily, c);
      }
    }
  }

  /** Candidates listed with non-decreasing hours. */
  ghost predicate Ascending(s: seq<Employee>, c: Counters) {
    forall i, j | 0 <= i < j < |s| :: Get(c.work, s[i].id) <= Get(c.work, s[j].id)
  }

  /** The line agents come in order of hours, and each has no more hours
      than any candidate left out of the window's staff. */
  ghost predicate LinesLeastLoaded(a: Assignment, candidates: seq<Employee>, c: Counters) {
    && (forall k, m | 0 <= k < m < |a.lines| :: Get(c.work, a.lines[k]) <= Get(c.work, a.lines[m]))
    && (forall k, e | 0 <= k < |a.lines| && e in candidates && e.id !in Staff(a) ::
          Get(c.work, a.lines[k]) <= Get(c.work, e.id))
  }

  /** The livechat agent `id` is a candidate. If it meets the balance rule,
      no candidate with fewer hours meets it; otherwise no candidate meets
      it and the agent has the fewest hours of all. */
  ghost predicate LivechatRule(id: EmpId, candidates: seq<Employee>, daily: set<EmpId>, c: Counters) {
    exists e | e in candidates && e.id == id ::
      if Balanced(e, daily, c) then
        forall f | f in candidates && Get(c.work, f.id) < Get(c.work, e.id) :: !Balanced(f, daily, c)
      else
        forall f | f in candidates :: !Balanced(f, daily, c) && Get(c.work, e.id) <= Get(c.work, f.id)
  }

  /** A candidate with no more hours than any of an ascending list can
      head it. */
  lemma ConsAscending(x: Employee, rest: seq<Employee>, c: Counters)
    requires Ascending(rest, c)
    requires forall y | y in rest :: Get(c.work, x.id) <= Get(c.work, y.id)
    ensures Ascending([x] + rest, c)
  {
    var r := [x] + rest;
    forall i, j | 0 <= i < j < |r|
      ensures Get(c.work, r[i].id) <= Get(c.work, r[j].id)
    {
      assert r[j] == rest[j - 1] && r[j] in rest;
      if i > 0 {
        assert r[i] == rest[i - 1];
      }
    }
  }

  /** Dropping an id keeps the rest in order, so it stays ascending. */
  lemma {:induction false} WithoutIdAscending(s: seq<Employee>, id: EmpId, c: Counters)
    requires Ascending(s, c)
    ensures Ascending(WithoutId(s, id), c)
    decreases |s|
  {
    if |s| > 0 {
      var tail := s[1..];
      assert Ascending(tail, c) by {
        forall i, j | 0 <= i < j < |tail|
          ensures Get(c.work, tail[i].id) <= Get(c.work, tail[j].id)
        {
          assert tail[i] == s[i + 1] && tail[j] == s[j + 1];
        }
      }
      WithoutIdAscending(tail, id, c);
      var rest := WithoutId(tail, id);
      if s[0].id != id {
        forall y | y in rest
          ensures Get(c.work, s[0].id) <= Get(c.work, y.id)
        {
          var j :| 0 <= j < |tail| && tail[j] == y;
          assert s[j + 1] == y;
        }
        ConsAscending(s[0], rest, c);
        assert WithoutId(s, id) == [s[0]] + rest;
      } else {
        assert WithoutId(s, id) == rest;
      }
    }
  }

  /** The first `n` of an ascending list have no more hours than any
      member whose id is not among theirs. */
  lemma PrefixLeastLoaded(s: seq<Employee>, n: nat, c: Counters)
    requires n <= |s| && Ascending(s, c)
    ensures forall k, e | 0 <= k < n && e in s && e.id !in IdsOf(s, n) ::
      Get(c.work, s[k].id) <= Get(c.work, e.id)
  {
    forall k, e | 0 <= k < n && e in s && e.id !in IdsOf(s, n)
      ensures Get(c.work, s[k].id) <= Get(c.work, e.id)
    {
      var m :| 0 <= m < |s| && s[m] == e;
    }
  }

  /** From ascending candidates, the lines go to the least-loaded people
      besides the livechat pick, in order of hours. */
  lemma PickLinesByHours(sorted: seq<Employee>, daily: set<EmpId>, c: Counters)
    requires |sorted| > 0 && Ascending(sorted, c)
    ensures LinesLeastLoaded(Pick(sorted, daily, c), sorted, c)
  {
    var a := Pick(sorted, daily, c);
    var first := FirstBalanced(sorted, daily, c);
    var lc := if first.Some? then sorted[first.value] else sorted[0];
    var remaining := WithoutId(sorted, lc.id);
    var n := if |remaining| < LINE_COUNT then |remaining| else LINE_COUNT;
    assert a.livechat == lc.id && a.lines == IdsOf(remaining, n);
    WithoutIdAscending(sorted, lc.id, c);
    PrefixLeastLoaded(remaining, n, c);
    forall k, e | 0 <= k < |a.lines| && e in sorted && e.id !in Staff(a)
      ensures Get(c.work, a.lines[k]) <= Get(c.work, e.id)
    {
      assert e.id != a.livechat && e.id !in a.lines by {
        assert Staff(a)[0] == a.livechat;
        assert forall x | x in a.lines :: x in Staff(a);
      }
      assert e in remaining;
    }
  }

  /** In ascending candidates, the first one meeting the balance rule, or
      the first one when none does, follows the livechat rule. */
  lemma FirstBalancedByHours(sorted: seq<Employee>, daily: set<EmpId>, c: Counters)
    requires |sorted| > 0 && Ascending(sorted, c)
    ensures FirstBalanced(sorted, daily, c).Some? ==>
      LivechatRule(sorted[FirstBalanced(sorted, daily, c).value].id, sorted, daily, c)
    ensures FirstBalanced(sorted, daily, c).None? ==> LivechatRule(sorted[0].id, sorted, daily, c)
  {
    var first := FirstBalanced(sorted, daily, c);
    if first.Some? {
      var lc := sorted[first.value];
      forall f | f in sorted && Get(c.work, f.id) < Get(c.work, lc.id)
        ensures !Balanced(f, daily, c)
      {
        var j :| 0 <= j < |sorted| && sorted[j] == f;
        assert j < first.value;
      }
      assert lc in sorted;
    } else {
      var lc := sorted[0];
      forall f | f in sorted
        ensures !Balanced(f, daily, c) && Get(c.work, lc.id) <= Get(c.work, f.id)
      {
        var j :| 0 <= j < |sorted| && sorted[j] == f;
      }
      assert lc in sorted;
    }
  }

  /** From ascending candidates, the livechat pick follows the livechat
      rule. */
  lemma PickLivechatByHours(sorted: seq<Employee>, daily: set<EmpId>, c: Counters)
    requires |sorted| > 0 && Ascending(sorted, c)
    ensures LivechatRule(Pick(sorted, daily, c).livechat, sorted, daily, c)
  {
    FirstBalancedByHours(sorted, daily, c);
  }

  /** Both hour rules depend only on who the candidates are. */
  lemma HourRulesByMembers(a: Assignment, s: seq<Employee>, t: seq<Employee>, daily: set<EmpId>, c: Counters)
    requires forall e :: e in s <==> e in t
    requires LinesLeastLoaded(a, s, c) && LivechatRule(a.livechat, s, daily, c)
    ensures LinesLeastLoaded(a, t, c) && LivechatRule(a.livechat, t, daily, c)
  {
    var e :| e in s && e.id == a.livechat &&
      if Balanced(e, daily, c) then
        forall f | f in s && Get(c.work, f.id) < Get(c.work, e.id) :: !Balanced(f, daily, c)
      else
        forall f | f in s :: !Balanced(f, daily, c) && Get(c.work, e.id) <= Get(c.work, f.id);
    assert e in t;
  }

  /** `autoComplete`'s choice for a window, in order of hours: the lines
      go to the least-loaded candidates besides the livechat agent, and the
      livechat agent is the least-loaded candidate meeting the balance rule,
      or the least-loaded candidate when none meets it. */
  lemma SelectWindowByHours(employees: seq<Employee>, config: ScheduleConfig, active: seq<Employee>,
                            w: Shift, daily: set<EmpId>, c: Counters)
    requires w.end < SLOT_COUNT
    ensures SelectWindow(employees, config, active, w, daily, c).Some? ==>
      && LinesLeastLoaded(SelectWindow(employees, config, active, w, daily, c).value,
                          Available(employees, config, active, w), c)
      && LivechatRule(SelectWindow(employees, config, active, w, daily, c).value.livechat,
                      Available(employees, config, active, w), daily, c)
  {
    var candidates := Available(employees, config, active, w);
    if |candidates| >= MIN_STAFF {
      var sorted := SortByHours(candidates, c);
      forall e ensures e in sorted <==> e in candidates {
        InMultiset(e, sorted, candidates);
      }
      PickLinesByHours(sorted, daily, c);
      PickLivechatByHours(sorted, daily, c);
      HourRulesByMembers(Pick(sorted, daily, c), sorted, candidates, daily, c);
    }
  }

  lemma ValidStep(employees: seq<Employee>, config: ScheduleConfig, active: seq<Employee>,
                  plan: seq<Option<Assignment>>, shifts: seq<Shift>, a: Option<Assignment>, rest: seq<Option<Assignment>>)
    requires |shifts| > 0 && |rest| == |shifts| - 1 && plan == [a] + rest
    requires forall k | 0 <= k < |shifts| :: shifts[k].end < SLOT_COUNT
    requires ValidChoice(employees, config, active, shifts[0], a)
    requires forall k | 0 <= k < |rest| :: ValidChoice(employees, config, active, shifts[1..][k], rest[k])
    ensures forall k | 0 <= k < |shifts| :: ValidChoice(employees, config, active, shifts[k], plan[k])
  {
    forall k | 0 <= k < |shifts| ensures ValidChoice(employees, config, active, shifts[k], plan[k]) {
      if k > 0 {
        assert plan[k] == rest[k - 1] && shifts[k] == shifts[1..][k - 1];
      }
    }
  }

  lemma {:induction false} PlanShiftsValid(employees: seq<Employee>, config: ScheduleConfig, active: seq<Employee>,
                                           shifts: seq<Shift>, daily: set<EmpId>, c: Counters)
    requires forall k | 0 <= k < |shifts| :: shifts[k].end < SLOT_COUNT
    ensures forall k | 0 <= k < |shifts| ::
      ValidChoice(employees, config, active, shifts[k], PlanShifts(employees, config, active, shifts, daily, c).0[k])
    decreases |shifts|
  {
    if |shifts| > 0 {
      var a := SelectWindow(employees, config, active, shifts[0], daily, c);
      SelectWindowValid(employees, config, active, shifts[0], daily, c);
      var r := PlanShifts(employees, config, active, shifts, daily, c);
      var mid := if a.Some? then Credit(c, a.value, Length(shifts[0])) else c;
      var daily' := if a.Some? then daily + AssignedIds(a.value) else daily;
      PlanShiftsValid(employees, config, active, shifts[1..], daily', mid);
      var next := PlanShifts(employees, config, active, shifts[1..], daily', mid);
      ValidStep(employees, config, active, r.0, shifts, a, next.0);
    }
  }

  /** Every window of a day is chosen validly. */
  ghost predicate ValidDay(employees: seq<Employee>, config: ScheduleConfig, active: seq<Employee>,
                           plan: seq<Option<Assignment>>)
  {
    |plan| == |SHIFTS| && forall k | 0 <= k < |SHIFTS| :: ValidChoice(employees, config, active, SHIFTS[k], plan[k])
  }

  lemma {:induction false} PlanDaysValid(employees: seq<Employee>, config: ScheduleConfig, active: seq<Employee>,
                                         days: seq<Day>, c: Counters)
    ensures forall j | 0 <= j < |days| :: ValidDay(employees, config, active, PlanDays(employees, config, active, days, c).0[j])
    decreases |days|
  {
    if |days| > 0 {
      var today := PlanShifts(employees, config, active, SHIFTS, {}, c);
      PlanShiftsValid(employees, config, active, SHIFTS, {}, c);
      assert ValidDay(employees, config, active, today.0);
      PlanDaysValid(employees, config, active, days[1..], today.1);
      var rest := PlanDays(employees, config, active, days[1..], today.1).0;
      var plans := PlanDays(employees, config, active, days, c).0;
      assert plans == [today.0] + rest;
      forall j | 0 <= j < |days|
        ensures ValidDay(employees, config, active, plans[j])
      {
        if j > 0 {
          assert plans[j] == rest[j - 1];
        } else {
          assert plans[j] == today.0;
        }
      }
    }
  }
  /** `r` is the rendering of the week's choices `plans`: every weekday is
      present and each cell shows what its window's choice puts in its row. */
  ghost predicate BuiltFrom(r: Schedule, plans: seq<seq<Option<Assignment>>>) {
    && |plans| == |DAYS|
    && (forall j | 0 <= j < |DAYS| :: |plans[j]| == |SHIFTS|)
    && (forall d: Day :: d in r)
    && forall d: Day, p, i | 0 <= p < ROW_COUNT && 0 <= i < SLOT_COUNT ::
         Cell(r[d], p, i) == AtRow(plans[DayIndex(d)][WindowOf(i)], p)
  }

  /** Every day's choices are valid. */
  ghost predicate WeekValid(employees: seq<Employee>, config: ScheduleConfig, active: seq<Employee>,
                            plans: seq<seq<Option<Assignment>>>)
  {
    forall j | 0 <= j < |plans| :: ValidDay(employees, config, active, plans[j])
  }

  /** With at least four active employees, `autoComplete` renders the
      week's choices, and they are valid. */
  lemma AutoCompleteBuilt(employees: seq<Employee>, config: ScheduleConfig, s: Schedule)
    requires |ActiveEmployees(employees)| >= MIN_STAFF
    ensures BuiltFrom(AutoComplete(employees, config, s), PlanWeek(employees, config).0)
    ensures WeekValid(employees, config, ActiveEmployees(employees), PlanWeek(employees, config).0)
  {
    var active := ActiveEmployees(employees);
    PlanDaysValid(employees, config, active, DAYS, InitCounters(active));
  }

  /** Row `p` of a window shows the `p`-th member of its staff. */
  lemma AtRowStaff(a: Assignment, p: nat)
    ensures AtRow(Some(a), p) == if p < |Staff(a)| then Some(Staff(a)[p]) else None
  {
  }

  /** A cell of a built grid and the valid choice behind it. */
  lemma BuiltCell(employees: seq<Employee>, config: ScheduleConfig, active: seq<Employee>,
                  r: Schedule, plans: seq<seq<Option<Assignment>>>, d: Day, p: nat, i: nat)
    requires BuiltFrom(r, plans) && WeekValid(employees, config, active, plans)
    requires p < ROW_COUNT && i < SLOT_COUNT
    ensures d in r
    ensures Cell(r[d], p, i) == AtRow(plans[DayIndex(d)][WindowOf(i)], p)
    ensures ValidChoice(employees, config, active, SHIFTS[WindowOf(i)], plans[DayIndex(d)][WindowOf(i)])
  {
    assert ValidDay(employees, config, active, plans[DayIndex(d)]);
  }

  /** A person shown in a built grid is an available candidate of the
      cell's window. */
  lemma BuiltCellCandidate(employees: seq<Employee>, config: ScheduleConfig, active: seq<Employee>,
                           r: Schedule, plans: seq<seq<Option<Assignment>>>, d: Day, p: nat, i: nat)
    requires BuiltFrom(r, plans) && WeekValid(employees, config, active, plans)
    requires p < ROW_COUNT && i < SLOT_COUNT && Cell(r[d], p, i).Some?
    ensures exists e | e in Available(employees, config, active, SHIFTS[WindowOf(i)]) :: e.id == Cell(r[d], p, i).value
  {
    BuiltCell(employees, config, active, r, plans, d, p, i);
    var a := plans[DayIndex(d)][WindowOf(i)].value;
    AtRowStaff(a, p);
    assert Staff(a)[p] in Ids(Available(employees, config, active, SHIFTS[WindowOf(i)]));
  }

  /** In a built grid every person shown is one of `active`. */
  lemma BuiltOnlyActive(employees: seq<Employee>, config: ScheduleConfig, active: seq<Employee>,
                        r: Schedule, plans: seq<seq<Option<Assignment>>>)
    requires BuiltFrom(r, plans) && WeekValid(employees, config, active, plans)
    ensures forall d, p, i | d in r && 0 <= p < ROW_COUNT && 0 <= i < SLOT_COUNT ::
      Cell(r[d], p, i).Some? ==> exists e | e in active :: e.id == Cell(r[d], p, i).value
  {
    forall d, p, i | d in r && 0 <= p < ROW_COUNT && 0 <= i < SLOT_COUNT && Cell(r[d], p, i).Some?
      ensures exists e | e in active :: e.id == Cell(r[d], p, i).value
    {
      BuiltCellCandidate(employees, config, active, r, plans, d, p, i);
    }
  }

  /** Only active employees appear on the rebuilt grid. */
  lemma AutoCompleteOnlyActive(employees: seq<Employee>, config: ScheduleConfig, s: Schedule)
    requires |ActiveEmployees(employees)| >= MIN_STAFF
    ensures forall d, p, i | d in AutoComplete(employees, config, s) && 0 <= p < ROW_COUNT && 0 <= i < SLOT_COUNT ::
      Cell(AutoComplete(employees, config, s)[d], p, i).Some? ==>
        exists e | e in employees :: e.active && e.id == Cell(AutoComplete(employees, config, s)[d], p, i).value
  {
    var r := AutoComplete(employees, config, s);
    var active := ActiveEmployees(employees);
    AutoCompleteBuilt(employees, config, s);
    BuiltOnlyActive(employees, config, active, r, PlanWeek(employees, config).0);
  }

  /** In a built grid nobody shown is at lunch in that slot. */
  lemma BuiltRespectsLunch(employees: seq<Employee>, config: ScheduleConfig, active: seq<Employee>,
                           r: Schedule, plans: seq<seq<Option<Assignment>>>)
    requires BuiltFrom(r, plans) && WeekValid(employees, config, active, plans)
    ensures forall d, p, i | d in r && 0 <= p < ROW_COUNT && 0 <= i < SLOT_COUNT ::
      Cell(r[d], p, i).Some? ==> !IsEmployeeLunchTime(employees, config, Cell(r[d], p, i).value, Display(i))
  {
    forall d, p, i | d in r && 0 <= p < ROW_COUNT && 0 <= i < SLOT_COUNT && Cell(r[d], p, i).Some?
      ensures !IsEmployeeLunchTime(employees, config, Cell(r[d], p, i).value, Display(i))
    {
      var w := SHIFTS[WindowOf(i)];
      BuiltCellCandidate(employees, config, active, r, plans, d, p, i);
      var e :| e in Available(employees, config, active, w) && e.id == Cell(r[d], p, i).value;
      assert LunchFree(employees, config, e.id, w);
    }
  }

  /** Nobody is placed on a slot that is lunch time for them. */
  lemma AutoCompleteRespectsLunch(employees: seq<Employee>, config: ScheduleConfig, s: Schedule)
    requires |ActiveEmployees(employees)| >= MIN_STAFF
    ensures forall d, p, i | d in AutoComplete(employees, config, s) && 0 <= p < ROW_COUNT && 0 <= i < SLOT_COUNT ::
      Cell(AutoComplete(employees, config, s)[d], p, i).Some? ==>
        !IsEmployeeLunchTime(employees, config, Cell(AutoComplete(employees, config, s)[d], p, i).value, Display(i))
  {
    AutoCompleteBuilt(employees, config, s);
    BuiltRespectsLunch(employees, config, ActiveEmployees(employees), AutoComplete(employees, config, s), PlanWeek(employees, config).0);
  }

  /** In a built grid with valid choices and unique ids, a cell is empty
      exactly when its window has fewer than four candidates. */
  lemma BuiltCellFilled(employees: seq<Employee>, config: ScheduleConfig, active: seq<Employee>,
                        r: Schedule, plans: seq<seq<Option<Assignment>>>, d: Day, p: nat, i: nat)
    requires BuiltFrom(r, plans) && WeekValid(employees, config, active, plans) && UniqueIds(active)
    requires p < ROW_COUNT && i < SLOT_COUNT
    ensures Cell(r[d], p, i).None? <==> |Available(employees, config, active, SHIFTS[WindowOf(i)])| < MIN_STAFF
  {
    BuiltCell(employees, config, active, r, plans, d, p, i);
    var o := plans[DayIndex(d)][WindowOf(i)];
    if o.Some? {
      AtRowStaff(o.value, p);
    }
  }

  /** In a built grid with valid choices and unique ids, each cell is empty
      exactly when its window has fewer than four candidates. */
  lemma BuiltFillsWindows(employees: seq<Employee>, config: ScheduleConfig, active: seq<Employee>,
                          r: Schedule, plans: seq<seq<Option<Assignment>>>)
    requires BuiltFrom(r, plans) && WeekValid(employees, config, active, plans) && UniqueIds(active)
    ensures forall d: Day, p, i | 0 <= p < ROW_COUNT && 0 <= i < SLOT_COUNT ::
      Cell(r[d], p, i).None? <==> |Available(employees, config, active, SHIFTS[WindowOf(i)])| < MIN_STAFF
  {
    forall d: Day, p, i | 0 <= p < ROW_COUNT && 0 <= i < SLOT_COUNT
      ensures Cell(r[d], p, i).None? <==> |Available(employees, config, active, SHIFTS[WindowOf(i)])| < MIN_STAFF
    {
      BuiltCellFilled(employees, config, active, r, plans, d, p, i);
    }
  }

  /** With unique ids, every window of every day is either empty in all
      four rows or filled in all four: empty exactly when fewer than four
      active employees are free of lunch throughout it. */
  lemma AutoCompleteFillsWindows(employees: seq<Employee>, config: ScheduleConfig, s: Schedule)
    requires |ActiveEmployees(employees)| >= MIN_STAFF && UniqueIds(employees)
    ensures forall d: Day :: d in AutoComplete(employees, config, s)
    ensures forall d, p, i | 0 <= p < ROW_COUNT && 0 <= i < SLOT_COUNT ::
      Cell(AutoComplete(employees, config, s)[d], p, i).None? <==>
        |Available(employees, config, ActiveEmployees(employees), SHIFTS[WindowOf(i)])| < MIN_STAFF
  {
    AutoCompleteBuilt(employees, config, s);
    BuiltFillsWindows(employees, config, ActiveEmployees(employees), AutoComplete(employees, config, s), PlanWeek(employees, config).0);
  }

  /** Within a window every row holds the same person throughout. */
  lemma AutoCompleteWindowsUniform(employees: seq<Employee>, config: ScheduleConfig, s: Schedule)
    requires |ActiveEmployees(employees)| >= MIN_STAFF
    ensures forall d, p, i, j | 0 <= p < ROW_COUNT && 0 <= i < SLOT_COUNT && 0 <= j < SLOT_COUNT && WindowOf(i) == WindowOf(j) ::
      Cell(AutoComplete(employees, config, s)[d], p, i) == Cell(AutoComplete(employees, config, s)[d], p, j)
  {
    AutoCompleteBuilt(employees, config, s);
  }

  /** In a built grid with valid choices and unique ids, two rows of one
      slot never show the same person. */
  lemma BuiltRowsDiffer(employees: seq<Employee>, config: ScheduleConfig, active: seq<Employee>,
                        r: Schedule, plans: seq<seq<Option<Assignment>>>, d: Day, i: nat, p: nat, q: nat)
    requires BuiltFrom(r, plans) && WeekValid(employees, config, active, plans) && UniqueIds(active)
    requires i < SLOT_COUNT && p < q < ROW_COUNT
    ensures Cell(r[d], p, i).Some? ==> Cell(r[d], p, i) != Cell(r[d], q, i)
  {
    BuiltCell(employees, config, active, r, plans, d, p, i);
    BuiltCell(employees, config, active, r, plans, d, q, i);
    var o := plans[DayIndex(d)][WindowOf(i)];
    if o.Some? {
      AtRowStaff(o.value, p);
      AtRowStaff(o.value, q);
    }
  }

  /** With unique ids the rebuilt grid never books anyone twice at once. */
  lemma AutoCompleteNoDoubleBooking(employees: seq<Employee>, config: ScheduleConfig, s: Schedule)
    requires |ActiveEmployees(employees)| >= MIN_STAFF && UniqueIds(employees)
    ensures NoDoubleBooking(AutoComplete(employees, config, s))
  {
    var r := AutoComplete(employees, config, s);
    var plans := PlanWeek(employees, config).0;
    var active := ActiveEmployees(employees);
    AutoCompleteBuilt(employees, config, s);
    forall d, i, p, q | d in r && 0 <= i < SLOT_COUNT && 0 <= p < q < ROW_COUNT && Cell(r[d], p, i).Some?
      ensures Cell(r[d], p, i) != Cell(r[d], q, i)
    {
      BuiltRowsDiffer(employees, config, active, r, plans, d, i, p, q);
    }
  }

  /** `n` units when the cell value `o` is `x`. */
  function Units(o: Option<EmpId>, x: EmpId, n: nat): nat {
    if o == Some(x) then n else 0
  }

  /** The units row `p` gives `x` over windows `shifts` under choices `plan`. */
  function WindowUnits(plan: seq<Option<Assignment>>, shifts: seq<Shift>, p: nat, x: EmpId): nat
    requires |plan| == |shifts|
  {
    if |plan| == 0 then 0
    else Units(AtRow(plan[0], p), x, Length(shifts[0])) + WindowUnits(plan[1..], shifts[1..], p, x)
  }

  /** The units the three call rows give `x`. */
  function CallUnits(plan: seq<Option<Assignment>>, shifts: seq<Shift>, x: EmpId): nat
    requires |plan| == |shifts|
  {
    WindowUnits(plan, shifts, 1, x) + WindowUnits(plan, shifts, 2, x) + WindowUnits(plan, shifts, 3, x)
  }

  /** The units row `p` gives `x` over a week of choices. */
  function WeekUnits(plans: seq<seq<Option<Assignment>>>, p: nat, x: EmpId): nat
    requires forall j | 0 <= j < |plans| :: |plans[j]| == |SHIFTS|
  {
    if |plans| == 0 then 0 else WindowUnits(plans[0], SHIFTS, p, x) + WeekUnits(plans[1..], p, x)
  }

  /** The credit of the line picks is the credit of the three call rows. */
  lemma LineUnitsRows(a: Assignment, x: EmpId, n: nat)
    requires |a.lines| <= LINE_COUNT
    ensures LineUnits(a.lines, x, n)
         == Units(AtRow(Some(a), 1), x, n) + Units(AtRow(Some(a), 2), x, n) + Units(AtRow(Some(a), 3), x, n)
  {
    var l := a.lines;
    if |l| > 0 {
      assert LineUnits(l, x, n) == Units(Some(l[0]), x, n) + LineUnits(l[1..], x, n);
      if |l| > 1 {
        assert LineUnits(l[1..], x, n) == Units(Some(l[1]), x, n) + LineUnits(l[2..], x, n);
        if |l| > 2 {
          assert LineUnits(l[2..], x, n) == Units(Some(l[2]), x, n) + LineUnits(l[3..], x, n);
        }
      }
    }
  }

  /** A filled window credits its slots to the person in each row. */
  lemma CreditRows(c: Counters, a: Assignment, n: nat, x: EmpId)
    requires |a.lines| <= LINE_COUNT
    ensures Get(Credit(c, a, n).live, x) == Get(c.live, x) + Units(AtRow(Some(a), 0), x, n)
    ensures Get(Credit(c, a, n).lig, x)
         == Get(c.lig, x) + Units(AtRow(Some(a), 1), x, n) + Units(AtRow(Some(a), 2), x, n) + Units(AtRow(Some(a), 3), x, n)
  {
    LineUnitsRows(a, x, n);
  }

  /** One window's step of the counters: from the counters before it, over
      the window's credit, to the counters after the remaining windows. */
  lemma CountsStep(plan: seq<Option<Assignment>>, shifts: seq<Shift>, a: Option<Assignment>, rest: seq<Option<Assignment>>,
                   c: Counters, mid: Counters, end: Counters, x: EmpId)
    requires |shifts| > 0 && |rest| == |shifts| - 1 && plan == [a] + rest
    requires a.Some? ==> |a.value.lines| <= LINE_COUNT && mid == Credit(c, a.value, Length(shifts[0]))
    requires a.None? ==> mid == c
    requires Get(end.live, x) == Get(mid.live, x) + WindowUnits(rest, shifts[1..], 0, x)
    requires Get(end.lig, x) == Get(mid.lig, x) + CallUnits(rest, shifts[1..], x)
    ensures Get(end.live, x) == Get(c.live, x) + WindowUnits(plan, shifts, 0, x)
    ensures Get(end.lig, x) == Get(c.lig, x) + CallUnits(plan, shifts, x)
  {
    assert plan[0] == a && plan[1..] == rest;
    if a.Some? {
      CreditRows(c, a.value, Length(shifts[0]), x);
    }
  }

  /** The counters after a day's windows: each window credits its slots to
      the person in each row. */
  lemma {:induction false} PlanShiftsCounts(employees: seq<Employee>, config: ScheduleConfig, active: seq<Employee>,
                                            shifts: seq<Shift>, daily: set<EmpId>, c: Counters, x: EmpId)
    requires forall k | 0 <= k < |shifts| :: shifts[k].end < SLOT_COUNT
    ensures Get(PlanShifts(employees, config, active, shifts, daily, c).1.live, x)
         == Get(c.live, x) + WindowUnits(PlanShifts(employees, config, active, shifts, daily, c).0, shifts, 0, x)
    ensures Get(PlanShifts(employees, config, active, shifts, daily, c).1.lig, x)
         == Get(c.lig, x) + CallUnits(PlanShifts(employees, config, active, shifts, daily, c).0, shifts, x)
    decreases |shifts|
  {
    if |shifts| > 0 {
      var a := SelectWindow(employees, config, active, shifts[0], daily, c);
      var r := PlanShifts(employees, config, active, shifts, daily, c);
      var mid := if a.Some? then Credit(c, a.value, Length(shifts[0])) else c;
      var daily' := if a.Some? then daily + AssignedIds(a.value) else daily;
      PlanShiftsCounts(employees, config, active, shifts[1..], daily', mid, x);
      var next := PlanShifts(employees, config, active, shifts[1..], daily', mid);
      CountsStep(r.0, shifts, a, next.0, c, mid, r.1, x);
    }
  }

  /** The counters after the week: the sum of every window of every day. */
  lemma {:induction false} PlanDaysCounts(employees: seq<Employee>, config: ScheduleConfig, active: seq<Employee>,
                                          days: seq<Day>, c: Counters, x: EmpId)
    ensures Get(PlanDays(employees, config, active, days, c).1.live, x)
         == Get(c.live, x) + WeekUnits(PlanDays(employees, config, active, days, c).0, 0, x)
    ensures Get(PlanDays(employees, config, active, days, c).1.lig, x)
         == Get(c.lig, x) + WeekUnits(PlanDays(employees, config, active, days, c).0, 1, x)
            + WeekUnits(PlanDays(employees, config, active, days, c).0, 2, x)
            + WeekUnits(PlanDays(employees, config, active, days, c).0, 3, x)
    decreases |days|
  {
    if |days| > 0 {
      var today := PlanShifts(employees, config, active, SHIFTS, {}, c);
      PlanShiftsCounts(employees, config, active, SHIFTS, {}, c, x);
      PlanDaysCounts(employees, config, active, days[1..], today.1, x);
      var rest := PlanDays(employees, config, active, days[1..], today.1);
      var r := PlanDays(employees, config, active, days, c);
      assert r.0 == [today.0] + rest.0 && r.1 == rest.1;
      assert r.0[0] == today.0 && r.0[1..] == rest.0;
    }
  }
  /** Under the three windows, the units of a row are its window credits. */
  lemma WindowUnitsOfShifts(plan: seq<Option<Assignment>>, p: nat, x: EmpId)
    requires |plan| == |SHIFTS|
    ensures WindowUnits(plan, SHIFTS, p, x)
         == Units(AtRow(plan[0], p), x, 8) + Units(AtRow(plan[1], p), x, 8) + Units(AtRow(plan[2], p), x, 4)
  {
    assert plan[1..][1..] == plan[2..] && SHIFTS[1..][1..] == SHIFTS[2..];
    assert WindowUnits(plan, SHIFTS, p, x) == Units(AtRow(plan[0], p), x, 8) + WindowUnits(plan[1..], SHIFTS[1..], p, x);
    assert WindowUnits(plan[1..], SHIFTS[1..], p, x) == Units(AtRow(plan[1], p), x, 8) + WindowUnits(plan[2..], SHIFTS[2..], p, x);
    assert WindowUnits(plan[2..], SHIFTS[2..], p, x) == Units(AtRow(plan[2], p), x, 4) + WindowUnits(plan[3..], SHIFTS[3..], p, x);
  }

  /** The part of a rendered row under window `k` counts the window's
      length when its choice puts `x` in the row, and nothing otherwise. */
  lemma RenderWindowCount(d: Day, plan: seq<Option<Assignment>>, p: nat, k: nat, x: EmpId)
    requires |plan| == |SHIFTS| && p < ROW_COUNT && k < |SHIFTS|
    ensures CountInRow(RenderRow(d, plan, p)[SHIFTS[k].start..SHIFTS[k].end + 1], x)
         == Units(AtRow(plan[k], p), x, Length(SHIFTS[k]))
  {
    var row := RenderRow(d, plan, p);
    var w := SHIFTS[k];
    var part := row[w.start..w.end + 1];
    forall i | 0 <= i < |part| ensures part[i].employeeId == AtRow(plan[k], p) {
      assert part[i] == row[w.start + i];
    }
    CountInUniformRow(part, AtRow(plan[k], p), x);
  }

  /** A rendered row counts, for `x`, the slots of the windows whose choice
      puts `x` in that row. */
  lemma RenderRowCount(d: Day, plan: seq<Option<Assignment>>, p: nat, x: EmpId)
    requires |plan| == |SHIFTS| && p < ROW_COUNT
    ensures CountInRow(RenderRow(d, plan, p), x) == WindowUnits(plan, SHIFTS, p, x)
  {
    var row := RenderRow(d, plan, p);
    var a, b, e := row[0..8], row[8..16], row[16..20];
    assert row == a + b + e;
    assert Length(SHIFTS[0]) == 8 && Length(SHIFTS[1]) == 8 && Length(SHIFTS[2]) == 4;
    CountInRowConcat(a + b, e, x);
    CountInRowConcat(a, b, x);
    RenderWindowCount(d, plan, p, 0, x);
    RenderWindowCount(d, plan, p, 1, x);
    RenderWindowCount(d, plan, p, 2, x);
    WindowUnitsOfShifts(plan, p, x);
  }

  /** A rendered day's stats are its window credits per channel. */
  lemma RenderDayStats(d: Day, plan: seq<Option<Assignment>>, x: EmpId)
    requires |plan| == |SHIFTS|
    ensures DayStats(RenderDay(d, plan), x).livechat == WindowUnits(plan, SHIFTS, 0, x)
    ensures DayStats(RenderDay(d, plan), x).ligacao == CallUnits(plan, SHIFTS, x)
  {
    var dr := RenderDay(d, plan);
    RenderRowCount(d, plan, 0, x);
    RenderRowCount(d, plan, 1, x);
    RenderRowCount(d, plan, 2, x);
    RenderRowCount(d, plan, 3, x);
    var rows := dr.ligacao;
    assert rows[1..][1..] == rows[2..] && rows[2..][1..] == rows[3..];
    assert CountInRows(rows, x) == CountInRow(rows[0], x) + CountInRows(rows[1..], x);
    assert CountInRows(rows[1..], x) == CountInRow(rows[1], x) + CountInRows(rows[2..], x);
    assert CountInRows(rows[2..], x) == CountInRow(rows[2], x) + CountInRows(rows[3..], x);
  }
  /** Every weekday of `s` is materialised and its stats for `x` are the
      credits of that day's choices. */
  ghost predicate DaysCredited(s: Schedule, plans: seq<seq<Option<Assignment>>>, x: EmpId)
    requires |plans| == |DAYS| && forall j | 0 <= j < |DAYS| :: |plans[j]| == |SHIFTS|
  {
    forall j | 0 <= j < |DAYS| ::
      && DAYS[j] in s
      && DayStats(s[DAYS[j]], x).livechat == WindowUnits(plans[j], SHIFTS, 0, x)
      && DayStats(s[DAYS[j]], x).ligacao == CallUnits(plans[j], SHIFTS, x)
  }

  /** The stats from day `m` on are the credits of those days. */
  lemma {:induction false} WeekStats(s: Schedule, plans: seq<seq<Option<Assignment>>>, m: nat, x: EmpId)
    requires |plans| == |DAYS| && (forall j | 0 <= j < |DAYS| :: |plans[j]| == |SHIFTS|) && m <= |DAYS|
    requires DaysCredited(s, plans, x)
    ensures SumDays(DAYS[m..], s, x).livechat == WeekUnits(plans[m..], 0, x)
    ensures SumDays(DAYS[m..], s, x).ligacao
         == WeekUnits(plans[m..], 1, x) + WeekUnits(plans[m..], 2, x) + WeekUnits(plans[m..], 3, x)
    decreases |DAYS| - m
  {
    if m < |DAYS| {
      WeekStats(s, plans, m + 1, x);
      assert DAYS[m..][0] == DAYS[m] && DAYS[m..][1..] == DAYS[m + 1..];
      assert plans[m..][0] == plans[m] && plans[m..][1..] == plans[m + 1..];
      SumDaysStep(DAYS[m..], s, x);
    }
  }

  /** The rendered week credits every day. */
  lemma RenderCredited(plans: seq<seq<Option<Assignment>>>, x: EmpId)
    requires |plans| == |DAYS| && forall j | 0 <= j < |DAYS| :: |plans[j]| == |SHIFTS|
    ensures DaysCredited(Render(plans), plans, x)
  {
    forall j | 0 <= j < |DAYS|
      ensures DAYS[j] in Render(plans)
      ensures DayStats(Render(plans)[DAYS[j]], x).livechat == WindowUnits(plans[j], SHIFTS, 0, x)
      ensures DayStats(Render(plans)[DAYS[j]], x).ligacao == CallUnits(plans[j], SHIFTS, x)
    {
      RenderedDay(plans, j);
      RenderDayStats(DAYS[j], plans[j], x);
    }
  }

  /** One step of the sum over days, per channel. */
  lemma SumDaysStep(days: seq<Day>, s: Schedule, x: EmpId)
    requires |days| > 0 && days[0] in s
    ensures SumDays(days, s, x).livechat == DayStats(s[days[0]], x).livechat + SumDays(days[1..], s, x).livechat
    ensures SumDays(days, s, x).ligacao == DayStats(s[days[0]], x).ligacao + SumDays(days[1..], s, x).ligacao
  {
  }

  /** Day `m` of the rendered week is the rendering of the `m`-th choices. */
  lemma RenderedDay(plans: seq<seq<Option<Assignment>>>, m: nat)
    requires |plans| == |DAYS| && (forall j | 0 <= j < |DAYS| :: |plans[j]| == |SHIFTS|) && m < |DAYS|
    ensures DAYS[m] in Render(plans) && Render(plans)[DAYS[m]] == RenderDay(DAYS[m], plans[m])
  {
    DaysListed();
    assert DayIndex(DAYS[m]) == m;
  }

  /** A week whose days are credited by `plans` has, as stats, the counters
      that start at zero and take those credits. */
  lemma StatsFromCredits(s: Schedule, plans: seq<seq<Option<Assignment>>>, c0: Counters, c: Counters, x: EmpId)
    requires |plans| == |DAYS| && (forall j | 0 <= j < |DAYS| :: |plans[j]| == |SHIFTS|)
    requires DaysCredited(s, plans, x)
    requires Get(c0.live, x) == 0 && Get(c0.lig, x) == 0
    requires Get(c.live, x) == Get(c0.live, x) + WeekUnits(plans, 0, x)
    requires Get(c.lig, x) == Get(c0.lig, x) + WeekUnits(plans, 1, x) + WeekUnits(plans, 2, x) + WeekUnits(plans, 3, x)
    ensures GetEmployeeStats(s, x).livechat == Get(c.live, x)
    ensures GetEmployeeStats(s, x).ligacao == Get(c.lig, x)
  {
    WeekStats(s, plans, 0, x);
    assert DAYS[0..] == DAYS && plans[0..] == plans;
  }

  /** The stats of a rendered week are the counters that start at zero
      and take the credits of its choices. */
  lemma RenderedStats(plans: seq<seq<Option<Assignment>>>, c0: Counters, c: Counters, x: EmpId)
    requires |plans| == |DAYS| && (forall j | 0 <= j < |DAYS| :: |plans[j]| == |SHIFTS|)
    requires Get(c0.live, x) == 0 && Get(c0.lig, x) == 0 && Consistent(c)
    requires Get(c.live, x) == Get(c0.live, x) + WeekUnits(plans, 0, x)
    requires Get(c.lig, x) == Get(c0.lig, x) + WeekUnits(plans, 1, x) + WeekUnits(plans, 2, x) + WeekUnits(plans, 3, x)
    ensures GetEmployeeStats(Render(plans), x).livechat == Get(c.live, x)
    ensures GetEmployeeStats(Render(plans), x).ligacao == Get(c.lig, x)
    ensures GetEmployeeStats(Render(plans), x).total == Get(c.work, x)
  {
    RenderCredited(plans, x);
    StatsFromCredits(Render(plans), plans, c0, c, x);
  }

  /** The hour counters `autoComplete` keeps while it builds the week are
      exactly the hours `getEmployeeStats` reads off the grid it produces:
      per channel and in total, for every id. */
  lemma AutoCompleteHoursMatchCounters(employees: seq<Employee>, config: ScheduleConfig, s: Schedule, x: EmpId)
    requires |ActiveEmployees(employees)| >= MIN_STAFF
    ensures GetEmployeeStats(AutoComplete(employees, config, s), x).livechat == Get(PlanWeek(employees, config).1.live, x)
    ensures GetEmployeeStats(AutoComplete(employees, config, s), x).ligacao == Get(PlanWeek(employees, config).1.lig, x)
    ensures GetEmployeeStats(AutoComplete(employees, config, s), x).total == Get(PlanWeek(employees, config).1.work, x)
  {
    var active := ActiveEmployees(employees);
    var c0 := InitCounters(active);
    PlanDaysCounts(employees, config, active, DAYS, c0, x);
    RenderedStats(PlanWeek(employees, config).0, c0, PlanWeek(employees, config).1, x);
  }
}

=== FILE: click_grid.dfy ===
/** The click-to-assign grid (src/components/ScheduleGrid.tsx): a click
    puts the selected employee into one cell, with no conflict check. Its
    clear and read operations are the drag grid's. */
module ClickGrid {
  import opened Wrappers
  import opened TimeGrid
  import opened Roster
  import opened DragGrid

  /** `handleSlotClick`. Without a selected employee nothing is handed to
      the store (`None`). Otherwise a missing day is materialised empty, and
      the cell is overwritten when its label is on the grid and its row
      exists; the grid is handed over in every case. */
  function HandleSlotClick(s: Schedule, selected: Option<EmpId>, cell: SlotRef): (r: Option<Schedule>)
    requires WellFormed(s)
    ensures r.None? <==> selected.None?
    ensures r.Some? ==> WellFormed(r.value) && r.value.Keys == s.Keys + {cell.day}
  {
    if selected.None? then None
    else
      var slot := SlotIndex(cell.time);
      var row := if slot.Some? then RowOf(cell.channel, cell.line) else None;
      var i := if slot.Some? then slot.value else 0;
      Some(Commit(s, selected.value, cell.day, row, i, i))
  }

  /** A click sets exactly the addressed cell to the selected employee,
      whoever held it; the day appears if it was missing, and every other
      cell and every other day keep their values. */
  lemma ClickWritesCell(s: Schedule, selected: Option<EmpId>, cell: SlotRef)
    requires WellFormed(s) && selected.Some?
    ensures forall d | d in s && d != cell.day :: HandleSlotClick(s, selected, cell).value[d] == s[d]
    ensures forall p, i | 0 <= p < ROW_COUNT && 0 <= i < SLOT_COUNT ::
      Cell(HandleSlotClick(s, selected, cell).value[cell.day], p, i) ==
        if RowOf(cell.channel, cell.line) == Some(p) && SlotIndex(cell.time) == Some(i) then selected
        else if cell.day in s then Cell(s[cell.day], p, i) else None
  {
  }

  /** Reading the clicked cell back gives the selected employee. */
  lemma ClickThenRead(s: Schedule, selected: Option<EmpId>, cell: SlotRef)
    requires WellFormed(s) && selected.Some? && Addresses(cell)
    ensures GetSlotContent(HandleSlotClick(s, selected, cell).value, cell) == selected
  {
    var r := HandleSlotClick(s, selected, cell).value;
    ClickWritesCell(s, selected, cell);
    GetSlotContentIsCell(r, cell);
  }

  /** Clicking a cell twice is clicking it once. */
  lemma ClickIdempotent(s: Schedule, selected: Option<EmpId>, cell: SlotRef)
    requires WellFormed(s) && selected.Some?
    ensures HandleSlotClick(HandleSlotClick(s, selected, cell).value, selected, cell) == HandleSlotClick(s, selected, cell)
  {
    var once := HandleSlotClick(s, selected, cell).value;
    var twice := HandleSlotClick(once, selected, cell).value;
    ClickWritesCell(s, selected, cell);
    ClickWritesCell(once, selected, cell);
    forall p, i | 0 <= p < ROW_COUNT && 0 <= i < SLOT_COUNT
      ensures Cell(twice[cell.day], p, i) == Cell(once[cell.day], p, i)
    {
    }
    ScheduleExtensional(twice, once, cell.day);
  }

  /** Clearing a clicked cell undoes the click on a materialised day: the
      grid is the original grid with that cell cleared. */
  lemma ClickThenClear(s: Schedule, selected: Option<EmpId>, cell: SlotRef)
    requires WellFormed(s) && selected.Some? && cell.day in s
    ensures ClearSlot(HandleSlotClick(s, selected, cell).value, cell) == ClearSlot(s, cell)
  {
    var clicked := HandleSlotClick(s, selected, cell).value;
    var x := ClearSlot(clicked, cell);
    var y := ClearSlot(s, cell);
    ClickWritesCell(s, selected, cell);
    forall p, i | 0 <= p < ROW_COUNT && 0 <= i < SLOT_COUNT
      ensures Cell(x[cell.day], p, i) == Cell(y[cell.day], p, i)
    {
    }
    ScheduleExtensional(x, y, cell.day);
  }
}

=== FILE: drag_grid.dfy ===
/** The manual editing rules of the drag-and-drop grid
    (src/components/DragScheduleGrid.tsx): assigning a dragged range of
    one row, testing whether a cell lies in the current selection, reading a
    cell, clearing a cell, and grouping a row into runs of one employee. */
module DragGrid {
  import opened Wrappers
  import opened TimeGrid
  import opened Roster
  import opened Rules

  /** A cell as the grid addresses it: day, slot label, channel and, for a
      call line, the line. */
  datatype SlotRef = SlotRef(day: Day, time: string, channel: ChannelKind, line: Option<Line>)

  /** What a drag selection does. `Ignored` is a silent return (nothing
      selected, a missing endpoint, a label off the grid); the two
      rejections show an error; `Applied` hands the new grid to the store
      and reports `count` filled slots. */
  datatype DragOutcome =
    | Ignored
    | InvalidSelection
    | ConflictRejected
    | Applied(schedule: Schedule, count: nat)

  function Min(a: int, b: int): int { if a <= b then a else b }
  function Max(a: int, b: int): int { if a <= b then b else a }

  /** The two endpoints address the same row: same channel and, for the
      call channel, the same line. */
  predicate SameRow(a: SlotRef, b: SlotRef) {
    a.channel == b.channel && !(a.channel == Ligacao && a.line != b.line)
  }

  /** The row a selection writes, excluded from its own conflict check. */
  function SelectionExclusion(a: SlotRef): Exclusion {
    Exclusion(a.channel, a.line)
  }

  /** The exclusion a selection passes names exactly the row it writes. */
  lemma ExcludedIsRowOf(channel: ChannelKind, line: Option<Line>, q: nat)
    requires q < ROW_COUNT
    ensures Excluded(Some(Exclusion(channel, line)), q) <==> RowOf(channel, line) == Some(q)
  {
  }

  /** Whether `hasScheduleConflict` holds at some slot `i .. hi`; the
      source's loop stops at the first one. */
  function ConflictFrom(s: Schedule, id: EmpId, day: Day, exclude: Exclusion, i: nat, hi: nat): (r: bool)
    requires hi < SLOT_COUNT
    ensures r <==> exists j | i <= j <= hi :: HasScheduleConflict(s, id, day, Display(j), Some(exclude))
    decreases hi + 1 - i
  {
    if i > hi then false
    else if HasScheduleConflict(s, id, day, Display(i), Some(exclude)) then true
    else ConflictFrom(s, id, day, exclude, i + 1, hi)
  }

  /** The write step of a selection that passed its checks: the day is
      materialised empty if it is missing, then cells `lo .. hi` of `row`
      (if any) get `id`. */
  function Commit(s: Schedule, id: EmpId, day: Day, row: Option<nat>, lo: nat, hi: nat): (r: Schedule)
    requires WellFormed(s) && hi < SLOT_COUNT && (row.Some? ==> row.value < ROW_COUNT)
    ensures WellFormed(r) && r.Keys == s.Keys + {day}
    ensures forall d | d in s && d != day :: r[d] == s[d]
    ensures forall p, i | 0 <= p < ROW_COUNT && 0 <= i < SLOT_COUNT ::
      Cell(r[day], p, i) == if row == Some(p) && lo <= i <= hi then Some(id)
                            else if day in s then Cell(s[day], p, i) else None
  {
    var dr := if day in s then s[day] else EmptyDay(day);
    var dr' := if row.Some? then WriteRange(day, dr, row.value, lo, hi, Some(id)) else dr;
    PutDay(s, day, dr')
  }

  /** The range step of a selection: reject if the employee already holds
      another row at some slot of `lo .. hi`, otherwise commit and report
      the number of slots. */
  function ApplyRange(s: Schedule, id: EmpId, a: SlotRef, lo: nat, hi: nat): (r: DragOutcome)
    requires WellFormed(s) && lo <= hi < SLOT_COUNT
    ensures r.Applied? ==> WellFormed(r.schedule)
  {
    if ConflictFrom(s, id, a.day, SelectionExclusion(a), lo, hi) then ConflictRejected
    else Applied(Commit(s, id, a.day, RowOf(a.channel, a.line), lo, hi), hi - lo + 1)
  }

  /** A selection that passes the endpoint checks: the employee, the start
      and the end are given, they name one row, and both labels are on the
      grid. */
  predicate Checked(selected: Option<EmpId>, start: Option<SlotRef>, end: Option<SlotRef>) {
    && selected.Some? && start.Some? && end.Some? && SameRow(start.value, end.value)
    && SlotIndex(start.value.time).Some? && SlotIndex(end.value.time).Some?
  }

  /** The lower end of a checked selection, `Math.min(startIndex, endIndex)`. */
  function Lo(start: Option<SlotRef>, end: Option<SlotRef>): nat
    requires start.Some? && end.Some? && SlotIndex(start.value.time).Some? && SlotIndex(end.value.time).Some?
  {
    Min(SlotIndex(start.value.time).value, SlotIndex(end.value.time).value)
  }

  /** The upper end of a checked selection, `Math.max(startIndex, endIndex)`. */
  function Hi(start: Option<SlotRef>, end: Option<SlotRef>): (r: nat)
    requires start.Some? && end.Some? && SlotIndex(start.value.time).Some? && SlotIndex(end.value.time).Some?
    ensures Lo(start, end) <= r < SLOT_COUNT
  {
    Max(SlotIndex(start.value.time).value, SlotIndex(end.value.time).value)
  }

  /** `applyDragSelection`. The day and the row come from the start
      endpoint; a missing day is materialised empty before writing; a call
      selection without a line writes no cell but still hands the grid
      over. */
  function ApplyDragSelection(s: Schedule, selected: Option<EmpId>, start: Option<SlotRef>, end: Option<SlotRef>): (r: DragOutcome)
    requires WellFormed(s)
    ensures r.Applied? ==> WellFormed(r.schedule) && Checked(selected, start, end)
  {
    if selected.None? || start.None? || end.None? then Ignored
    else if !SameRow(start.value, end.value) then InvalidSelection
    else if SlotIndex(start.value.time).None? || SlotIndex(end.value.time).None? then Ignored
    else ApplyRange(s, selected.value, start.value, Lo(start, end), Hi(start, end))
  }

  /** A selection that fails the endpoint checks is ignored, or rejected
      as invalid when its endpoints name different rows. */
  lemma ApplyUnchecked(s: Schedule, selected: Option<EmpId>, start: Option<SlotRef>, end: Option<SlotRef>)
    requires WellFormed(s) && !Checked(selected, start, end)
    ensures ApplyDragSelection(s, selected, start, end) ==
      if selected.Some? && start.Some? && end.Some? && !SameRow(start.value, end.value) then InvalidSelection
      else Ignored
  {
  }

  /** A checked selection is decided by its range. */
  lemma ApplyChecked(s: Schedule, selected: Option<EmpId>, start: Option<SlotRef>, end: Option<SlotRef>)
    requires WellFormed(s) && Checked(selected, start, end)
    ensures ApplyDragSelection(s, selected, start, end) == ApplyRange(s, selected.value, start.value, Lo(start, end), Hi(start, end))
  {
  }

  /** The outcome of a selection: a silent return when nothing is selected,
      an endpoint is missing or a label is off the grid; a rejection when
      the endpoints name different rows, or when the employee already holds
      another row at some slot of the range; otherwise the committed grid,
      with `max - min + 1` reported. */
  lemma ApplyOutcome(s: Schedule, selected: Option<EmpId>, start: Option<SlotRef>, end: Option<SlotRef>)
    requires WellFormed(s)
    ensures ApplyDragSelection(s, selected, start, end).InvalidSelection? <==>
      selected.Some? && start.Some? && end.Some? && !SameRow(start.value, end.value)
    ensures ApplyDragSelection(s, selected, start, end).ConflictRejected? <==>
      Checked(selected, start, end) &&
      exists j | Lo(start, end) <= j <= Hi(start, end) ::
        HasScheduleConflict(s, selected.value, start.value.day, Display(j), Some(SelectionExclusion(start.value)))
    ensures ApplyDragSelection(s, selected, start, end).Applied? ==>
      && Checked(selected, start, end)
      && ApplyDragSelection(s, selected, start, end)
         == Applied(Commit(s, selected.value, start.value.day, RowOf(start.value.channel, start.value.line),
                           Lo(start, end), Hi(start, end)),
                    Hi(start, end) - Lo(start, end) + 1)
  {
    if Checked(selected, start, end) {
      ApplyChecked(s, selected, start, end);
    } else {
      ApplyUnchecked(s, selected, start, end);
    }
  }

  /** A successful selection sets exactly cells `min .. max` of the start's
      row on the start's day to the selected employee; a missing day appears
      empty, every other cell and every other day keep their values. */
  lemma ApplyWritesRange(s: Schedule, selected: Option<EmpId>, start: Option<SlotRef>, end: Option<SlotRef>)
    requires WellFormed(s)
    ensures ApplyDragSelection(s, selected, start, end).Applied? ==>
      ApplyDragSelection(s, selected, start, end).schedule.Keys == s.Keys + {start.value.day}
    ensures ApplyDragSelection(s, selected, start, end).Applied? ==>
      forall d | d in s && d != start.value.day :: ApplyDragSelection(s, selected, start, end).schedule[d] == s[d]
    ensures ApplyDragSelection(s, selected, start, end).Applied? ==>
      forall p, i | 0 <= p < ROW_COUNT && 0 <= i < SLOT_COUNT ::
        Cell(ApplyDragSelection(s, selected, start, end).schedule[start.value.day], p, i) ==
          if RowOf(start.value.channel, start.value.line) == Some(p) && Lo(start, end) <= i <= Hi(start, end)
          then selected
          else if start.value.day in s then Cell(s[start.value.day], p, i) else None
    ensures ApplyDragSelection(s, selected, start, end).Applied? ==>
      ApplyDragSelection(s, selected, start, end).count == Hi(start, end) - Lo(start, end) + 1
  {
    ApplyOutcome(s, selected, start, end);
  }

  /** Swapping the endpoints of a selection within one day changes
      nothing: only the order-independent range `min .. max` matters. */
  lemma ApplySymmetric(s: Schedule, selected: Option<EmpId>, a: SlotRef, b: SlotRef)
    requires WellFormed(s) && a.day == b.day
    ensures ApplyDragSelection(s, selected, Some(a), Some(b)) == ApplyDragSelection(s, selected, Some(b), Some(a))
  {
    var x, y := Some(a), Some(b);
    if Checked(selected, x, y) {
      assert Checked(selected, y, x);
      ApplyChecked(s, selected, x, y);
      ApplyChecked(s, selected, y, x);
      var lo, hi := Lo(x, y), Hi(x, y);
      assert Lo(y, x) == lo && Hi(y, x) == hi;
      ApplyRangeSameRow(s, selected.value, a, b, lo, hi);
    } else {
      assert !Checked(selected, y, x);
      ApplyUnchecked(s, selected, x, y);
      ApplyUnchecked(s, selected, y, x);
    }
  }

  /** Two endpoints of one row and one day apply a range alike. */
  lemma ApplyRangeSameRow(s: Schedule, id: EmpId, a: SlotRef, b: SlotRef, lo: nat, hi: nat)
    requires WellFormed(s) && lo <= hi < SLOT_COUNT && a.day == b.day && SameRow(a, b)
    ensures ApplyRange(s, id, a, lo, hi) == ApplyRange(s, id, b, lo, hi)
  {
    assert RowOf(a.channel, a.line) == RowOf(b.channel, b.line);
    SameConflicts(s, id, a, b, lo, hi);
  }

  /** Two exclusions that name the same row see the same conflicts. */
  lemma SameConflicts(s: Schedule, id: EmpId, a: SlotRef, b: SlotRef, lo: nat, hi: nat)
    requires a.day == b.day && hi < SLOT_COUNT && RowOf(a.channel, a.line) == RowOf(b.channel, b.line)
    ensures ConflictFrom(s, id, a.day, SelectionExclusion(a), lo, hi) == ConflictFrom(s, id, b.day, SelectionExclusion(b), lo, hi)
  {
    forall q | 0 <= q < ROW_COUNT
      ensures Excluded(Some(SelectionExclusion(a)), q) <==> Excluded(Some(SelectionExclusion(b)), q)
    {
      ExcludedIsRowOf(a.channel, a.line, q);
      ExcludedIsRowOf(b.channel, b.line, q);
    }
  }

  /** A cell the selection writes held no other row's copy of the selected
      employee, since the range check found no conflict. */
  lemma NoConflictAtWrittenCell(s: Schedule, id: EmpId, a: SlotRef, lo: nat, hi: nat, i: nat, q: nat)
    requires hi < SLOT_COUNT && lo <= i <= hi && q < ROW_COUNT && a.day in s
    requires !ConflictFrom(s, id, a.day, SelectionExclusion(a), lo, hi)
    requires RowOf(a.channel, a.line) != Some(q)
    ensures Cell(s[a.day], q, i) != Some(id)
  {
    assert !HasScheduleConflict(s, id, a.day, Display(i), Some(SelectionExclusion(a)));
    SlotIndexOfDisplay(i);
    ExcludedIsRowOf(a.channel, a.line, q);
  }

  /** No two rows of day `dr` hold the same employee at one slot. */
  ghost predicate DayNoDoubleBooking(dr: DayRows) {
    forall i, p, q | 0 <= i < SLOT_COUNT && 0 <= p < q < ROW_COUNT ::
      Cell(dr, p, i).Some? ==> Cell(dr, p, i) != Cell(dr, q, i)
  }

  lemma NoDoubleBookingByDay(s: Schedule)
    ensures NoDoubleBooking(s) <==> forall d | d in s :: DayNoDoubleBooking(s[d])
  {
  }

  /** Writing `id` into cells `lo .. hi` of row `row` keeps a day free of
      double booking when no other row holds `id` in that range. */
  lemma WriteKeepsDay(x: DayRows, y: DayRows, id: EmpId, row: Option<nat>, lo: nat, hi: nat)
    requires DayNoDoubleBooking(x)
    requires forall p, i | 0 <= p < ROW_COUNT && 0 <= i < SLOT_COUNT ::
      Cell(y, p, i) == if row == Some(p) && lo <= i <= hi then Some(id) else Cell(x, p, i)
    requires forall q, i | 0 <= q < ROW_COUNT && lo <= i <= hi && i < SLOT_COUNT && row != Some(q) ::
      Cell(x, q, i) != Some(id)
    ensures DayNoDoubleBooking(y)
  {
    forall i, p, q | 0 <= i < SLOT_COUNT && 0 <= p < q < ROW_COUNT && Cell(y, p, i).Some?
      ensures Cell(y, p, i) != Cell(y, q, i)
    {
      if lo <= i <= hi && row == Some(p) {
        assert Cell(x, q, i) != Some(id);
      } else if lo <= i <= hi && row == Some(q) {
        assert Cell(x, p, i) != Some(id);
      } else {
        assert Cell(x, p, i).Some? ==> Cell(x, p, i) != Cell(x, q, i);
      }
    }
  }

  /** No row but the written one holds `id` in a range without conflict. */
  lemma RangeFree(s: Schedule, id: EmpId, a: SlotRef, lo: nat, hi: nat, x: DayRows)
    requires hi < SLOT_COUNT && !ConflictFrom(s, id, a.day, SelectionExclusion(a), lo, hi)
    requires x == if a.day in s then s[a.day] else EmptyDay(a.day)
    ensures forall q, i | 0 <= q < ROW_COUNT && lo <= i <= hi && i < SLOT_COUNT && RowOf(a.channel, a.line) != Some(q) ::
      Cell(x, q, i) != Some(id)
  {
    forall q, i | 0 <= q < ROW_COUNT && lo <= i <= hi && i < SLOT_COUNT && RowOf(a.channel, a.line) != Some(q)
      ensures Cell(x, q, i) != Some(id)
    {
      if a.day in s {
        NoConflictAtWrittenCell(s, id, a, lo, hi, i, q);
      }
    }
  }

  /** Committing a range that had no conflict keeps a grid free of double
      booking. */
  lemma CommitKeepsNoDoubleBooking(s: Schedule, id: EmpId, a: SlotRef, lo: nat, hi: nat)
    requires WellFormed(s) && NoDoubleBooking(s) && hi < SLOT_COUNT
    requires !ConflictFrom(s, id, a.day, SelectionExclusion(a), lo, hi)
    ensures NoDoubleBooking(Commit(s, id, a.day, RowOf(a.channel, a.line), lo, hi))
  {
    var row := RowOf(a.channel, a.line);
    var t := Commit(s, id, a.day, row, lo, hi);
    NoDoubleBookingByDay(s);
    var x := if a.day in s then s[a.day] else EmptyDay(a.day);
    assert DayNoDoubleBooking(x);
    RangeFree(s, id, a, lo, hi, x);
    WriteKeepsDay(x, t[a.day], id, row, lo, hi);
    forall d | d in t ensures DayNoDoubleBooking(t[d]) {
      if d != a.day {
        assert t[d] == s[d];
      }
    }
    NoDoubleBookingByDay(t);
  }

  /** A grid without double booking keeps that property under every
      successful selection. */
  lemma ApplyKeepsNoDoubleBooking(s: Schedule, selected: Option<EmpId>, start: Option<SlotRef>, end: Option<SlotRef>)
    requires WellFormed(s) && NoDoubleBooking(s)
    ensures ApplyDragSelection(s, selected, start, end).Applied? ==>
      NoDoubleBooking(ApplyDragSelection(s, selected, start, end).schedule)
  {
    ApplyOutcome(s, selected, start, end);
    if ApplyDragSelection(s, selected, start, end).Applied? {
      CommitKeepsNoDoubleBooking(s, selected.value, start.value, Lo(start, end), Hi(start, end));
    }
  }

  /** `isInSelection`: the cell is on the start's day, channel and (for a
      call) line, and its index lies between the endpoints' indices. The
      indices are taken as `findIndex` gives them, -1 included. */
  function IsInSelection(start: Option<SlotRef>, end: Option<SlotRef>, cell: SlotRef): (r: bool)
    ensures r ==> start.Some? && end.Some? && cell.day == start.value.day && SameRow(start.value, cell)
    ensures start.Some? && end.Some? && cell == start.value ==> r
    ensures start.Some? && end.Some? && cell == end.value && SameRow(start.value, cell) && cell.day == start.value.day ==> r
    ensures r && SlotIndex(cell.time).None? ==>
      SlotIndex(start.value.time).None? || SlotIndex(end.value.time).None?
  {
    if start.None? || end.None? then false
    else if start.value.day != cell.day || start.value.channel != cell.channel then false
    else if cell.channel == Ligacao && start.value.line != cell.line then false
    else
      var cur := IndexOrMinusOne(cell.time);
      var si, ei := IndexOrMinusOne(start.value.time), IndexOrMinusOne(end.value.time);
      Min(si, ei) <= cur <= Max(si, ei)
  }

  /** The cell at row position `p` and slot `i` of day `d`. */
  function RefAt(d: Day, p: nat, i: nat): SlotRef
    requires p < ROW_COUNT && i < SLOT_COUNT
  {
    if p == 0 then SlotRef(d, Display(i), Livechat, None)
    else SlotRef(d, Display(i), Ligacao, Some(p - 1))
  }

  /** The highlighted selection is what a drop writes: for endpoints that
      pass the checks and name a row, a grid cell is highlighted exactly
      when it is one of the cells the drop sets. */
  lemma SelectionIsWhatIsWritten(start: Option<SlotRef>, end: Option<SlotRef>, d: Day, p: nat, i: nat)
    requires start.Some? && end.Some? && SameRow(start.value, end.value)
    requires SlotIndex(start.value.time).Some? && SlotIndex(end.value.time).Some?
    requires RowOf(start.value.channel, start.value.line).Some?
    requires p < ROW_COUNT && i < SLOT_COUNT
    ensures IsInSelection(start, end, RefAt(d, p, i)) <==>
      d == start.value.day && RowOf(start.value.channel, start.value.line) == Some(p) && Lo(start, end) <= i <= Hi(start, end)
  {
    var c, a := RefAt(d, p, i), start.value;
    SlotIndexOfDisplay(i);
    assert IndexOrMinusOne(c.time) == i;
    assert IndexOrMinusOne(a.time) == SlotIndex(a.time).value;
    assert IndexOrMinusOne(end.value.time) == SlotIndex(end.value.time).value;
    assert RowOf(c.channel, c.line) == Some(p);
    assert (a.day == c.day && a.channel == c.channel && !(c.channel == Ligacao && a.line != c.line))
       <==> (d == a.day && RowOf(a.channel, a.line) == Some(p));
  }

  /** `row.find(s => s.time === time)`, as the index of the first cell
      carrying the label. */
  function FindTime(row: seq<ScheduleSlot>, time: string, from: nat): (r: Option<nat>)
    requires from <= |row|
    ensures r.Some? ==> from <= r.value < |row| && row[r.value].time == time
    ensures r.Some? ==> forall j | from <= j < r.value :: row[j].time != time
    ensures r.None? <==> forall j | from <= j < |row| :: row[j].time != time
    decreases |row| - from
  {
    if from == |row| then None
    else if row[from].time == time then Some(from)
    else FindTime(row, time, from + 1)
  }

  /** `row.find(s => s.time === time)?.employeeId`. */
  function FindCell(row: seq<ScheduleSlot>, time: string): Option<EmpId> {
    match FindTime(row, time, 0)
    case None => None
    case Some(k) => row[k].employeeId
  }

  /** `getSlotContent` (also in src/components/ScheduleGrid.tsx): the
      employee of a cell, looked up by label; an absent day, a call cell
      without a line, a missing line or a label no cell carries read as
      empty. */
  function GetSlotContent(s: Schedule, cell: SlotRef): (r: Option<EmpId>)
    ensures cell.day !in s || RowOf(cell.channel, cell.line).None? ==> r.None?
    ensures r.Some? ==>
      var row := Row(s[cell.day], RowOf(cell.channel, cell.line).value);
      exists k | 0 <= k < |row| :: row[k].time == cell.time && row[k].employeeId == r
  {
    if cell.day !in s then None
    else
      match RowOf(cell.channel, cell.line)
      case None => None
      case Some(p) => FindCell(Row(s[cell.day], p), cell.time)
  }

  /** On a row whose cell `k` carries label `k`, the label of slot `i`
      finds cell `i`, and a label off the grid finds nothing. */
  lemma FindCellOnGrid(row: seq<ScheduleSlot>, time: string)
    requires |row| == SLOT_COUNT && forall k | 0 <= k < SLOT_COUNT :: row[k].time == Display(k)
    ensures FindCell(row, time) == if SlotIndex(time).Some? then row[SlotIndex(time).value].employeeId else None
  {
    var r := FindTime(row, time, 0);
    if r.Some? {
      SlotIndexOfDisplay(r.value);
    } else {
      assert forall j | 0 <= j < SLOT_COUNT :: Display(j) != time;
      SlotIndexSpec(time);
    }
  }

  /** The rows of a well-formed day carry the labels in order. */
  lemma RowLabels(d: Day, dr: DayRows, p: nat)
    requires WellFormedDay(d, dr) && p < ROW_COUNT
    ensures |Row(dr, p)| == SLOT_COUNT
    ensures forall k | 0 <= k < SLOT_COUNT :: Row(dr, p)[k].time == Display(k)
  {
    if p > 0 {
      assert WellFormedRow(dr.ligacao[p - 1], d, Ligacao, Some(p - 1));
    }
  }

  /** On a well-formed grid, reading a cell by label gives the cell at that
      label's index, and a label off the grid reads as empty. */
  lemma GetSlotContentIsCell(s: Schedule, cell: SlotRef)
    requires WellFormed(s)
    ensures GetSlotContent(s, cell) ==
      if cell.day in s && RowOf(cell.channel, cell.line).Some? && SlotIndex(cell.time).Some?
      then Cell(s[cell.day], RowOf(cell.channel, cell.line).value, SlotIndex(cell.time).value)
      else None
  {
    if cell.day in s && RowOf(cell.channel, cell.line).Some? {
      var p := RowOf(cell.channel, cell.line).value;
      RowLabels(cell.day, s[cell.day], p);
      FindCellOnGrid(Row(s[cell.day], p), cell.time);
    }
  }

  /** The cell of a grid reference is the cell at its row and index. */
  lemma GetSlotContentAt(s: Schedule, d: Day, p: nat, i: nat)
    requires WellFormed(s) && p < ROW_COUNT && i < SLOT_COUNT
    ensures GetSlotContent(s, RefAt(d, p, i)) == if d in s then Cell(s[d], p, i) else None
  {
    var c := RefAt(d, p, i);
    assert RowOf(c.channel, c.line) == Some(p);
    SlotIndexOfDisplay(i);
    assert SlotIndex(c.time) == Some(i);
    GetSlotContentIsCell(s, c);
  }

  /** The cell a reference addresses, when the day's write would reach it:
      a row exists for its channel and line, and its label is on the grid. */
  predicate Addresses(cell: SlotRef) {
    RowOf(cell.channel, cell.line).Some? && SlotIndex(cell.time).Some?
  }

  /** Emptying one cell of a materialised day touches no other cell and no
      other day. */
  lemma EmptyOneCell(s: Schedule, day: Day, p: nat, i: nat)
    requires WellFormed(s) && day in s && p < ROW_COUNT && i < SLOT_COUNT
    ensures PutDay(s, day, WriteRange(day, s[day], p, i, i, None)).Keys == s.Keys
    ensures forall q, j | 0 <= q < ROW_COUNT && 0 <= j < SLOT_COUNT ::
      Cell(PutDay(s, day, WriteRange(day, s[day], p, i, i, None))[day], q, j)
        == if q == p && j == i then None else Cell(s[day], q, j)
  {
  }

  /** Empties cell `slot` of row `row` on day `day`; a missing row or slot
      changes nothing. */
  function ClearCell(s: Schedule, day: Day, row: Option<nat>, slot: Option<nat>): (r: Schedule)
    requires WellFormed(s) && (row.Some? ==> row.value < ROW_COUNT) && (slot.Some? ==> slot.value < SLOT_COUNT)
    requires row.Some? && slot.Some? ==> day in s
    ensures WellFormed(r) && r.Keys == s.Keys
    ensures forall d | d in s && d != day :: r[d] == s[d]
    ensures day in s ==> forall p, i | 0 <= p < ROW_COUNT && 0 <= i < SLOT_COUNT ::
      Cell(r[day], p, i) == if row == Some(p) && slot == Some(i) then None else Cell(s[day], p, i)
  {
    if slot.None? || row.None? then s
    else
      EmptyOneCell(s, day, row.value, slot.value);
      PutDay(s, day, WriteRange(day, s[day], row.value, slot.value, slot.value, None))
  }

  /** `handleClearSlot` (also in src/components/ScheduleGrid.tsx): empties
      the cell with that label; a label off the grid or a call cell without
      a line changes nothing. The source dereferences the day only when it
      writes, so only then must the day be materialised. */
  function ClearSlot(s: Schedule, cell: SlotRef): (r: Schedule)
    requires WellFormed(s) && (Addresses(cell) ==> cell.day in s)
    ensures WellFormed(r) && r.Keys == s.Keys
    ensures forall d | d in s && d != cell.day :: r[d] == s[d]
    ensures cell.day in s ==> forall p, i | 0 <= p < ROW_COUNT && 0 <= i < SLOT_COUNT ::
      Cell(r[cell.day], p, i) ==
        if RowOf(cell.channel, cell.line) == Some(p) && SlotIndex(cell.time) == Some(i) then None
        else Cell(s[cell.day], p, i)
  {
    ClearCell(s, cell.day, RowOf(cell.channel, cell.line), SlotIndex(cell.time))
  }

  /** After clearing, the cell reads as empty, and every other cell reads
      as before. */
  lemma ClearSlotEmpties(s: Schedule, cell: SlotRef, other: SlotRef)
    requires WellFormed(s) && (Addresses(cell) ==> cell.day in s)
    ensures GetSlotContent(ClearSlot(s, cell), cell).None?
    ensures !(Addresses(other) && Addresses(cell) && other.day == cell.day
              && RowOf(other.channel, other.line) == RowOf(cell.channel, cell.line)
              && SlotIndex(other.time) == SlotIndex(cell.time)) ==>
      GetSlotContent(ClearSlot(s, cell), other) == GetSlotContent(s, other)
  {
    var r := ClearSlot(s, cell);
    GetSlotContentIsCell(r, cell);
    GetSlotContentIsCell(r, other);
    GetSlotContentIsCell(s, other);
  }

  /** Two well-formed days with the same cells are the same day. */
  lemma DayExtensional(d: Day, x: DayRows, y: DayRows)
    requires WellFormedDay(d, x) && WellFormedDay(d, y)
    requires forall p, i | 0 <= p < ROW_COUNT && 0 <= i < SLOT_COUNT :: Cell(x, p, i) == Cell(y, p, i)
    ensures x == y
  {
    assert x.livechat == y.livechat by {
      forall i | 0 <= i < SLOT_COUNT ensures x.livechat[i] == y.livechat[i] {
        assert Cell(x, 0, i) == Cell(y, 0, i);
      }
    }
    forall k | 0 <= k < LINE_COUNT ensures x.ligacao[k] == y.ligacao[k] {
      forall i | 0 <= i < SLOT_COUNT ensures x.ligacao[k][i] == y.ligacao[k][i] {
        assert Cell(x, 1 + k, i) == Cell(y, 1 + k, i);
      }
    }
  }

  /** Two grids that differ at most on day `d`, where they agree cell by
      cell, are the same grid. */
  lemma ScheduleExtensional(x: Schedule, y: Schedule, d: Day)
    requires WellFormed(x) && WellFormed(y) && x.Keys == y.Keys && d in x
    requires forall e | e in x && e != d :: x[e] == y[e]
    requires forall p, i | 0 <= p < ROW_COUNT && 0 <= i < SLOT_COUNT :: Cell(x[d], p, i) == Cell(y[d], p, i)
    ensures x == y
  {
    DayExtensional(d, x[d], y[d]);
  }

  /** Clearing twice is clearing once. */
  lemma ClearSlotIdempotent(s: Schedule, cell: SlotRef)
    requires WellFormed(s) && (Addresses(cell) ==> cell.day in s)
    ensures ClearSlot(ClearSlot(s, cell), cell) == ClearSlot(s, cell)
  {
    var once := ClearSlot(s, cell);
    var twice := ClearSlot(once, cell);
    if cell.day in s {
      DayExtensional(cell.day, twice[cell.day], once[cell.day]);
    }
  }

  /** A run of one employee in a row, as `getConsecutiveSlots` reports it:
      the employee's id (the component then looks the record up), the first
      and last index, and the labels of the run. */
  datatype Group = Group(employeeId: EmpId, startIndex: nat, endIndex: nat, slots: seq<string>)

  /** `g` is a maximal run of `g.employeeId` in `cells`, with its labels. */
  ghost predicate MaximalRun(cells: seq<Option<EmpId>>, g: Group) {
    && g.startIndex <= g.endIndex < |cells| <= SLOT_COUNT
    && (forall i | g.startIndex <= i <= g.endIndex :: cells[i] == Some(g.employeeId))
    && (g.startIndex == 0 || cells[g.startIndex - 1] != Some(g.employeeId))
    && (g.endIndex == |cells| - 1 || cells[g.endIndex + 1] != Some(g.employeeId))
    && |g.slots| == g.endIndex - g.startIndex + 1
    && forall k | 0 <= k < |g.slots| :: g.slots[k] == Display(g.startIndex + k)
  }

  /** Some group covers index `i`. */
  ghost predicate Covered(groups: seq<Group>, i: nat) {
    exists k | 0 <= k < |groups| :: groups[k].startIndex <= i <= groups[k].endIndex
  }

  /** The groups closed before index `upto`: maximal runs, left to right,
      ending before `upto`, and covering every occupied cell before it. */
  ghost predicate ClosedGroups(cells: seq<Option<EmpId>>, groups: seq<Group>, upto: nat) {
    && (forall k | 0 <= k < |groups| :: MaximalRun(cells, groups[k]) && groups[k].endIndex < upto)
    && (forall a, b | 0 <= a < b < |groups| :: groups[a].endIndex < groups[b].startIndex)
    && (forall i | 0 <= i < upto && i < |cells| :: cells[i].Some? ==> Covered(groups, i))
  }

  /** The state of the scan before index `index`: the run being collected
      starts at `start`, every cell since holds `current`, the cell before
      the run does not, and `group` holds the run's labels when `current`
      is an employee. */
  ghost predicate OpenRun(cells: seq<Option<EmpId>>, current: Option<EmpId>, group: seq<string>, start: nat, index: nat) {
    && |cells| == SLOT_COUNT && start <= index <= |cells|
    && (index == 0 ==> current.None? && start == 0)
    && (index > 0 ==> start < index && current == cells[index - 1])
    && (forall i | start <= i < index :: cells[i] == current)
    && (current.Some? && start > 0 ==> cells[start - 1] != current)
    && |group| == (if current.Some? then index - start else 0)
    && (forall k | 0 <= k < |group| :: group[k] == Display(start + k))
  }

  /** The cell at `index` continues the run. */
  lemma ExtendRun(cells: seq<Option<EmpId>>, current: Option<EmpId>, group: seq<string>, start: nat, index: nat)
    requires OpenRun(cells, current, group, start, index) && index < |cells|
    requires cells[index] == current && current.Some?
    ensures OpenRun(cells, current, group + [Display(index)], start, index + 1)
  {
  }

  /** The cell at `index` ends the run and starts the next one. */
  lemma RestartRun(cells: seq<Option<EmpId>>, current: Option<EmpId>, group: seq<string>, start: nat, index: nat)
    requires OpenRun(cells, current, group, start, index) && index < |cells|
    requires !(cells[index] == current && current.Some?)
    ensures OpenRun(cells, cells[index], if cells[index].Some? then [Display(index)] else [], index, index + 1)
  {
  }

  /** A non-empty run that the next cell (or the end of the row) stops is
      a maximal run. */
  lemma RunIsMaximal(cells: seq<Option<EmpId>>, current: Option<EmpId>, group: seq<string>, start: nat, index: nat)
    requires OpenRun(cells, current, group, start, index) && |group| > 0
    requires index == |cells| || cells[index] != current
    ensures current.Some? && MaximalRun(cells, Group(current.value, start, index - 1, group))
  {
  }

  /** Closing a maximal run that ends just before `upto` extends the
      closed groups up to `upto`. */
  lemma CloseRun(cells: seq<Option<EmpId>>, groups: seq<Group>, g: Group, upto: nat)
    requires ClosedGroups(cells, groups, g.startIndex) && MaximalRun(cells, g) && g.endIndex + 1 == upto
    ensures ClosedGroups(cells, groups + [g], upto)
  {
    var gs := groups + [g];
    assert forall k | 0 <= k < |groups| :: gs[k] == groups[k];
    assert gs[|groups|] == g;
    forall i | 0 <= i < upto && i < |cells| && cells[i].Some? ensures Covered(gs, i) {
      if i < g.startIndex {
        var k :| 0 <= k < |groups| && groups[k].startIndex <= i <= groups[k].endIndex;
        assert gs[k] == groups[k];
      } else {
        assert gs[|groups|] == g;
      }
    }
  }

  /** An empty open run needs no group. */
  lemma SkipEmpty(cells: seq<Option<EmpId>>, groups: seq<Group>, current: Option<EmpId>, group: seq<string>, start: nat, index: nat)
    requires ClosedGroups(cells, groups, start) && OpenRun(cells, current, group, start, index) && |group| == 0
    ensures ClosedGroups(cells, groups, index)
  {
    assert forall i | start <= i < index :: cells[i].None?;
  }

  /** Closed groups over the whole row cover exactly its occupied cells. */
  lemma ClosedGroupsCover(cells: seq<Option<EmpId>>, groups: seq<Group>)
    requires ClosedGroups(cells, groups, |cells|)
    ensures forall i | 0 <= i < |cells| :: cells[i].Some? <==> Covered(groups, i)
  {
    forall i | 0 <= i < |cells| && Covered(groups, i) ensures cells[i].Some? {
      var k :| 0 <= k < |groups| && groups[k].startIndex <= i <= groups[k].endIndex;
      assert MaximalRun(cells, groups[k]);
    }
  }

  /** The contents of a row, read label by label as `getConsecutiveSlots`
      does through `getSlotContent`. */
  function RowContents(s: Schedule, d: Day, p: nat): (r: seq<Option<EmpId>>)
    requires p < ROW_COUNT
    ensures |r| == SLOT_COUNT
  {
    seq(SLOT_COUNT, i requires 0 <= i < SLOT_COUNT => GetSlotContent(s, RefAt(d, p, i)))
  }

  /** On a well-formed grid the contents read label by label are the row's
      cells, and an absent day reads as all empty. */
  lemma RowContentsCells(s: Schedule, d: Day, p: nat)
    requires WellFormed(s) && p < ROW_COUNT
    ensures forall i | 0 <= i < SLOT_COUNT ::
      RowContents(s, d, p)[i] == if d in s then Cell(s[d], p, i) else None
  {
    forall i | 0 <= i < SLOT_COUNT
      ensures RowContents(s, d, p)[i] == if d in s then Cell(s[d], p, i) else None
    {
      GetSlotContentAt(s, d, p, i);
    }
  }

  /** `getConsecutiveSlots` over a row's contents: the maximal runs of one
      employee, left to right and disjoint, which together cover exactly the
      occupied cells. */
  method ConsecutiveSlots(cells: seq<Option<EmpId>>) returns (groups: seq<Group>)
    requires |cells| == SLOT_COUNT
    ensures forall k | 0 <= k < |groups| :: MaximalRun(cells, groups[k])
    ensures forall a, b | 0 <= a < b < |groups| :: groups[a].endIndex < groups[b].startIndex
    ensures forall i | 0 <= i < |cells| :: cells[i].Some? <==> Covered(groups, i)
  {
    groups := [];
    var current: Option<EmpId> := None;
    var group: seq<string> := [];
    var start: nat := 0;
    for index := 0 to |cells|
      invariant OpenRun(cells, current, group, start, index)
      invariant ClosedGroups(cells, groups, start)
    {
      var id := cells[index];
      if id == current && id.Some? {
        ExtendRun(cells, current, group, start, index);
        group := group + [Display(index)];
      } else {
        if |group| > 0 {
          RunIsMaximal(cells, current, group, start, index);
          var g := Group(current.value, start, index - 1, group);
          CloseRun(cells, groups, g, index);
          groups := groups + [g];
        } else {
          SkipEmpty(cells, groups, current, group, start, index);
        }
        RestartRun(cells, current, group, start, index);
        current := id;
        group := if id.Some? then [Display(index)] else [];
        start := index;
      }
    }
    if |group| > 0 {
      RunIsMaximal(cells, current, group, start, |cells|);
      var g := Group(current.value, start, |cells| - 1, group);
      CloseRun(cells, groups, g, |cells|);
      groups := groups + [g];
    } else {
      SkipEmpty(cells, groups, current, group, start, |cells|);
    }
    ClosedGroupsCover(cells, groups);
  }
  /** `getConsecutiveSlots(day, channel, line)`: the runs of one row of the
      grid; on a well-formed grid a slot is covered exactly when its cell
      holds someone. */
  method RowGroups(s: Schedule, d: Day, p: nat) returns (groups: seq<Group>)
    requires p < ROW_COUNT
    ensures forall k | 0 <= k < |groups| :: MaximalRun(RowContents(s, d, p), groups[k])
    ensures forall a, b | 0 <= a < b < |groups| :: groups[a].endIndex < groups[b].startIndex
    ensures WellFormed(s) ==> forall i | 0 <= i < SLOT_COUNT ::
      (d in s && Cell(s[d], p, i).Some?) <==> Covered(groups, i)
  {
    groups := ConsecutiveSlots(RowContents(s, d, p));
    if WellFormed(s) {
      RowContentsCells(s, d, p);
    }
  }

}

=== FILE: employee_form.dfy ===
/** The employee dialog (src/pages/FuncionariosPage.tsx): the form's
    validation, the add-or-update dispatch on submit, loading an employee
    into the form, and the active switch. The form state is a
    `Partial<Employee>` without an id, i.e. an `EmployeePatch`. */
module EmployeeForm {
  import opened Wrappers
  import opened JsString
  import opened TimeGrid
  import opened Roster

  /** The form after `resetForm`: empty name, first colour, active, lunch
      12:00-13:00. */
  const INITIAL_FORM: EmployeePatch :=
    EmployeePatch(Some(""), Some("#3B82F6"), Some(true), Some("12:00"), Some("13:00"))

  /** `availableLunchTimes`: the choices offered for both lunch ends. */
  const LUNCH_TIMES: seq<string> := ["11:30", "12:00", "12:30", "13:00", "13:30", "14:00", "14:30"]

  /** The lunch choices are the grid labels of slots 7 to 13. */
  lemma LunchTimesAreSlots()
    ensures |LUNCH_TIMES| == 7
    ensures forall k | 0 <= k < |LUNCH_TIMES| :: LUNCH_TIMES[k] == Display(7 + k)
  {
  }

  function DigitValue(c: char): (r: Option<nat>)
    ensures r.Some? ==> r.value < 10
  {
    if '0' <= c <= '9' then Some(c as nat - '0' as nat) else None
  }

  /** The minutes since midnight that `new Date("2000-01-01 " + t + ":00")`
      denotes, for `t` of the form HH:MM with a valid hour and minute. Any
      other text is taken as an invalid date (`None`), whose time is NaN. */
  function ClockMinutes(t: string): (r: Option<int>)
    ensures r.Some? ==> 0 <= r.value < 24 * 60
  {
    if |t| != 5 || t[2] != ':' then None
    else
      match (DigitValue(t[0]), DigitValue(t[1]), DigitValue(t[3]), DigitValue(t[4]))
      case (Some(h1), Some(h0), Some(m1), Some(m0)) =>
        var h, m := 10 * h1 + h0, 10 * m1 + m0;
        if h < 24 && m < 60 then Some(60 * h + m) else None
      case _ => None
  }

  /** Reading a label back gives its time: `ClockMinutes` inverts `Label`
      on every valid hour and minute. */
  lemma ClockMinutesOfLabel(slot: TimeSlot)
    requires slot.hour < 24 && slot.minute < 60
    ensures ClockMinutes(Label(slot)) == Some(60 * slot.hour + slot.minute)
  {
    var t := Label(slot);
    assert t == [Digit(slot.hour / 10), Digit(slot.hour % 10), ':', Digit(slot.minute / 10), Digit(slot.minute % 10)];
    assert DigitValue(t[0]) == Some(slot.hour / 10) && DigitValue(t[1]) == Some(slot.hour % 10);
    assert DigitValue(t[3]) == Some(slot.minute / 10) && DigitValue(t[4]) == Some(slot.minute % 10);
  }

  /** Grid label `i` is 08:00 plus `i` half hours. */
  lemma ClockMinutesOfDisplay(i: nat)
    requires i < SLOT_COUNT
    ensures ClockMinutes(Display(i)) == Some(480 + 30 * i)
  {
    DisplayIsLabel(i);
    TimeSlotsTable(i);
    SlotStartMinutes(i);
    ClockMinutesOfLabel(SlotAt(i));
  }

  /** The lunch check: with both ends set, a window that does not last
      more than zero and at most one hour is refused. An end that does not
      read as a time makes the difference NaN, and NaN fails both
      comparisons, so such a window is not refused. */
  function LunchRefused(form: EmployeePatch): (r: bool)
    ensures r ==> Present(form.lunchStart) && Present(form.lunchEnd)
    ensures r ==> ClockMinutes(form.lunchStart.value).Some? && ClockMinutes(form.lunchEnd.value).Some?
    ensures (&& Present(form.lunchStart) && Present(form.lunchEnd)
             && ClockMinutes(form.lunchStart.value).Some? && ClockMinutes(form.lunchEnd.value).Some?) ==>
      var minutes := ClockMinutes(form.lunchEnd.value).value - ClockMinutes(form.lunchStart.value).value;
      (r <==> !(0 < minutes <= 60))
  {
    && Present(form.lunchStart) && Present(form.lunchEnd)
    && match (ClockMinutes(form.lunchStart.value), ClockMinutes(form.lunchEnd.value))
       case (Some(a), Some(b)) => b - a <= 0 || b - a > 60
       case _ => false
  }

  /** `!formData.name?.trim()`: no name, or only white space. */
  function NameMissing(form: EmployeePatch): (r: bool)
    ensures r <==> form.name.None? || forall k | 0 <= k < |form.name.value| :: IsJsWhitespace(form.name.value[k])
  {
    form.name.None? || Trim(form.name.value) == ""
  }

  /** `formData as Omit<Employee, 'id'>` as `addEmployee` reads it: an unset
      colour is falsy like the empty one, and an unset `active` is falsy. */
  function DraftOf(form: EmployeePatch): (d: EmployeeDraft)
    requires form.name.Some?
    ensures d.name == form.name.value && d.active == (form.active == Some(true))
    ensures d.color == "" <==> form.color.None? || form.color == Some("")
  {
    EmployeeDraft(form.name.value, form.color.GetOr(""), form.active.GetOr(false), form.lunchStart, form.lunchEnd)
  }

  datatype SubmitOutcome =
    | NameRequired
    | InvalidLunch
    | Updated(employees: seq<Employee>)
    | Added(employees: seq<Employee>)

  /** `handleSubmit`. The name check comes first, then the lunch check;
      an accepted form updates the employee being edited, or else adds a
      new one under `freshId` (the source's `Date.now()`). */
  function HandleSubmit(employees: seq<Employee>, form: EmployeePatch, editingId: Option<EmpId>, freshId: EmpId): (r: SubmitOutcome)
    requires editingId.None? ==> forall e | e in employees :: e.id != freshId
    ensures r.NameRequired? <==> NameMissing(form)
    ensures r.InvalidLunch? <==> !NameMissing(form) && LunchRefused(form)
    ensures r.Updated? <==> !NameMissing(form) && !LunchRefused(form) && editingId.Some?
    ensures r.Added? <==> !NameMissing(form) && !LunchRefused(form) && editingId.None?
    ensures r.Updated? ==> r.employees == UpdateEmployee(employees, editingId.value, form)
    ensures r.Added? ==> |r.employees| == |employees| + 1 && r.employees[..|employees|] == employees
    ensures r.Added? ==> var e := r.employees[|employees|]; e.id == freshId && e.name == form.name.value
    ensures r.Added? ==> r.employees == AddEmployee(employees, DraftOf(form), freshId)
  {
    if NameMissing(form) then NameRequired
    else if LunchRefused(form) then InvalidLunch
    else if editingId.Some? then Updated(UpdateEmployee(employees, editingId.value, form))
    else Added(AddEmployee(employees, DraftOf(form), freshId))
  }

  /** With both ends taken from the grid's labels, a window is accepted
      exactly when it spans one or two slots: 30 or 60 minutes. */
  lemma LunchOnGrid(form: EmployeePatch, a: nat, b: nat)
    requires a < SLOT_COUNT && b < SLOT_COUNT
    requires form.lunchStart == Some(Display(a)) && form.lunchEnd == Some(Display(b))
    ensures !LunchRefused(form) <==> b == a + 1 || b == a + 2
  {
    ClockMinutesOfDisplay(a);
    ClockMinutesOfDisplay(b);
    DisplayDigits(a);
    DisplayDigits(b);
  }

  /** Of the lunch choices, a window passes the check exactly when its end
      is one or two choices after its start. */
  lemma LunchChoices(form: EmployeePatch, a: nat, b: nat)
    requires a < |LUNCH_TIMES| && b < |LUNCH_TIMES|
    requires form.lunchStart == Some(LUNCH_TIMES[a]) && form.lunchEnd == Some(LUNCH_TIMES[b])
    ensures !LunchRefused(form) <==> b == a + 1 || b == a + 2
  {
    LunchTimesAreSlots();
    LunchOnGrid(form, 7 + a, 7 + b);
  }

  /** The initial form's window (12:00-13:00) passes, but its empty name
      does not. */
  lemma InitialFormNeedsName(employees: seq<Employee>, freshId: EmpId)
    requires forall e | e in employees :: e.id != freshId
    ensures !LunchRefused(INITIAL_FORM)
    ensures HandleSubmit(employees, INITIAL_FORM, None, freshId) == NameRequired
  {
    LunchOnGrid(INITIAL_FORM, 8, 10);
  }

  /** `handleEdit`: the employee's fields, with 12:00 and 13:00 standing
      in for an unset lunch start or end. */
  function EditForm(e: Employee): (form: EmployeePatch)
    ensures form.name == Some(e.name) && form.color == Some(e.color) && form.active == Some(e.active)
    ensures Present(form.lunchStart) && Present(form.lunchEnd)
    ensures Present(e.lunchStart) ==> form.lunchStart == e.lunchStart
    ensures Present(e.lunchEnd) ==> form.lunchEnd == e.lunchEnd
    ensures !Present(e.lunchStart) ==> form.lunchStart == Some("12:00")
    ensures !Present(e.lunchEnd) ==> form.lunchEnd == Some("13:00")
  {
    EmployeePatch(
      Some(e.name), Some(e.color), Some(e.active),
      if Present(e.lunchStart) then e.lunchStart else Some("12:00"),
      if Present(e.lunchEnd) then e.lunchEnd else Some("13:00"))
  }

  /** Opening an employee in the dialog and saving it unchanged leaves the
      roster as it was, when the ids are unique and the employee's lunch
      ends are both set. */
  lemma EditSubmitUnchanged(employees: seq<Employee>, e: Employee, freshId: EmpId)
    requires UniqueIds(employees) && e in employees
    requires Present(e.lunchStart) && Present(e.lunchEnd)
    requires !NameMissing(EditForm(e)) && !LunchRefused(EditForm(e))
    ensures HandleSubmit(employees, EditForm(e), Some(e.id), freshId) == Updated(employees)
  {
    var r := UpdateEmployee(employees, e.id, EditForm(e));
    forall k | 0 <= k < |employees|
      ensures r[k] == employees[k]
    {
      if employees[k].id == e.id {
        var j :| 0 <= j < |employees| && employees[j] == e;
        assert IdOf(employees[k]) == IdOf(employees[j]);
        assert k == j;
      }
    }
  }

  /** `handleToggleActive`: an update that sets `active` only. */
  /** Toggling changes the `active` field of the records with that id and
      nothing else. */
  function ToggleActive(employees: seq<Employee>, id: EmpId, active: bool): (r: seq<Employee>)
    ensures |r| == |employees|
    ensures forall k | 0 <= k < |employees| ::
      r[k] == if employees[k].id == id then employees[k].(active := active) else employees[k]
  {
    UpdateEmployee(employees, id, EmployeePatch(None, None, Some(active), None, None))
  }

  /** Toggling twice with the old value restores a record. */
  lemma ToggleBack(employees: seq<Employee>, id: EmpId, k: nat)
    requires k < |employees| && employees[k].id == id
    ensures ToggleActive(ToggleActive(employees, id, !employees[k].active), id, employees[k].active)[k] == employees[k]
  {
  }
}

=== FILE: employee_view.dfy ===
/** The per-employee schedule view (src/pages/VisualizarEscalaPage.tsx):
    the cells one employee holds on a day, listed in time order, and their
    grouping into consecutive runs of one channel. */
module EmployeeView {
  import opened Wrappers
  import opened JsString
  import opened TimeGrid
  import opened Roster
  import opened Sorting
  import opened Stats

  /** The channel text of a listed cell: 'Livechat', or `Ligação n` for
      call line n - 1. */
  datatype ChannelLabel = LivechatLabel | LineLabel(number: nat)

  /** A listed cell: its label, its channel text and its position in its
      row (the source attaches `TIME_SLOTS[position]`). */
  datatype EmployeeSlot = EmployeeSlot(time: string, channel: ChannelLabel, position: nat)

  /** The cells `i ..` of `row` that hold `id`, in row order. */
  function RowSlots(row: seq<ScheduleSlot>, id: EmpId, tag: ChannelLabel, i: nat): (r: seq<EmployeeSlot>)
    requires i <= |row|
    ensures forall x | x in r :: x.channel == tag && i <= x.position < |row|
    decreases |row| - i
  {
    if i == |row| then []
    else
      (if row[i].employeeId == Some(id) then [EmployeeSlot(row[i].time, tag, i)] else [])
      + RowSlots(row, id, tag, i + 1)
  }

  /** The cells of call lines `k ..` that hold `id`, line by line. */
  function LinesSlots(lines: seq<seq<ScheduleSlot>>, id: EmpId, k: nat): seq<EmployeeSlot>
    requires k <= |lines|
    decreases |lines| - k
  {
    if k == |lines| then []
    else RowSlots(lines[k], id, LineLabel(k + 1), 0) + LinesSlots(lines, id, k + 1)
  }

  /** The cells the two `forEach` loops collect: the livechat row, then
      each call line. */
  function Collected(dr: DayRows, id: EmpId): seq<EmployeeSlot> {
    RowSlots(dr.livechat, id, LivechatLabel, 0) + LinesSlots(dr.ligacao, id, 0)
  }

  function TimeOf(x: EmployeeSlot): string {
    x.time
  }

  /** The comparator `a.time.localeCompare(b.time) < 0`, on labels. */
  function TimeLess(): (string, string) -> bool {
    (a: string, b: string) => StrLess(a, b)
  }

  lemma TimeLessIsStrictWeakOrder()
    ensures StrictWeakOrder(TimeLess())
  {
    forall a: string ensures !StrLess(a, a) {
      StrLessIrreflexive(a);
    }
    forall a: string, b: string, c: string | StrLess(a, b) && StrLess(b, c) ensures StrLess(a, c) {
      StrLessTransitive(a, b, c);
    }
    forall a: string, b: string, c: string | StrLess(a, c) ensures StrLess(a, b) || StrLess(b, c) {
      if !StrLess(a, b) && !StrLess(b, c) {
        if a != b {
          StrLessConnected(a, b);
        }
        if b != c {
          StrLessConnected(b, c);
        }
        if a != b && b != c {
          StrLessTransitive(c, b, a);
        }
        StrLessAsymmetric(a, c);
      }
    }
  }

  /** `getEmployeeScheduleForDay`: the collected cells, stably sorted by
      label; an absent day lists nothing. */
  function GetEmployeeScheduleForDay(s: Schedule, id: EmpId, day: Day): (r: seq<EmployeeSlot>)
    ensures day !in s ==> r == []
    ensures day in s ==> multiset(r) == multiset(Collected(s[day], id))
    ensures SortedBy(r, TimeOf, TimeLess())
  {
    if day !in s then []
    else
      TimeLessIsStrictWeakOrder();
      SortBySorted(Collected(s[day], id), TimeOf, TimeLess());
      SortBy(Collected(s[day], id), TimeOf, TimeLess())
  }

  /** Cell `x` is a cell of `dr` holding `id`, tagged with its channel text,
      its label and its position. */
  ghost predicate Tagged(dr: DayRows, id: EmpId, x: EmployeeSlot) {
    match x.channel
    case LivechatLabel =>
      x.position < |dr.livechat| && dr.livechat[x.position].employeeId == Some(id)
      && dr.livechat[x.position].time == x.time
    case LineLabel(n) =>
      1 <= n <= |dr.ligacao| && x.position < |dr.ligacao[n - 1]|
      && dr.ligacao[n - 1][x.position].employeeId == Some(id) && dr.ligacao[n - 1][x.position].time == x.time
  }

  lemma {:induction false} RowSlotsMembers(row: seq<ScheduleSlot>, id: EmpId, tag: ChannelLabel, i: nat, x: EmployeeSlot)
    requires i <= |row|
    ensures x in RowSlots(row, id, tag, i) <==>
      x.channel == tag && i <= x.position < |row| && row[x.position].employeeId == Some(id) && row[x.position].time == x.time
    decreases |row| - i
  {
    if i < |row| {
      RowSlotsMembers(row, id, tag, i + 1, x);
    }
  }

  lemma {:induction false} LinesSlotsMembers(lines: seq<seq<ScheduleSlot>>, id: EmpId, k: nat, x: EmployeeSlot)
    requires k <= |lines|
    ensures x in LinesSlots(lines, id, k) <==>
      x.channel.LineLabel? && k + 1 <= x.channel.number <= |lines| && x.position < |lines[x.channel.number - 1]|
      && lines[x.channel.number - 1][x.position].employeeId == Some(id) && lines[x.channel.number - 1][x.position].time == x.time
    decreases |lines| - k
  {
    if k < |lines| {
      RowSlotsMembers(lines[k], id, LineLabel(k + 1), 0, x);
      LinesSlotsMembers(lines, id, k + 1, x);
    }
  }

  /** The listing holds exactly the cells of that day that hold the
      employee, each tagged with its channel text; nothing for an absent
      day. */
  lemma ScheduleForDayMembers(s: Schedule, id: EmpId, day: Day, x: EmployeeSlot)
    ensures x in GetEmployeeScheduleForDay(s, id, day) <==> day in s && Tagged(s[day], id, x)
  {
    if day in s {
      CollectedMembers(s[day], id, x);
      InMultiset(x, GetEmployeeScheduleForDay(s, id, day), Collected(s[day], id));
    }
  }

  lemma CollectedMembers(dr: DayRows, id: EmpId, x: EmployeeSlot)
    ensures x in Collected(dr, id) <==> Tagged(dr, id, x)
  {
    RowSlotsMembers(dr.livechat, id, LivechatLabel, 0, x);
    LinesSlotsMembers(dr.ligacao, id, 0, x);
  }

  lemma {:induction false} RowSlotsCount(row: seq<ScheduleSlot>, id: EmpId, tag: ChannelLabel, i: nat)
    requires i <= |row|
    ensures |RowSlots(row, id, tag, i)| == CountInRow(row[i..], id)
    decreases |row| - i
  {
    if i < |row| {
      assert row[i..][0] == row[i] && row[i..][1..] == row[i + 1..];
      RowSlotsCount(row, id, tag, i + 1);
    }
  }

  lemma {:induction false} LinesSlotsCount(lines: seq<seq<ScheduleSlot>>, id: EmpId, k: nat)
    requires k <= |lines|
    ensures |LinesSlots(lines, id, k)| == CountInRows(lines[k..], id)
    decreases |lines| - k
  {
    if k < |lines| {
      assert lines[k..][0] == lines[k] && lines[k..][1..] == lines[k + 1..];
      RowSlotsCount(lines[k], id, LineLabel(k + 1), 0);
      LinesSlotsCount(lines, id, k + 1);
    }
  }

  /** The listing has one entry per half hour the employee works that day,
      so its length is the day's share of `getEmployeeStats`. */
  lemma ScheduleForDayCount(s: Schedule, id: EmpId, day: Day)
    ensures |GetEmployeeScheduleForDay(s, id, day)| == if day in s then DayStats(s[day], id).total else 0
  {
    if day in s {
      var dr := s[day];
      RowSlotsCount(dr.livechat, id, LivechatLabel, 0);
      LinesSlotsCount(dr.ligacao, id, 0);
      assert dr.livechat[0..] == dr.livechat && dr.ligacao[0..] == dr.ligacao;
      assert |multiset(GetEmployeeScheduleForDay(s, id, day))| == |multiset(Collected(dr, id))|;
    }
  }

  /** Cells with the same label keep their collection order: livechat
      before the lines, lower lines first. */
  lemma ScheduleForDayStable(s: Schedule, id: EmpId, day: Day, time: string)
    requires day in s
    ensures KeyFilter(GetEmployeeScheduleForDay(s, id, day), TimeOf, time) == KeyFilter(Collected(s[day], id), TimeOf, time)
  {
    StrLessIrreflexive(time);
    assert forall a :: !TimeLess()(a, a) by {
      forall a: string ensures !StrLess(a, a) {
        StrLessIrreflexive(a);
      }
    }
    SortByStable(Collected(s[day], id), TimeOf, TimeLess(), time);
  }

  /** `b` continues the run ending in `a`: the label's `findIndex` is one
      more, and the channel text is the same. */
  predicate Continues(a: EmployeeSlot, b: EmployeeSlot) {
    IndexOrMinusOne(b.time) == IndexOrMinusOne(a.time) + 1 && b.channel == a.channel
  }

  lemma {:induction false} FlattenAppend<T>(groups: seq<seq<T>>, g: seq<T>)
    ensures Flatten(groups + [g]) == Flatten(groups) + g
    decreases |groups|
  {
    if |groups| == 0 {
      assert Flatten([g]) == g + Flatten<T>([]);
    } else {
      assert (groups + [g])[0] == groups[0] && (groups + [g])[1..] == groups[1..] + [g];
      FlattenAppend(groups[1..], g);
    }
  }

  /** `Continues` as a relation value, for the generic run predicates. */
  function ContinuesRel(): (EmployeeSlot, EmployeeSlot) -> bool {
    (a: EmployeeSlot, b: EmployeeSlot) => Continues(a, b)
  }

  /** The groups are non-empty runs under `cont`: inside a group each item
      continues the previous one, and each group starts where continuing
      fails. */
  ghost predicate Runs<T>(groups: seq<seq<T>>, cont: (T, T) -> bool) {
    && (forall k | 0 <= k < |groups| :: |groups[k]| > 0)
    && (forall k, j | 0 <= k < |groups| && 0 < j < |groups[k]| :: cont(groups[k][j - 1], groups[k][j]))
    && (forall k | 0 < k < |groups| :: |groups[k - 1]| > 0 && |groups[k]| > 0 ==>
          !cont(groups[k - 1][|groups[k - 1]| - 1], groups[k][0]))
  }

  /** `current` is a non-empty run. */
  ghost predicate IsRun<T>(current: seq<T>, cont: (T, T) -> bool) {
    |current| > 0 && forall j | 0 < j < |current| :: cont(current[j - 1], current[j])
  }

  /** `current` does not continue the last closed group. */
  ghost predicate StartsAfter<T>(groups: seq<seq<T>>, current: seq<T>, cont: (T, T) -> bool) {
    |groups| > 0 && |groups[|groups| - 1]| > 0 && |current| > 0 ==>
      !cont(groups[|groups| - 1][|groups[|groups| - 1]| - 1], current[0])
  }

  /** An item that continues a run extends it. */
  lemma ExtendGroup<T>(current: seq<T>, x: T, cont: (T, T) -> bool)
    requires IsRun(current, cont) && cont(current[|current| - 1], x)
    ensures IsRun(current + [x], cont) && (current + [x])[0] == current[0]
  {
    var c := current + [x];
    assert forall j | 0 <= j < |current| :: c[j] == current[j];
    assert c[|current|] == x;
  }

  /** Closing `current` after the runs `groups` keeps them runs. */
  lemma CloseGroup<T>(groups: seq<seq<T>>, current: seq<T>, cont: (T, T) -> bool)
    requires Runs(groups, cont) && IsRun(current, cont) && StartsAfter(groups, current, cont)
    ensures Runs(groups + [current], cont)
  {
    var gs := groups + [current];
    assert forall k | 0 <= k < |groups| :: gs[k] == groups[k];
    assert gs[|groups|] == current;
  }

  /** The loop state after the first `i` items: closed runs `groups`, then
      the open run `current` ending at item `i - 1`. */
  ghost predicate Grouping<T>(slots: seq<T>, groups: seq<seq<T>>, current: seq<T>, i: nat, cont: (T, T) -> bool) {
    && 0 < i <= |slots|
    && IsRun(current, cont) && current[|current| - 1] == slots[i - 1]
    && Flatten(groups) + current == slots[..i]
    && Runs(groups, cont) && StartsAfter(groups, current, cont)
  }

  lemma ExtendStep<T>(slots: seq<T>, groups: seq<seq<T>>, current: seq<T>, i: nat, cont: (T, T) -> bool)
    requires Grouping(slots, groups, current, i, cont) && i < |slots| && cont(slots[i - 1], slots[i])
    ensures Grouping(slots, groups, current + [slots[i]], i + 1, cont)
  {
    ExtendGroup(current, slots[i], cont);
    PrefixExtend(slots, Flatten(groups), current, i);
  }

  lemma PrefixExtend<T>(slots: seq<T>, done: seq<T>, current: seq<T>, i: nat)
    requires i < |slots| && done + current == slots[..i]
    ensures done + (current + [slots[i]]) == slots[..i + 1]
  {
    assert slots[..i + 1] == slots[..i] + [slots[i]];
    assert done + (current + [slots[i]]) == (done + current) + [slots[i]];
  }

  lemma CloseStep<T>(slots: seq<T>, groups: seq<seq<T>>, current: seq<T>, i: nat, cont: (T, T) -> bool)
    requires Grouping(slots, groups, current, i, cont) && i < |slots| && !cont(slots[i - 1], slots[i])
    ensures Grouping(slots, groups + [current], [slots[i]], i + 1, cont)
  {
    assert slots[..i + 1] == slots[..i] + [slots[i]];
    CloseGroup(groups, current, cont);
    FlattenAppend(groups, current);
  }

  /** `groupConsecutiveSlots`: splits the listing into runs; an empty
      listing gives no group, and concatenating the groups gives the
      listing back. */
  method GroupConsecutiveSlots(slots: seq<EmployeeSlot>) returns (groups: seq<seq<EmployeeSlot>>)
    ensures |slots| == 0 ==> groups == []
    ensures Flatten(groups) == slots
    ensures Runs(groups, ContinuesRel())
  {
    if |slots| == 0 {
      return [];
    }
    var cont := ContinuesRel();
    groups := [];
    var current := [slots[0]];
    assert Flatten(groups) + current == slots[..1];
    for i := 1 to |slots|
      invariant Grouping(slots, groups, current, i, cont)
    {
      if Continues(slots[i - 1], slots[i]) {
        ExtendStep(slots, groups, current, i, cont);
        current := current + [slots[i]];
      } else {
        CloseStep(slots, groups, current, i, cont);
        groups := groups + [current];
        current := [slots[i]];
      }
    }
    CloseGroup(groups, current, cont);
    FlattenAppend(groups, current);
    groups := groups + [current];
    assert slots[..|slots|] == slots;
  }

  /** A group's duration, `group.length * 0.5` hours, in half-hour units. */
  function Duration(group: seq<EmployeeSlot>): nat {
    |group|
  }

  /** The durations of a day's groups, summed: as many half hours as the
      groups list slots. */
  function TotalDuration(groups: seq<seq<EmployeeSlot>>): (r: nat)
    ensures r == |Flatten(groups)|
  {
    if |groups| == 0 then 0 else Duration(groups[0]) + TotalDuration(groups[1..])
  }

  /** The durations shown for a day's groups add up to the hours the
      employee works that day. */
  lemma DurationsAreDayHours(s: Schedule, id: EmpId, day: Day, groups: seq<seq<EmployeeSlot>>)
    requires Flatten(groups) == GetEmployeeScheduleForDay(s, id, day)
    ensures TotalDuration(groups) == if day in s then DayStats(s[day], id).total else 0
  {
    ScheduleForDayCount(s, id, day);
  }
}

=== FILE: js_string.dfy ===
/** The two string primitives of JavaScript the roster code relies on:
    the relational operators on strings (`a < b`, `a >= b`), which compare
    character by character, a proper prefix being smaller; and
    `String.prototype.trim`, which strips ECMAScript white space and line
    terminators. */
module JsString {

  /** JavaScript's `a < b` on two strings. */
  predicate StrLess(a: string, b: string)
    decreases |a|
  {
    if |a| == 0 then |b| > 0
    else if |b| == 0 then false
    else if a[0] != b[0] then a[0] < b[0]
    else StrLess(a[1..], b[1..])
  }

  /** JavaScript's `a >= b` on two strings: the negation of `a < b`. */
  predicate StrGreaterEq(a: string, b: string) {
    !StrLess(a, b)
  }

  lemma {:induction false} StrLessIrreflexive(a: string)
    ensures !StrLess(a, a)
    decreases |a|
  {
    if |a| > 0 {
      StrLessIrreflexive(a[1..]);
    }
  }

  lemma {:induction false} StrLessTransitive(a: string, b: string, c: string)
    requires StrLess(a, b) && StrLess(b, c)
    ensures StrLess(a, c)
    decreases |a|
  {
    if |a| > 0 && a[0] == b[0] && b[0] == c[0] {
      StrLessTransitive(a[1..], b[1..], c[1..]);
    }
  }

  /** Any two different strings are ordered one way or the other. */
  lemma {:induction false} StrLessConnected(a: string, b: string)
    requires a != b
    ensures StrLess(a, b) || StrLess(b, a)
    decreases |a|
  {
    if |a| > 0 && |b| > 0 && a[0] == b[0] {
      assert a == [a[0]] + a[1..] && b == [b[0]] + b[1..];
      StrLessConnected(a[1..], b[1..]);
    }
  }

  lemma StrLessAsymmetric(a: string, b: string)
    requires StrLess(a, b)
    ensures !StrLess(b, a)
  {
    if StrLess(b, a) {
      StrLessTransitive(a, b, a);
      StrLessIrreflexive(a);
    }
  }

  /** Between strings of one length, what follows does not affect the
      comparison. */
  lemma {:induction false} StrLessAppend(x: string, y: string, u: string, v: string)
    requires |x| == |y| && StrLess(x, y)
    ensures StrLess(x + u, y + v)
    decreases |x|
  {
    assert (x + u)[0] == x[0] && (y + v)[0] == y[0];
    if x[0] == y[0] {
      assert (x + u)[1..] == x[1..] + u && (y + v)[1..] == y[1..] + v;
      StrLessAppend(x[1..], y[1..], u, v);
    }
  }

  /** A shared prefix does not affect the comparison. */
  lemma {:induction false} StrLessCommonPrefix(p: string, x: string, y: string)
    ensures StrLess(p + x, p + y) == StrLess(x, y)
    decreases |p|
  {
    if |p| == 0 {
      assert p + x == x && p + y == y;
    } else {
      assert (p + x)[0] == p[0] == (p + y)[0];
      assert (p + x)[1..] == p[1..] + x;
      assert (p + y)[1..] == p[1..] + y;
      StrLessCommonPrefix(p[1..], x, y);
      assert StrLess(p + x, p + y) == StrLess(p[1..] + x, p[1..] + y);
    }
  }

  /** The ECMAScript WhiteSpace and LineTerminator code points, which
      `trim` removes from both ends of a string. */
  predicate IsJsWhitespace(c: char) {
    || c == '\t' || c == '\n' || c == '\r' || c == ' '
    || c == '\U{000B}' || c == '\U{000C}' || c == '\U{00A0}' || c == '\U{1680}'
    || ('\U{2000}' <= c <= '\U{200A}')
    || c == '\U{2028}' || c == '\U{2029}' || c == '\U{202F}' || c == '\U{205F}'
    || c == '\U{3000}' || c == '\U{FEFF}'
  }

  /** `s.trim()`: the part of `s` between its leading and its trailing run
      of white space. */
  function Trim(s: string): (r: string)
    ensures |r| <= |s|
    ensures r == [] <==> forall k | 0 <= k < |s| :: IsJsWhitespace(s[k])
    ensures r != [] ==> !IsJsWhitespace(r[0]) && !IsJsWhitespace(r[|r| - 1])
  {
    var i := LeadingWhitespace(s);
    var j := TrailingStart(s);
    if i >= j then [] else s[i..j]
  }

  /** The length of the leading run of white space of `s`. */
  function LeadingWhitespace(s: string): (n: nat)
    ensures n <= |s|
    ensures forall k | 0 <= k < n :: IsJsWhitespace(s[k])
    ensures n < |s| ==> !IsJsWhitespace(s[n])
    decreases |s|
  {
    if |s| > 0 && IsJsWhitespace(s[0]) then 1 + LeadingWhitespace(s[1..]) else 0
  }

  /** Where the trailing run of white space of `s` begins. */
  function TrailingStart(s: string): (m: nat)
    ensures m <= |s|
    ensures forall k | m <= k < |s| :: IsJsWhitespace(s[k])
    ensures m > 0 ==> !IsJsWhitespace(s[m - 1])
    decreases |s|
  {
    if |s| > 0 && IsJsWhitespace(s[|s| - 1]) then TrailingStart(s[..|s| - 1]) else |s|
  }
}

=== FILE: reports.dfy ===
/** The reports page (src/pages/RelatoriosPage.tsx): weekly occupancy of the
    livechat and call-line rows, the cells inside the lunch band, hours per
    day, the week's total, and the active employees ranked by hours. Hours
    are in half-hour units, as in `Stats`. */
module Reports {
  import opened Wrappers
  import opened TimeGrid
  import opened Roster
  import opened Rules
  import opened Sorting
  import opened Stats
  import opened AutoFill

  /** The denominators of the coverage figures: one livechat cell and three
      call-line cells per slot and weekday. */
  const TOTAL_LIVECHAT_SLOTS: nat := |DAYS| * SLOT_COUNT
  const TOTAL_LIGACAO_SLOTS: nat := |DAYS| * SLOT_COUNT * 3

  /** The band counted as lunch: labels from 11:30 up to, not including,
      15:00, compared as strings. */
  const LUNCH_BAND_START: string := "11:30"
  const LUNCH_BAND_END: string := "15:00"

  /** The cells of `row` that hold someone (`if (slot.employeeId)`). */
  function OccupiedInRow(row: seq<ScheduleSlot>): (n: nat)
    ensures n <= |row|
  {
    if |row| == 0 then 0
    else (if row[0].employeeId.Some? then 1 else 0) + OccupiedInRow(row[1..])
  }

  function OccupiedInRows(rows: seq<seq<ScheduleSlot>>): nat {
    if |rows| == 0 then 0 else OccupiedInRow(rows[0]) + OccupiedInRows(rows[1..])
  }

  /** The cells `i ..` of a livechat row whose label lies in the lunch band,
      whoever holds them. */
  function LunchCells(row: seq<ScheduleSlot>, i: nat): (n: nat)
    requires i <= |row|
    ensures n <= |row| - i
    decreases |row| - i
  {
    if i == |row| then 0
    else (if InWindow(row[i].time, LUNCH_BAND_START, LUNCH_BAND_END) then 1 else 0) + LunchCells(row, i + 1)
  }

  /** What the `Object.values(schedule).forEach` loop accumulates. */
  datatype Occupancy = Occupancy(livechat: nat, ligacao: nat, lunch: nat)

  function DayOccupancy(dr: DayRows): Occupancy {
    Occupancy(OccupiedInRow(dr.livechat), OccupiedInRows(dr.ligacao), LunchCells(dr.livechat, 0))
  }

  /** The occupancy of the days of `days` materialised in `s`. The grid's
      keys are weekdays and `DAYS` lists each weekday once, so over `DAYS`
      this visits exactly the grid's days. */
  function SumOccupancy(days: seq<Day>, s: Schedule): Occupancy {
    if |days| == 0 then Occupancy(0, 0, 0)
    else
      var here := if days[0] in s then DayOccupancy(s[days[0]]) else Occupancy(0, 0, 0);
      var rest := SumOccupancy(days[1..], s);
      Occupancy(here.livechat + rest.livechat, here.ligacao + rest.ligacao, here.lunch + rest.lunch)
  }

  /** `occupiedLivechat`, `occupiedLigacao` and `lunchSlots`. On a
      well-formed grid the occupancy never exceeds the coverage
      denominators, and `lunchSlots` is seven per materialised day,
      whoever is scheduled: the figure counts labels, not staff. */
  function WeekOccupancy(s: Schedule): (r: Occupancy)
    ensures WellFormed(s) ==> r.livechat <= TOTAL_LIVECHAT_SLOTS && r.ligacao <= TOTAL_LIGACAO_SLOTS
    ensures WellFormed(s) ==> r.lunch == 7 * |s.Keys|
  {
    WeekFigures(s);
    SumOccupancy(DAYS, s)
  }

  lemma WeekFigures(s: Schedule)
    ensures WellFormed(s) ==> SumOccupancy(DAYS, s).livechat <= TOTAL_LIVECHAT_SLOTS
    ensures WellFormed(s) ==> SumOccupancy(DAYS, s).ligacao <= TOTAL_LIGACAO_SLOTS
    ensures WellFormed(s) ==> SumOccupancy(DAYS, s).lunch == 7 * |s.Keys|
  {
    if WellFormed(s) {
      SumOccupancyBound(DAYS, s);
      DaysListed();
      SumLunch(DAYS, s);
      assert PresentDays(DAYS, s) == s.Keys;
    }
  }

  /** An entry of `dayStats`. */
  datatype DayReport = DayReport(day: Day, livechat: nat, ligacao: nat, total: nat)

  /** The test "holds someone" (`if (slot.employeeId)`). */
  function Occupant(): Option<EmpId> -> bool {
    (v: Option<EmpId>) => v.Some?
  }

  lemma {:induction false} OccupiedInRowIsWhere(row: seq<ScheduleSlot>)
    ensures OccupiedInRow(row) == CountWhere(row, Occupant())
    decreases |row|
  {
    if |row| > 0 {
      OccupiedInRowIsWhere(row[1..]);
    }
  }

  /** The occupied cells of row `p` of `dr`, as a set of indices. */
  ghost function OccupiedCells(dr: DayRows, p: nat): set<nat> {
    set i: nat | i < |Row(dr, p)| && Row(dr, p)[i].employeeId.Some?
  }

  /** A row's occupancy is the number of its occupied cells. */
  lemma OccupiedInRowCells(dr: DayRows, p: nat)
    ensures OccupiedInRow(Row(dr, p)) == |OccupiedCells(dr, p)|
  {
    var row := Row(dr, p);
    OccupiedInRowIsWhere(row);
    CountWhereCells(row, Occupant());
    assert IndicesWhere(row, Occupant(), |row|) == OccupiedCells(dr, p);
  }

  /** What a day's figures count: the occupied livechat cells, and with
      the three call lines, the occupied cells of lines 0, 1 and 2. */
  lemma DayOccupancyCells(dr: DayRows)
    ensures OccupiedInRow(dr.livechat) == |OccupiedCells(dr, 0)|
    ensures |dr.ligacao| == LINE_COUNT ==>
      OccupiedInRows(dr.ligacao) == |OccupiedCells(dr, 1)| + |OccupiedCells(dr, 2)| + |OccupiedCells(dr, 3)|
  {
    OccupiedInRowCells(dr, 0);
    if |dr.ligacao| == LINE_COUNT {
      OccupiedInRowCells(dr, 1);
      OccupiedInRowCells(dr, 2);
      OccupiedInRowCells(dr, 3);
      var rows := dr.ligacao;
      var r1 := rows[1..];
      var r2 := r1[1..];
      assert OccupiedInRows(r2) == OccupiedInRow(r2[0]) + OccupiedInRows(r2[1..]);
      assert OccupiedInRows(r1) == OccupiedInRow(r1[0]) + OccupiedInRows(r2);
      assert OccupiedInRows(rows) == OccupiedInRow(rows[0]) + OccupiedInRows(r1);
      assert r1[0] == rows[1] && r2[0] == rows[2];
    }
  }

  /** One entry of `dayStats`: zeros for a day the grid lacks, otherwise
      half an hour per occupied livechat cell and per occupied cell of the
      three call lines, and their sum. */
  function DayReportOf(s: Schedule, day: Day): (r: DayReport)
    ensures r.day == day && r.total == r.livechat + r.ligacao
    ensures day !in s ==> r == DayReport(day, 0, 0, 0)
    ensures day in s ==> r.livechat == |OccupiedCells(s[day], 0)|
    ensures day in s && |s[day].ligacao| == LINE_COUNT ==>
      r.ligacao == |OccupiedCells(s[day], 1)| + |OccupiedCells(s[day], 2)| + |OccupiedCells(s[day], 3)|
  {
    if day !in s then DayReport(day, 0, 0, 0)
    else
      DayOccupancyCells(s[day]);
      var live := OccupiedInRow(s[day].livechat);
      var calls := OccupiedInRows(s[day].ligacao);
      DayReport(day, live, calls, live + calls)
  }

  /** `dayStats`: one entry per weekday, in `DAYS` order, each counting the
      occupied cells of that day, or zeros when the grid lacks it. */
  function DayReports(s: Schedule): (r: seq<DayReport>)
    ensures |r| == |DAYS|
    ensures forall k | 0 <= k < |r| :: r[k].day == DAYS[k] && r[k].total == r[k].livechat + r[k].ligacao
    ensures forall k | 0 <= k < |r| && DAYS[k] !in s :: r[k].livechat == 0 && r[k].ligacao == 0
    ensures WellFormed(s) ==> forall k | 0 <= k < |r| && DAYS[k] in s ::
      && r[k].livechat == |OccupiedCells(s[DAYS[k]], 0)|
      && r[k].ligacao == |OccupiedCells(s[DAYS[k]], 1)| + |OccupiedCells(s[DAYS[k]], 2)| + |OccupiedCells(s[DAYS[k]], 3)|
  {
    seq(|DAYS|, k requires 0 <= k < |DAYS| => DayReportOf(s, DAYS[k]))
  }

  /** `totalHoursWeek`: the entries' totals added up. */
  function TotalHours(reports: seq<DayReport>): nat {
    if |reports| == 0 then 0 else reports[0].total + TotalHours(reports[1..])
  }

  /** `totalHoursWeek`, the sum over `dayStats`, agrees with the other
      loop of the page: it is the occupied livechat cells plus the occupied
      call-line cells. */
  function TotalHoursWeek(s: Schedule): (r: nat)
    ensures r == WeekOccupancy(s).livechat + WeekOccupancy(s).ligacao
  {
    SumAgrees(DAYS, s);
    TotalHours(DayReports(s))
  }

  /** An entry of `employeeStats`: the employee and their hours. */
  datatype EmployeeReport = EmployeeReport(employee: Employee, stats: Stats)

  function TotalOf(x: EmployeeReport): int {
    x.stats.total
  }

  /** The comparator `b.stats.totalHours - a.stats.totalHours`: `a` goes
      first when it has more hours. */
  function MoreHours(): (int, int) -> bool {
    (a: int, b: int) => a > b
  }

  lemma MoreHoursIsStrictWeakOrder()
    ensures StrictWeakOrder(MoreHours())
  {
  }

  function WithStats(active: seq<Employee>, s: Schedule): (r: seq<EmployeeReport>)
    ensures |r| == |active|
    ensures forall k | 0 <= k < |r| :: r[k].employee == active[k]
  {
    seq(|active|, k requires 0 <= k < |active| => EmployeeReport(active[k], GetEmployeeStats(s, active[k].id)))
  }

  /** `employeeStats`: the active employees with their hours, most hours
      first; the sort is stable, so ties keep the employees' order. */
  function EmployeeReports(employees: seq<Employee>, s: Schedule): (r: seq<EmployeeReport>)
    ensures multiset(r) == multiset(WithStats(ActiveEmployees(employees), s))
    ensures SortedBy(r, TotalOf, MoreHours())
    ensures forall hours :: EmployeesOf(KeyFilter(r, TotalOf, hours)) == ActiveWithHours(employees, s, hours)
  {
    MoreHoursIsStrictWeakOrder();
    RankingInRosterOrder(employees, s);
    SortBySorted(WithStats(ActiveEmployees(employees), s), TotalOf, MoreHours());
    SortBy(WithStats(ActiveEmployees(employees), s), TotalOf, MoreHours())
  }

  /** The ranking lists exactly the active employees, each with the hours
      `getEmployeeStats` gives them. */
  lemma EmployeeReportsMembers(employees: seq<Employee>, s: Schedule, x: EmployeeReport)
    ensures x in EmployeeReports(employees, s) <==>
      x.employee in employees && x.employee.active && x.stats == GetEmployeeStats(s, x.employee.id)
  {
    var w := WithStats(ActiveEmployees(employees), s);
    InMultiset(x, EmployeeReports(employees, s), w);
    if x.employee in employees && x.employee.active && x.stats == GetEmployeeStats(s, x.employee.id) {
      var active := ActiveEmployees(employees);
      var k :| 0 <= k < |active| && active[k] == x.employee;
      assert w[k] == x;
    }
  }

  /** The employees of a list of reports, in its order. */
  function EmployeesOf(reports: seq<EmployeeReport>): (r: seq<Employee>)
    ensures |r| == |reports| && forall k | 0 <= k < |r| :: r[k] == reports[k].employee
  {
    seq(|reports|, k requires 0 <= k < |reports| => reports[k].employee)
  }

  /** The active employees of the roster with `hours` hours, in roster
      order. */
  function ActiveWithHours(employees: seq<Employee>, s: Schedule, hours: int): seq<Employee> {
    if |employees| == 0 then []
    else
      (if employees[0].active && GetEmployeeStats(s, employees[0].id).total == hours then [employees[0]] else [])
      + ActiveWithHours(employees[1..], s, hours)
  }

  lemma WithStatsCons(e: Employee, t: seq<Employee>, s: Schedule)
    ensures WithStats([e] + t, s) == [EmployeeReport(e, GetEmployeeStats(s, e.id))] + WithStats(t, s)
  {
  }

  lemma EmployeesOfCons(x: EmployeeReport, t: seq<EmployeeReport>)
    ensures EmployeesOf([x] + t) == [x.employee] + EmployeesOf(t)
  {
  }

  lemma KeyFilterCons(x: EmployeeReport, t: seq<EmployeeReport>, hours: int)
    ensures KeyFilter([x] + t, TotalOf, hours) == (if TotalOf(x) == hours then [x] else []) + KeyFilter(t, TotalOf, hours)
  {
    assert ([x] + t)[0] == x && ([x] + t)[1..] == t;
  }

  /** Before the sort, the reports with `hours` hours are those of the
      active employees with `hours` hours, in roster order. */
  lemma {:induction false} ReportsInRosterOrder(employees: seq<Employee>, s: Schedule, hours: int)
    ensures EmployeesOf(KeyFilter(WithStats(ActiveEmployees(employees), s), TotalOf, hours))
         == ActiveWithHours(employees, s, hours)
    decreases |employees|
  {
    if |employees| > 0 {
      var e := employees[0];
      var tail := employees[1..];
      ReportsInRosterOrder(tail, s, hours);
      if e.active {
        var x := EmployeeReport(e, GetEmployeeStats(s, e.id));
        var kw := KeyFilter(WithStats(ActiveEmployees(tail), s), TotalOf, hours);
        assert ActiveEmployees(employees) == [e] + ActiveEmployees(tail);
        WithStatsCons(e, ActiveEmployees(tail), s);
        KeyFilterCons(x, WithStats(ActiveEmployees(tail), s), hours);
        if TotalOf(x) == hours {
          EmployeesOfCons(x, kw);
        }
      } else {
        assert ActiveEmployees(employees) == ActiveEmployees(tail);
      }
    }
  }

  /** Active employees with the same hours keep their roster order: after
      the sort, the employees with `hours` hours are exactly the active
      employees with those hours, in roster order. */
  lemma RankingInRosterOrder(employees: seq<Employee>, s: Schedule)
    ensures forall hours ::
      EmployeesOf(KeyFilter(SortBy(WithStats(ActiveEmployees(employees), s), TotalOf, MoreHours()), TotalOf, hours))
        == ActiveWithHours(employees, s, hours)
  {
    forall hours
      ensures EmployeesOf(KeyFilter(SortBy(WithStats(ActiveEmployees(employees), s), TotalOf, MoreHours()), TotalOf, hours))
           == ActiveWithHours(employees, s, hours)
    {
      SortByStable(WithStats(ActiveEmployees(employees), s), TotalOf, MoreHours(), hours);
      ReportsInRosterOrder(employees, s, hours);
    }
  }

  /** The two loops of the page count the same cells: the week's hours are
      the occupied livechat cells plus the occupied call-line cells. */
  lemma {:induction false} SumAgrees(days: seq<Day>, s: Schedule)
    ensures TotalHours(seq(|days|, k requires 0 <= k < |days| => DayReportOf(s, days[k]))) ==
            SumOccupancy(days, s).livechat + SumOccupancy(days, s).ligacao
    decreases |days|
  {
    var r := seq(|days|, k requires 0 <= k < |days| => DayReportOf(s, days[k]));
    if |days| > 0 {
      var tail := seq(|days[1..]|, k requires 0 <= k < |days[1..]| => DayReportOf(s, days[1..][k]));
      assert r[1..] == tail;
      SumAgrees(days[1..], s);
    }
  }

  /** A cell holding `id` is an occupied cell. */
  lemma {:induction false} CountWithinOccupied(row: seq<ScheduleSlot>, id: EmpId)
    ensures CountInRow(row, id) <= OccupiedInRow(row)
    decreases |row|
  {
    if |row| > 0 {
      CountWithinOccupied(row[1..], id);
    }
  }

  lemma {:induction false} CountRowsWithinOccupied(rows: seq<seq<ScheduleSlot>>, id: EmpId)
    ensures CountInRows(rows, id) <= OccupiedInRows(rows)
    decreases |rows|
  {
    if |rows| > 0 {
      CountWithinOccupied(rows[0], id);
      CountRowsWithinOccupied(rows[1..], id);
    }
  }

  lemma {:induction false} SumDaysWithinOccupancy(days: seq<Day>, s: Schedule, id: EmpId)
    ensures SumDays(days, s, id).livechat <= SumOccupancy(days, s).livechat
    ensures SumDays(days, s, id).ligacao <= SumOccupancy(days, s).ligacao
    decreases |days|
  {
    if |days| > 0 {
      if days[0] in s {
        CountWithinOccupied(s[days[0]].livechat, id);
        CountRowsWithinOccupied(s[days[0]].ligacao, id);
      }
      SumDaysWithinOccupancy(days[1..], s, id);
    }
  }

  /** No employee works more than the grid's occupied cells: each
      employee's hours per channel are at most that channel's occupancy,
      and their total is at most the week's hours. */
  lemma EmployeeWithinWeek(s: Schedule, id: EmpId)
    ensures GetEmployeeStats(s, id).livechat <= WeekOccupancy(s).livechat
    ensures GetEmployeeStats(s, id).ligacao <= WeekOccupancy(s).ligacao
    ensures GetEmployeeStats(s, id).total <= TotalHoursWeek(s)
  {
    SumDaysWithinOccupancy(DAYS, s, id);
  }

  lemma {:induction false} OccupiedRowsBound(rows: seq<seq<ScheduleSlot>>, width: nat)
    requires forall k | 0 <= k < |rows| :: |rows[k]| == width
    ensures OccupiedInRows(rows) <= |rows| * width
    decreases |rows|
  {
    if |rows| > 0 {
      OccupiedRowsBound(rows[1..], width);
    }
  }

  lemma {:induction false} SumOccupancyBound(days: seq<Day>, s: Schedule)
    requires WellFormed(s)
    ensures SumOccupancy(days, s).livechat <= |days| * SLOT_COUNT
    ensures SumOccupancy(days, s).ligacao <= |days| * SLOT_COUNT * 3
    decreases |days|
  {
    if |days| > 0 {
      if days[0] in s {
        var dr := s[days[0]];
        assert WellFormedDay(days[0], dr);
        assert forall k | 0 <= k < |dr.ligacao| :: |dr.ligacao[k]| == SLOT_COUNT;
        OccupiedRowsBound(dr.ligacao, SLOT_COUNT);
      }
      SumOccupancyBound(days[1..], s);
    }
  }

  /** The lunch band covers the labels of slots 7 (11:30) to 13 (14:30). */
  function LunchBandFrom(i: nat): nat {
    if i >= 14 then 0 else if i >= 7 then 14 - i else 7
  }

  lemma {:induction false} LunchCellsOnGrid(row: seq<ScheduleSlot>, d: Day, channel: ChannelKind, line: Option<nat>, i: nat)
    requires WellFormedRow(row, d, channel, line) && i <= SLOT_COUNT
    ensures LunchCells(row, i) == LunchBandFrom(i)
    decreases SLOT_COUNT - i
  {
    if i < SLOT_COUNT {
      assert Display(7) == LUNCH_BAND_START && Display(14) == LUNCH_BAND_END;
      InWindowOnGrid(i, 7, 14);
      LunchCellsOnGrid(row, d, channel, line, i + 1);
    }
  }

  /** The weekdays of `days` that the grid holds. */
  function PresentDays(days: seq<Day>, s: Schedule): set<Day> {
    set d | d in days && d in s
  }

  lemma {:induction false} SumLunch(days: seq<Day>, s: Schedule)
    requires WellFormed(s)
    requires forall i, j | 0 <= i < j < |days| :: days[i] != days[j]
    ensures SumOccupancy(days, s).lunch == 7 * |PresentDays(days, s)|
    decreases |days|
  {
    if |days| > 0 {
      SumLunch(days[1..], s);
      var rest := PresentDays(days[1..], s);
      assert days[0] !in days[1..];
      if days[0] in s {
        LunchCellsOnGrid(s[days[0]].livechat, days[0], Livechat, None, 0);
        assert PresentDays(days, s) == rest + {days[0]};
      } else {
        assert PresentDays(days, s) == rest;
      }
    }
  }

  lemma {:induction false} OccupiedNone(row: seq<ScheduleSlot>)
    requires forall i | 0 <= i < |row| :: row[i].employeeId.None?
    ensures OccupiedInRow(row) == 0
    decreases |row|
  {
    if |row| > 0 {
      OccupiedNone(row[1..]);
    }
  }

  /** A well-formed empty day has no occupied cell. */
  lemma EmptyDayUnoccupied(d: Day, dr: DayRows)
    requires WellFormedDay(d, dr) && EmptyDayRows(dr)
    ensures DayOccupancy(dr).livechat == 0 && DayOccupancy(dr).ligacao == 0
  {
    forall i | 0 <= i < |dr.livechat|
      ensures dr.livechat[i].employeeId.None?
    {
      assert Cell(dr, 0, i) == None;
    }
    OccupiedNone(dr.livechat);
    forall k | 0 <= k < LINE_COUNT
      ensures OccupiedInRow(dr.ligacao[k]) == 0
    {
      forall i | 0 <= i < |dr.ligacao[k]|
        ensures dr.ligacao[k][i].employeeId.None?
      {
        assert Cell(dr, k + 1, i) == None;
      }
      OccupiedNone(dr.ligacao[k]);
    }
    OccupiedRowsNone(dr.ligacao);
  }

  lemma {:induction false} OccupiedRowsNone(rows: seq<seq<ScheduleSlot>>)
    requires forall k | 0 <= k < |rows| :: OccupiedInRow(rows[k]) == 0
    ensures OccupiedInRows(rows) == 0
    decreases |rows|
  {
    if |rows| > 0 {
      OccupiedRowsNone(rows[1..]);
    }
  }

  lemma {:induction false} SumUnoccupied(days: seq<Day>, s: Schedule)
    requires forall d | d in s :: DayOccupancy(s[d]).livechat == 0 && DayOccupancy(s[d]).ligacao == 0
    ensures SumOccupancy(days, s).livechat == 0 && SumOccupancy(days, s).ligacao == 0
    decreases |days|
  {
    if |days| > 0 {
      SumUnoccupied(days[1..], s);
    }
  }

  /** A well-formed grid of empty days has no occupancy and no hours, and
      seven lunch cells per day. */
  lemma EmptyGridReport(s: Schedule)
    requires WellFormed(s) && forall d | d in s :: EmptyDayRows(s[d])
    ensures WeekOccupancy(s) == Occupancy(0, 0, 7 * |s.Keys|)
    ensures TotalHoursWeek(s) == 0
  {
    forall d | d in s
      ensures DayOccupancy(s[d]).livechat == 0 && DayOccupancy(s[d]).ligacao == 0
    {
      EmptyDayUnoccupied(d, s[d]);
    }
    SumUnoccupied(DAYS, s);
  }

  /** The fresh week: no occupancy and no hours, but 35 lunch cells. */
  lemma EmptyWeekReport()
    ensures var s := CreateEmptySchedule(); WeekOccupancy(s) == Occupancy(0, 0, 35) && TotalHoursWeek(s) == 0
  {
    FullEmptyWeek(CreateEmptySchedule());
  }

  lemma FullEmptyWeek(s: Schedule)
    requires (forall d: Day :: d in s) && WellFormed(s) && forall d | d in s :: EmptyDayRows(s[d])
    ensures WeekOccupancy(s) == Occupancy(0, 0, 35) && TotalHoursWeek(s) == 0
  {
    EmptyGridReport(s);
    FullWeek(s);
  }

  /** A grid holding every weekday has five days. */
  lemma FullWeek(s: Schedule)
    requires forall d: Day :: d in s
    ensures |s.Keys| == 5
  {
    forall d | d in s.Keys
      ensures d in {Segunda, Terca, Quarta, Quinta, Sexta}
    {
      match d
      case Segunda =>
      case Terca =>
      case Quarta =>
      case Quinta =>
      case Sexta =>
    }
    assert s.Keys == {Segunda, Terca, Quarta, Quinta, Sexta};
  }
}

=== FILE: roster.dfy ===
/** The roster store (src/hooks/useSchedule.ts and the shapes in
    src/types/index.ts): employees, the weekly schedule grid, the
    configuration, and the store operations that create, edit and clear
    them. Persistence is left out: the loaded employees, schedule and
    configuration are inputs, and every operation returns the new value. */
module Roster {
  import opened Wrappers
  import opened TimeGrid
  import opened Sorting

  /** Employee ids. Every id the system creates is non-empty (the seed
      data uses "1".."4", `addEmployee` uses `Date.now().toString()`), so an
      id is truthy in JavaScript exactly when it is present. */
  type EmpId = s: string | |s| > 0 witness "0"

  datatype Employee = Employee(
    id: EmpId,
    name: string,
    color: string,
    active: bool,
    lunchStart: Option<string>,
    lunchEnd: Option<string>)

  /** A JavaScript string field that is set and non-empty, i.e. truthy. */
  predicate Present(o: Option<string>) {
    o.Some? && o.value != ""
  }

  datatype ChannelKind = Livechat | Ligacao

  /** The index of a call line: 0, 1 or 2. */
  type Line = l: nat | l < 3

  const LINE_COUNT: nat := 3

  /** A cell of the grid: `channelLine` is set on call-line cells only. */
  datatype ScheduleSlot = ScheduleSlot(
    day: Day,
    time: string,
    employeeId: Option<EmpId>,
    channel: ChannelKind,
    channelLine: Option<nat>)

  /** One day of the grid: the livechat row and the call-line rows. */
  datatype DayRows = DayRows(livechat: seq<ScheduleSlot>, ligacao: seq<seq<ScheduleSlot>>)

  /** The weekly grid (the source's `DaySchedule` object); a day that is not
      a key is a day the store has not materialised. */
  type Schedule = map<Day, DayRows>

  datatype LunchType = Fixo | Aleatorio

  datatype ScheduleConfig = ScheduleConfig(
    turnDuration: int,
    lunchCoverage: int,
    balanceHours: bool,
    rotateChannels: bool,
    respectLunch: bool,
    lunchType: Option<LunchType>,
    fixedLunchStart: Option<string>,
    fixedLunchEnd: Option<string>)

  const DEFAULT_CONFIG: ScheduleConfig :=
    ScheduleConfig(4, 50, true, true, true, Some(Aleatorio), Some("12:00"), Some("13:00"))

  /** Rows of a day are addressed by position: 0 is the livechat row and
      1 + k is call line k. */
  const ROW_COUNT: nat := 4

  function Row(dr: DayRows, p: nat): seq<ScheduleSlot> {
    if p == 0 then dr.livechat
    else if p - 1 < |dr.ligacao| then dr.ligacao[p - 1]
    else []
  }

  /** The employee in row `p` at slot `i`; a missing row or cell reads as
      empty, as the source's optional chaining does. */
  function Cell(dr: DayRows, p: nat, i: nat): Option<EmpId> {
    var row := Row(dr, p);
    if i < |row| then row[i].employeeId else None
  }

  /** The row position addressed by a channel and an optional line. */
  function RowOf(channel: ChannelKind, line: Option<Line>): Option<nat> {
    match channel
    case Livechat => Some(0)
    case Ligacao => if line.Some? then Some(1 + line.value) else None
  }

  /** A fully materialised row of 20 cells: cell `i` belongs to day `d`,
      carries the label of slot `i` and the row's channel tags. */
  ghost predicate WellFormedRow(row: seq<ScheduleSlot>, d: Day, channel: ChannelKind, line: Option<nat>) {
    && |row| == SLOT_COUNT
    && forall i | 0 <= i < |row| ::
         row[i].day == d && row[i].time == Display(i) && row[i].channel == channel && row[i].channelLine == line
  }

  /** A livechat row and exactly three call-line rows, line `k` tagged `k`. */
  ghost predicate WellFormedDay(d: Day, dr: DayRows) {
    && WellFormedRow(dr.livechat, d, Livechat, None)
    && |dr.ligacao| == LINE_COUNT
    && forall k | 0 <= k < LINE_COUNT :: WellFormedRow(dr.ligacao[k], d, Ligacao, Some(k))
  }

  /** Every materialised day is well formed. */
  ghost predicate WellFormed(s: Schedule) {
    forall d | d in s :: WellFormedDay(d, s[d])
  }

  ghost predicate EmptyDayRows(dr: DayRows) {
    forall p, i | 0 <= p < ROW_COUNT && 0 <= i < SLOT_COUNT :: Cell(dr, p, i) == None
  }

  /** `TIME_SLOTS.map(...)` with a null employee: the fresh row of a day. */
  function EmptyRow(d: Day, channel: ChannelKind, line: Option<nat>): (row: seq<ScheduleSlot>)
    ensures WellFormedRow(row, d, channel, line)
    ensures forall i | 0 <= i < |row| :: row[i].employeeId == None
  {
    seq(SLOT_COUNT, i requires 0 <= i < SLOT_COUNT => ScheduleSlot(d, Display(i), None, channel, line))
  }

  /** A day of 20 empty livechat cells and 3 x 20 empty call-line cells; the
      source builds this in `createEmptySchedule` and again whenever a manual
      edit touches a day that is not materialised. */
  function EmptyDay(d: Day): (dr: DayRows)
    ensures WellFormedDay(d, dr)
    ensures EmptyDayRows(dr)
  {
    var dr := DayRows(EmptyRow(d, Livechat, None),
                      [EmptyRow(d, Ligacao, Some(0)), EmptyRow(d, Ligacao, Some(1)), EmptyRow(d, Ligacao, Some(2))]);
    NullRowsEmpty(dr);
    dr
  }

  /** A day whose rows hold no employee is empty. */
  lemma NullRowsEmpty(dr: DayRows)
    requires forall p, i | 0 <= p < ROW_COUNT && 0 <= i < |Row(dr, p)| :: Row(dr, p)[i].employeeId == None
    ensures EmptyDayRows(dr)
  {
    forall p, i | 0 <= p < ROW_COUNT && 0 <= i < SLOT_COUNT
      ensures Cell(dr, p, i) == None
    {
      var row := Row(dr, p);
      if i < |row| {
        assert row[i].employeeId == None;
      }
    }
  }

  /** `createEmptySchedule`: every weekday materialised and empty. */
  function CreateEmptySchedule(): (s: Schedule)
    ensures forall d: Day :: d in s
    ensures WellFormed(s)
    ensures forall d | d in s :: EmptyDayRows(s[d])
  {
    DaysListed();
    map d | d in DAYS :: EmptyDay(d)
  }

  /** `clearSchedule`: replaces the grid with an empty one. */
  function ClearSchedule(): (s: Schedule)
    ensures forall d: Day :: d in s
    ensures WellFormed(s)
    ensures forall d, p, i | d in s && 0 <= p < ROW_COUNT && 0 <= i < SLOT_COUNT :: Cell(s[d], p, i) == None
  {
    CreateEmptySchedule()
  }

  /** Sets the employee of cells `lo..hi` (inclusive) of a row. */
  function SetCells(row: seq<ScheduleSlot>, lo: int, hi: int, v: Option<EmpId>): (r: seq<ScheduleSlot>)
    ensures |r| == |row|
    ensures forall i | 0 <= i < |row| ::
      r[i] == if lo <= i <= hi then row[i].(employeeId := v) else row[i]
  {
    seq(|row|, i requires 0 <= i < |row| => if lo <= i <= hi then row[i].(employeeId := v) else row[i])
  }

  /** Writes `v` into cells `lo..hi` of row `p` of a well-formed day; every
      other cell, and every tag, is unchanged. */
  function WriteRange(d: Day, dr: DayRows, p: nat, lo: int, hi: int, v: Option<EmpId>): (r: DayRows)
    requires WellFormedDay(d, dr) && p < ROW_COUNT
    ensures WellFormedDay(d, r)
    ensures forall q, i | 0 <= q < ROW_COUNT && 0 <= i < SLOT_COUNT ::
      Cell(r, q, i) == if q == p && lo <= i <= hi then v else Cell(dr, q, i)
  {
    if p == 0 then dr.(livechat := SetCells(dr.livechat, lo, hi, v))
    else dr.(ligacao := dr.ligacao[p - 1 := SetCells(dr.ligacao[p - 1], lo, hi, v)])
  }

  /** `newSchedule[d] = dr` on a copy of the grid: day `d` becomes `dr`,
      every other day is kept. */
  function PutDay(s: Schedule, d: Day, dr: DayRows): (r: Schedule)
    requires WellFormed(s) && WellFormedDay(d, dr)
    ensures WellFormed(r) && r.Keys == s.Keys + {d} && r[d] == dr
    ensures forall e | e in s && e != d :: r[e] == s[e]
  {
    s[d := dr]
  }

  /** `employees.find(emp => emp.id === id)`. */
  function FindEmployee(employees: seq<Employee>, id: EmpId): (r: Option<Employee>)
    ensures r.Some? ==> r.value in employees && r.value.id == id
    ensures r.None? <==> forall e | e in employees :: e.id != id
    ensures r.Some? ==> exists k | 0 <= k < |employees| ::
      employees[k] == r.value && forall j | 0 <= j < k :: employees[j].id != id
  {
    if |employees| == 0 then None
    else if employees[0].id == id then Some(employees[0])
    else
      var r := FindEmployee(employees[1..], id);
      if r.Some? then
        var k :| 0 <= k < |employees[1..]| && employees[1..][k] == r.value
          && forall j | 0 <= j < k :: employees[1..][j].id != id;
        assert employees[k + 1] == r.value;
        assert forall j | 1 <= j < k + 1 :: employees[j] == employees[1..][j - 1];
        r
      else r
  }

  function IdOf(e: Employee): EmpId {
    e.id
  }

  /** No two records of the roster share an id. */
  ghost predicate UniqueIds(employees: seq<Employee>) {
    DistinctBy(employees, IdOf)
  }

  /** The fields of a new employee before an id is given to it. */
  datatype EmployeeDraft = EmployeeDraft(
    name: string,
    color: string,
    active: bool,
    lunchStart: Option<string>,
    lunchEnd: Option<string>)

  /** The default colour palette of `addEmployee`. */
  const PALETTE: seq<string> :=
    ["#3B82F6", "#10B981", "#F59E0B", "#EF4444", "#8B5CF6", "#EC4899", "#06B6D4", "#84CC16"]

  /** `addEmployee`: appends the draft under the fresh id `freshId` (the
      source takes it from the clock), defaulting an empty colour to the
      palette entry chosen by the roster size and a missing lunch window to
      12:00-13:00. */
  function AddEmployee(employees: seq<Employee>, draft: EmployeeDraft, freshId: EmpId): (r: seq<Employee>)
    requires forall e | e in employees :: e.id != freshId
    ensures |r| == |employees| + 1 && r[..|employees|] == employees
    ensures var e := r[|employees|];
      && e.id == freshId && e.name == draft.name && e.active == draft.active
      && e.color == (if draft.color != "" then draft.color else PALETTE[|employees| % 8])
      && e.color != ""
      && e.lunchStart == (if Present(draft.lunchStart) then draft.lunchStart else Some("12:00"))
      && e.lunchEnd == (if Present(draft.lunchEnd) then draft.lunchEnd else Some("13:00"))
      && Present(e.lunchStart) && Present(e.lunchEnd)
    ensures UniqueIds(employees) ==> UniqueIds(r)
  {
    var color := if draft.color != "" then draft.color else PALETTE[|employees| % |PALETTE|];
    var lunchStart := if Present(draft.lunchStart) then draft.lunchStart else Some("12:00");
    var lunchEnd := if Present(draft.lunchEnd) then draft.lunchEnd else Some("13:00");
    var r := employees + [Employee(freshId, draft.name, color, draft.active, lunchStart, lunchEnd)];
    assert r[..|employees|] == employees;
    r
  }

  /** A `Partial<Employee>` without an id: the fields to overwrite. */
  datatype EmployeePatch = EmployeePatch(
    name: Option<string>,
    color: Option<string>,
    active: Option<bool>,
    lunchStart: Option<string>,
    lunchEnd: Option<string>)

  /** `{ ...emp, ...updates }`. */
  function ApplyPatch(e: Employee, u: EmployeePatch): Employee {
    Employee(
      e.id,
      u.name.GetOr(e.name),
      u.color.GetOr(e.color),
      u.active.GetOr(e.active),
      if u.lunchStart.Some? then u.lunchStart else e.lunchStart,
      if u.lunchEnd.Some? then u.lunchEnd else e.lunchEnd)
  }

  /** `updateEmployee`: every record with the id gets the patch, every
      other record is unchanged, and no id changes. */
  function UpdateEmployee(employees: seq<Employee>, id: EmpId, u: EmployeePatch): (r: seq<Employee>)
    ensures |r| == |employees|
    ensures forall k | 0 <= k < |r| :: r[k].id == employees[k].id
    ensures forall k | 0 <= k < |r| && employees[k].id != id :: r[k] == employees[k]
    ensures forall k | 0 <= k < |r| && employees[k].id == id ::
      && r[k].name == u.name.GetOr(employees[k].name)
      && r[k].color == u.color.GetOr(employees[k].color)
      && r[k].active == u.active.GetOr(employees[k].active)
      && r[k].lunchStart == (if u.lunchStart.Some? then u.lunchStart else employees[k].lunchStart)
      && r[k].lunchEnd == (if u.lunchEnd.Some? then u.lunchEnd else employees[k].lunchEnd)
  {
    seq(|employees|, k requires 0 <= k < |employees| =>
      if employees[k].id == id then ApplyPatch(employees[k], u) else employees[k])
  }

  /** `prev.filter(emp => emp.id !== id)`. */
  function WithoutId(employees: seq<Employee>, id: EmpId): (r: seq<Employee>)
    ensures forall e :: e in r <==> e in employees && e.id != id
    ensures |r| <= |employees|
    ensures (forall e | e in employees :: e.id != id) ==> r == employees
  {
    if |employees| == 0 then []
    else if employees[0].id == id then WithoutId(employees[1..], id)
    else
      assert employees == [employees[0]] + employees[1..];
      [employees[0]] + WithoutId(employees[1..], id)
  }

  /** Filtering distributes over concatenation, so the kept records stay in
      their original order. */
  lemma {:induction false} WithoutIdConcat(a: seq<Employee>, b: seq<Employee>, id: EmpId)
    ensures WithoutId(a + b, id) == WithoutId(a, id) + WithoutId(b, id)
    decreases |a|
  {
    if |a| > 0 {
      assert (a + b)[0] == a[0] && (a + b)[1..] == a[1..] + b;
      WithoutIdConcat(a[1..], b, id);
    } else {
      assert a + b == b;
    }
  }

  /** Nulls every cell of a row that holds `id`. */
  function ClearIdInRow(row: seq<ScheduleSlot>, id: EmpId): (r: seq<ScheduleSlot>)
    ensures |r| == |row|
    ensures forall i | 0 <= i < |row| ::
      r[i] == if row[i].employeeId == Some(id) then row[i].(employeeId := None) else row[i]
  {
    seq(|row|, i requires 0 <= i < |row| =>
      if row[i].employeeId == Some(id) then row[i].(employeeId := None) else row[i])
  }

  function ClearIdInDay(dr: DayRows, id: EmpId): DayRows {
    DayRows(ClearIdInRow(dr.livechat, id),
            seq(|dr.ligacao|, k requires 0 <= k < |dr.ligacao| => ClearIdInRow(dr.ligacao[k], id)))
  }

  /** The grid half of `removeEmployee`: every cell of every materialised
      day that holds `id` becomes empty; all other cells, tags and days are
      unchanged. */
  function ClearIdInSchedule(s: Schedule, id: EmpId): (r: Schedule)
    ensures r.Keys == s.Keys
    ensures forall d, p, i | d in s ::
      Cell(r[d], p, i) == if Cell(s[d], p, i) == Some(id) then None else Cell(s[d], p, i)
    ensures forall d, p, i | d in r :: Cell(r[d], p, i) != Some(id)
    ensures WellFormed(s) ==> WellFormed(r)
  {
    map d | d in s :: ClearIdInDay(s[d], id)
  }

  /** `removeEmployee`: the records with the id leave the roster and the id
      leaves the grid, so no cell refers to a removed employee. */
  function RemoveEmployee(employees: seq<Employee>, s: Schedule, id: EmpId): (r: (seq<Employee>, Schedule))
    ensures r.0 == WithoutId(employees, id)
    ensures r.1 == ClearIdInSchedule(s, id)
    ensures forall e | e in r.0 :: e.id != id
    ensures forall d, p, i | d in r.1 :: Cell(r.1[d], p, i) != Some(id)
  {
    (WithoutId(employees, id), ClearIdInSchedule(s, id))
  }
}

=== FILE: rules.dfy ===
/** The rule predicates of the roster store (src/hooks/useSchedule.ts):
    double-booking detection and lunch-window membership. */
module Rules {
  import opened Wrappers
  import opened JsString
  import opened TimeGrid
  import opened Roster

  /** `excludeChannel`: the row a caller is about to write, which is not a
      conflict with itself. */
  datatype Exclusion = Exclusion(channel: ChannelKind, line: Option<Line>)

  /** Whether row position `p` is the excluded row. A livechat exclusion
      excludes only the livechat row; a call exclusion excludes the line it
      names, and none when it names no line. */
  predicate Excluded(exclude: Option<Exclusion>, p: nat) {
    exclude.Some? &&
    if p == 0 then exclude.value.channel == Livechat
    else exclude.value.channel == Ligacao && exclude.value.line == Some(p - 1)
  }

  /** The exclusion that names row position `p`. */
  function ExclusionOf(p: nat): Exclusion
    requires p < ROW_COUNT
  {
    if p == 0 then Exclusion(Livechat, None) else Exclusion(Ligacao, Some(p - 1))
  }

  /** The call lines `k .. 2` checked by `hasScheduleConflict`. */
  predicate LineConflict(dr: DayRows, i: nat, id: EmpId, exclude: Option<Exclusion>, k: nat)
    decreases LINE_COUNT - k
  {
    if k >= LINE_COUNT then false
    else if exclude.Some? && exclude.value.channel == Ligacao && exclude.value.line == Some(k) then
      LineConflict(dr, i, id, exclude, k + 1)
    else Cell(dr, 1 + k, i) == Some(id) || LineConflict(dr, i, id, exclude, k + 1)
  }

  /** `hasScheduleConflict`: whether employee `id` already holds slot `time`
      of `day` in some row other than the excluded one. An absent day or a
      label that is not on the grid is never a conflict. */
  function HasScheduleConflict(s: Schedule, id: EmpId, day: Day, time: string, exclude: Option<Exclusion>): (r: bool)
    ensures r <==> (day in s && SlotIndex(time).Some? &&
      exists p | 0 <= p < ROW_COUNT :: !Excluded(exclude, p) && Cell(s[day], p, SlotIndex(time).value) == Some(id))
  {
    if day !in s then false
    else
      var slot := SlotIndex(time);
      if slot.None? then false
      else
        var dr, i := s[day], slot.value;
        var r := (!(exclude.Some? && exclude.value.channel == Livechat) && Cell(dr, 0, i) == Some(id))
                 || LineConflict(dr, i, id, exclude, 0);
        LineConflictSpec(dr, i, id, exclude, 0);
        r
  }

  lemma {:induction false} LineConflictSpec(dr: DayRows, i: nat, id: EmpId, exclude: Option<Exclusion>, k: nat)
    ensures LineConflict(dr, i, id, exclude, k) <==>
      exists p | 1 + k <= p < ROW_COUNT :: !Excluded(exclude, p) && Cell(dr, p, i) == Some(id)
    decreases LINE_COUNT - k
  {
    if k < LINE_COUNT {
      LineConflictSpec(dr, i, id, exclude, k + 1);
      assert !Excluded(exclude, 1 + k) <==>
        !(exclude.Some? && exclude.value.channel == Ligacao && exclude.value.line == Some(k));
    }
  }

  /** No employee holds two rows of the same day at the same slot. */
  ghost predicate NoDoubleBooking(s: Schedule) {
    forall d, i, p, q | d in s && 0 <= i < SLOT_COUNT && 0 <= p < q < ROW_COUNT ::
      Cell(s[d], p, i).Some? ==> Cell(s[d], p, i) != Cell(s[d], q, i)
  }

  /** Every occupied cell, checked against the rest of its day with its
      own row excluded, shows no conflict. */
  ghost predicate NoCellConflicts(s: Schedule) {
    forall d, i, p | d in s && 0 <= i < SLOT_COUNT && 0 <= p < ROW_COUNT && Cell(s[d], p, i).Some? ::
      !HasScheduleConflict(s, Cell(s[d], p, i).value, d, Display(i), Some(ExclusionOf(p)))
  }

  lemma ExclusionOfSelf(p: nat, q: nat)
    requires p < ROW_COUNT && q < ROW_COUNT
    ensures Excluded(Some(ExclusionOf(p)), q) <==> p == q
  {
  }

  /** The conflict check on the cell's own slot sees exactly the other rows. */
  lemma ConflictAtCell(s: Schedule, d: Day, i: nat, p: nat)
    requires d in s && i < SLOT_COUNT && p < ROW_COUNT && Cell(s[d], p, i).Some?
    ensures HasScheduleConflict(s, Cell(s[d], p, i).value, d, Display(i), Some(ExclusionOf(p))) <==>
      exists q | 0 <= q < ROW_COUNT :: q != p && Cell(s[d], q, i) == Cell(s[d], p, i)
  {
    SlotIndexOfDisplay(i);
    forall q | 0 <= q < ROW_COUNT ensures Excluded(Some(ExclusionOf(p)), q) <==> p == q {
      ExclusionOfSelf(p, q);
    }
  }

  /** The conflict check is exactly the double-booking detector: a grid
      has no double booking iff no occupied cell conflicts with the rest of
      its day when its own row is excluded. */
  lemma NoDoubleBookingIffNoConflict(s: Schedule)
    ensures NoDoubleBooking(s) <==> NoCellConflicts(s)
  {
    if NoDoubleBooking(s) {
      forall d, i, p | d in s && 0 <= i < SLOT_COUNT && 0 <= p < ROW_COUNT && Cell(s[d], p, i).Some?
        ensures !HasScheduleConflict(s, Cell(s[d], p, i).value, d, Display(i), Some(ExclusionOf(p)))
      {
        ConflictAtCell(s, d, i, p);
        forall q | 0 <= q < ROW_COUNT && q != p ensures Cell(s[d], q, i) != Cell(s[d], p, i) {
          if q < p {
            assert Cell(s[d], q, i).Some? ==> Cell(s[d], q, i) != Cell(s[d], p, i);
          } else {
            assert Cell(s[d], p, i) != Cell(s[d], q, i);
          }
        }
      }
    }
    if NoCellConflicts(s) {
      forall d, i, p, q | d in s && 0 <= i < SLOT_COUNT && 0 <= p < q < ROW_COUNT && Cell(s[d], p, i).Some?
        ensures Cell(s[d], p, i) != Cell(s[d], q, i)
      {
        ConflictAtCell(s, d, i, p);
      }
    }
  }

  /** A lunch window test: `start <= time < end` under string comparison. */
  predicate InWindow(time: string, start: string, end: string) {
    StrGreaterEq(time, start) && StrLess(time, end)
  }

  /** The configured fixed lunch window applies to everyone. */
  predicate FixedLunchPolicy(config: ScheduleConfig) {
    config.lunchType == Some(Fixo) && Present(config.fixedLunchStart) && Present(config.fixedLunchEnd)
  }

  /** `isEmployeeLunchTime`: false for an unknown employee; under the fixed
      policy the fixed window decides, overriding the employee's own;
      otherwise the employee's own window decides, if both ends are set. */
  function IsEmployeeLunchTime(employees: seq<Employee>, config: ScheduleConfig, id: EmpId, time: string): (r: bool)
    ensures r ==> exists e | e in employees :: e.id == id
    ensures (exists e | e in employees :: e.id == id) && FixedLunchPolicy(config) ==>
      (r <==> InWindow(time, config.fixedLunchStart.value, config.fixedLunchEnd.value))
    ensures !FixedLunchPolicy(config) ==>
      (r <==> FindEmployee(employees, id).Some? && Present(FindEmployee(employees, id).value.lunchStart) &&
              Present(FindEmployee(employees, id).value.lunchEnd) &&
              InWindow(time, FindEmployee(employees, id).value.lunchStart.value, FindEmployee(employees, id).value.lunchEnd.value))
  {
    match FindEmployee(employees, id)
    case None => false
    case Some(e) =>
      if FixedLunchPolicy(config) then
        InWindow(time, config.fixedLunchStart.value, config.fixedLunchEnd.value)
      else if Present(e.lunchStart) && Present(e.lunchEnd) then
        InWindow(time, e.lunchStart.value, e.lunchEnd.value)
      else false
  }

  /** On grid labels the string test is the index test: slot `i` lies in the
      window from slot `a` to slot `b` iff a <= i < b. */
  lemma InWindowOnGrid(i: nat, a: nat, b: nat)
    requires i < SLOT_COUNT && a < SLOT_COUNT && b < SLOT_COUNT
    ensures InWindow(Display(i), Display(a), Display(b)) <==> a <= i < b
  {
    DisplayOrder(i, a);
    DisplayOrder(i, b);
  }

  /** The employee's own window, when it is made of grid labels and no
      fixed policy is configured, covers exactly the slots from its start
      (inclusive) to its end (exclusive). */
  lemma {:induction false} OwnLunchOnGrid(employees: seq<Employee>, config: ScheduleConfig, e: Employee, i: nat, a: nat, b: nat)
    requires e in employees && FindEmployee(employees, e.id) == Some(e)
    requires !FixedLunchPolicy(config)
    requires i < SLOT_COUNT && a < SLOT_COUNT && b < SLOT_COUNT
    requires e.lunchStart == Some(Display(a)) && e.lunchEnd == Some(Display(b))
    ensures IsEmployeeLunchTime(employees, config, e.id, Display(i)) <==> a <= i < b
  {
    DisplayDigits(a);
    DisplayDigits(b);
    InWindowOnGrid(i, a, b);
  }

  /** The half-open boundary: with a 12:00-13:00 lunch, 12:00 and 12:30
      are lunch time, and 11:30 and 13:00 are not. */
  lemma LunchBoundaryExample(config: ScheduleConfig)
    requires !FixedLunchPolicy(config)
    ensures var e := Employee("1", "Ana Silva", "#3B82F6", true, Some("12:00"), Some("13:00"));
      && IsEmployeeLunchTime([e], config, "1", "12:00")
      && IsEmployeeLunchTime([e], config, "1", "12:30")
      && !IsEmployeeLunchTime([e], config, "1", "11:30")
      && !IsEmployeeLunchTime([e], config, "1", "13:00")
  {
    var e := Employee("1", "Ana Silva", "#3B82F6", true, Some("12:00"), Some("13:00"));
    assert Display(7) == "11:30" && Display(8) == "12:00" && Display(9) == "12:30" && Display(10) == "13:00";
    OwnLunchOnGrid([e], config, e, 7, 8, 10);
    OwnLunchOnGrid([e], config, e, 8, 8, 10);
    OwnLunchOnGrid([e], config, e, 9, 8, 10);
    OwnLunchOnGrid([e], config, e, 10, 8, 10);
  }
}

=== FILE: sorting.dfy ===
/** The stable sort behind every `Array.prototype.sort` call of the roster
    code. JavaScript engines sort stably: elements the comparator calls equal
    keep their original order. The model sorts by a key under a strict order
    `less` with an insertion sort, and proves the result is a permutation of
    the input, ordered by the key, and stable. */
module Sorting {

  /** `less` is a strict weak order: irreflexive, transitive, and
      incomparability is transitive (if a < c then any b is above a or
      below c). */
  ghost predicate StrictWeakOrder<K(!new)>(less: (K, K) -> bool) {
    && (forall a :: !less(a, a))
    && (forall a, b, c :: less(a, b) && less(b, c) ==> less(a, c))
    && (forall a, b, c :: less(a, c) ==> less(a, b) || less(b, c))
  }

  /** No later element has a key strictly below an earlier one. */
  ghost predicate SortedBy<T, K>(s: seq<T>, key: T -> K, less: (K, K) -> bool) {
    forall i, j | 0 <= i < j < |s| :: !less(key(s[j]), key(s[i]))
  }

  /** Inserts `x` in front of the first element whose key is not strictly
      below the key of `x`. */
  function Insert<T, K>(x: T, t: seq<T>, key: T -> K, less: (K, K) -> bool): (r: seq<T>)
    ensures multiset(r) == multiset([x] + t)
    ensures |r| == |t| + 1
  {
    if |t| == 0 || !less(key(t[0]), key(x)) then [x] + t
    else
      assert t == [t[0]] + t[1..];
      [t[0]] + Insert(x, t[1..], key, less)
  }

  /** Stable insertion sort of `s` by `key`. */
  function SortBy<T, K>(s: seq<T>, key: T -> K, less: (K, K) -> bool): (r: seq<T>)
    ensures multiset(r) == multiset(s)
    ensures |r| == |s|
  {
    if |s| == 0 then []
    else
      assert s == [s[0]] + s[1..];
      Insert(s[0], SortBy(s[1..], key, less), key, less)
  }

  lemma InMultiset<T>(x: T, a: seq<T>, b: seq<T>)
    requires multiset(a) == multiset(b)
    ensures x in a <==> x in b
  {
    assert x in a <==> x in multiset(a);
    assert x in b <==> x in multiset(b);
  }

  lemma {:induction false} InsertSorted<T, K(!new)>(x: T, t: seq<T>, key: T -> K, less: (K, K) -> bool)
    requires StrictWeakOrder(less)
    requires SortedBy(t, key, less)
    ensures SortedBy(Insert(x, t, key, less), key, less)
    decreases |t|
  {
    var r := Insert(x, t, key, less);
    if |t| == 0 || !less(key(t[0]), key(x)) {
      forall j | 1 <= j < |r|
        ensures !less(key(r[j]), key(r[0]))
      {
        if j > 1 {
          assert !less(key(t[j - 1]), key(t[0]));
        }
      }
    } else {
      var rest := Insert(x, t[1..], key, less);
      assert SortedBy(t[1..], key, less) by {
        forall i, j | 0 <= i < j < |t[1..]| ensures !less(key(t[1..][j]), key(t[1..][i])) {
          assert t[1..][j] == t[j + 1] && t[1..][i] == t[i + 1];
        }
      }
      InsertSorted(x, t[1..], key, less);
      assert r == [t[0]] + rest;
      forall j | 0 <= j < |rest|
        ensures !less(key(rest[j]), key(t[0]))
      {
        InMultiset(rest[j], rest, [x] + t[1..]);
        if rest[j] != x {
          var m :| 0 <= m < |t[1..]| && t[1..][m] == rest[j];
          assert t[m + 1] == rest[j];
        }
      }
    }
  }

  /** The result of `SortBy` is ordered by the key. */
  lemma {:induction false} SortBySorted<T, K(!new)>(s: seq<T>, key: T -> K, less: (K, K) -> bool)
    requires StrictWeakOrder(less)
    ensures SortedBy(SortBy(s, key, less), key, less)
    decreases |s|
  {
    if |s| > 0 {
      SortBySorted(s[1..], key, less);
      InsertSorted(s[0], SortBy(s[1..], key, less), key, less);
    }
  }

  /** The elements of `s` whose key is `k`, in their order in `s`. */
  function KeyFilter<T, K(==)>(s: seq<T>, key: T -> K, k: K): (r: seq<T>)
    ensures |r| <= |s|
    ensures forall y | y in r :: y in s && key(y) == k
  {
    if |s| == 0 then []
    else if key(s[0]) == k then [s[0]] + KeyFilter(s[1..], key, k)
    else KeyFilter(s[1..], key, k)
  }

  lemma {:induction false} InsertStable<T, K(!new)>(x: T, t: seq<T>, key: T -> K, less: (K, K) -> bool, k: K)
    requires forall a :: !less(a, a)
    ensures KeyFilter(Insert(x, t, key, less), key, k)
         == if key(x) == k then [x] + KeyFilter(t, key, k) else KeyFilter(t, key, k)
    decreases |t|
  {
    var r := Insert(x, t, key, less);
    if |t| == 0 || !less(key(t[0]), key(x)) {
      assert r[1..] == t;
    } else {
      InsertStable(x, t[1..], key, less, k);
      assert r[1..] == Insert(x, t[1..], key, less);
      assert !less(key(x), key(x));
    }
  }

  /** Sorting is stable: for every key, the elements carrying that key
      appear in the result in the same order as in the input. */
  lemma {:induction false} SortByStable<T, K(!new)>(s: seq<T>, key: T -> K, less: (K, K) -> bool, k: K)
    requires forall a :: !less(a, a)
    ensures KeyFilter(SortBy(s, key, less), key, k) == KeyFilter(s, key, k)
    decreases |s|
  {
    if |s| > 0 {
      SortByStable(s[1..], key, less, k);
      InsertStable(s[0], SortBy(s[1..], key, less), key, less, k);
    }
  }

  /** No two elements of `s` share a value of `f`. */
  ghost predicate DistinctBy<T, U>(s: seq<T>, f: T -> U) {
    forall i, j | 0 <= i < j < |s| :: f(s[i]) != f(s[j])
  }

  lemma DistinctByCons<T, U>(a: T, u: seq<T>, f: T -> U)
    ensures DistinctBy([a] + u, f) <==> (forall y | y in u :: f(y) != f(a)) && DistinctBy(u, f)
  {
    var s := [a] + u;
    if DistinctBy(s, f) {
      forall i, j | 0 <= i < j < |u| ensures f(u[i]) != f(u[j]) {
        assert u[i] == s[i + 1] && u[j] == s[j + 1];
      }
      forall y | y in u ensures f(y) != f(a) {
        var m :| 0 <= m < |u| && u[m] == y;
        assert s[0] == a && s[m + 1] == y;
      }
    }
    if (forall y | y in u :: f(y) != f(a)) && DistinctBy(u, f) {
      forall i, j | 0 <= i < j < |s| ensures f(s[i]) != f(s[j]) {
        assert s[j] == u[j - 1];
        if i > 0 {
          assert s[i] == u[i - 1];
        }
      }
    }
  }

  lemma {:induction false} InsertDistinct<T, K, U>(x: T, t: seq<T>, key: T -> K, less: (K, K) -> bool, f: T -> U)
    requires DistinctBy([x] + t, f)
    ensures DistinctBy(Insert(x, t, key, less), f)
    decreases |t|
  {
    if |t| > 0 && less(key(t[0]), key(x)) {
      var rest := Insert(x, t[1..], key, less);
      DistinctByCons(x, t, f);
      assert t == [t[0]] + t[1..];
      DistinctByCons(t[0], t[1..], f);
      DistinctByCons(x, t[1..], f);
      InsertDistinct(x, t[1..], key, less, f);
      forall y | y in rest ensures f(y) != f(t[0]) {
        InMultiset(y, rest, [x] + t[1..]);
      }
      DistinctByCons(t[0], rest, f);
    }
  }

  /** Sorting keeps values of `f` that were distinct distinct. */
  lemma {:induction false} SortByDistinct<T, K, U>(s: seq<T>, key: T -> K, less: (K, K) -> bool, f: T -> U)
    requires DistinctBy(s, f)
    ensures DistinctBy(SortBy(s, key, less), f)
    decreases |s|
  {
    if |s| > 0 {
      assert s == [s[0]] + s[1..];
      DistinctByCons(s[0], s[1..], f);
      SortByDistinct(s[1..], key, less, f);
      var t := SortBy(s[1..], key, less);
      forall y | y in t ensures f(y) != f(s[0]) {
        InMultiset(y, t, s[1..]);
      }
      DistinctByCons(s[0], t, f);
      InsertDistinct(s[0], t, key, less, f);
    }
  }
}

=== FILE: stats.dfy ===
/** `getEmployeeStats` (src/hooks/useSchedule.ts): an employee's hours on
    the grid, in total and per channel. Hours are counted in half-hour units,
    so the source's `0.5` per cell is `1` here. */
module Stats {
  import opened Wrappers
  import opened TimeGrid
  import opened Roster

  /** Hours in half-hour units. */
  datatype Stats = Stats(total: nat, livechat: nat, ligacao: nat)

  function Plus(a: Stats, b: Stats): Stats {
    Stats(a.total + b.total, a.livechat + b.livechat, a.ligacao + b.ligacao)
  }

  const ZERO: Stats := Stats(0, 0, 0)


  /** The number of cells of `row` that hold `id`. */
  function CountInRow(row: seq<ScheduleSlot>, id: EmpId): (n: nat)
    ensures n <= |row|
  {
    if |row| == 0 then 0
    else (if row[0].employeeId == Some(id) then 1 else 0) + CountInRow(row[1..], id)
  }

  /** The number of cells of the rows `rows` that hold `id`. */
  function CountInRows(rows: seq<seq<ScheduleSlot>>, id: EmpId): nat {
    if |rows| == 0 then 0 else CountInRow(rows[0], id) + CountInRows(rows[1..], id)
  }

  /** The sequences of `groups`, one after another. */
  function Flatten<T>(groups: seq<seq<T>>): seq<T> {
    if |groups| == 0 then [] else groups[0] + Flatten(groups[1..])
  }

  /** Counting the rows one by one counts their cells laid end to end. */
  lemma {:induction false} CountInFlatten(rows: seq<seq<ScheduleSlot>>, id: EmpId)
    ensures CountInRow(Flatten(rows), id) == CountInRows(rows, id)
    decreases |rows|
  {
    if |rows| > 0 {
      CountInRowConcat(rows[0], Flatten(rows[1..]), id);
      CountInFlatten(rows[1..], id);
    }
  }

  /** One day's contribution: half an hour per livechat cell and per call
      cell holding `id`. The total has its own count over all the day's
      cells, as the source keeps its own `totalHours` accumulator, and it
      agrees with the two channel counts. */
  function DayStats(dr: DayRows, id: EmpId): (r: Stats)
    ensures r.total == r.livechat + r.ligacao
  {
    CountInRowConcat(dr.livechat, Flatten(dr.ligacao), id);
    CountInFlatten(dr.ligacao, id);
    Stats(CountInRow(dr.livechat + Flatten(dr.ligacao), id),
          CountInRow(dr.livechat, id), CountInRows(dr.ligacao, id))
  }

  /** The cells of `row` whose occupant passes `keep`. */
  function CountWhere(row: seq<ScheduleSlot>, keep: Option<EmpId> -> bool): nat {
    if |row| == 0 then 0
    else (if keep(row[0].employeeId) then 1 else 0) + CountWhere(row[1..], keep)
  }

  /** The indices below `n` whose occupant passes `keep`. */
  ghost function IndicesWhere(row: seq<ScheduleSlot>, keep: Option<EmpId> -> bool, n: nat): set<nat>
    requires n <= |row|
  {
    set i: nat | i < n && keep(row[i].employeeId)
  }

  lemma {:induction false} CountWhereConcat(a: seq<ScheduleSlot>, b: seq<ScheduleSlot>, keep: Option<EmpId> -> bool)
    ensures CountWhere(a + b, keep) == CountWhere(a, keep) + CountWhere(b, keep)
    decreases |a|
  {
    if |a| == 0 {
      assert a + b == b;
    } else {
      assert (a + b)[0] == a[0] && (a + b)[1..] == a[1..] + b;
      CountWhereConcat(a[1..], b, keep);
    }
  }

  lemma IndicesWhereStep(row: seq<ScheduleSlot>, keep: Option<EmpId> -> bool, n: nat)
    requires n < |row|
    ensures |IndicesWhere(row, keep, n + 1)| == |IndicesWhere(row, keep, n)| + if keep(row[n].employeeId) then 1 else 0
  {
    var extra: set<nat> := if keep(row[n].employeeId) then {n} else {};
    forall i: nat
      ensures i in IndicesWhere(row, keep, n + 1) <==> i in IndicesWhere(row, keep, n) + extra
    {
    }
    assert IndicesWhere(row, keep, n + 1) == IndicesWhere(row, keep, n) + extra;
    assert n !in IndicesWhere(row, keep, n);
  }

  /** Counting the first `n` cells of a row counts the indices below `n`
      whose occupant passes `keep`. */
  lemma {:induction false} CountWherePrefix(row: seq<ScheduleSlot>, keep: Option<EmpId> -> bool, n: nat)
    requires n <= |row|
    ensures CountWhere(row[..n], keep) == |IndicesWhere(row, keep, n)|
    decreases n
  {
    if n == 0 {
      assert IndicesWhere(row, keep, 0) == {};
    } else {
      CountWherePrefix(row, keep, n - 1);
      assert row[..n] == row[..n - 1] + [row[n - 1]];
      CountWhereConcat(row[..n - 1], [row[n - 1]], keep);
      IndicesWhereStep(row, keep, n - 1);
    }
  }

  /** A row's count is the number of its cells whose occupant passes
      `keep`. */
  lemma CountWhereCells(row: seq<ScheduleSlot>, keep: Option<EmpId> -> bool)
    ensures CountWhere(row, keep) == |IndicesWhere(row, keep, |row|)|
  {
    CountWherePrefix(row, keep, |row|);
    assert row[..|row|] == row;
  }

  /** The test "holds `id`". */
  function Holds(id: EmpId): Option<EmpId> -> bool {
    (v: Option<EmpId>) => v == Some(id)
  }

  lemma {:induction false} CountInRowIsWhere(row: seq<ScheduleSlot>, id: EmpId)
    ensures CountInRow(row, id) == CountWhere(row, Holds(id))
    decreases |row|
  {
    if |row| > 0 {
      CountInRowIsWhere(row[1..], id);
    }
  }

  /** The cells of row `p` of `dr` that hold `id`, as a set of indices. */
  ghost function HeldCells(dr: DayRows, p: nat, id: EmpId): set<nat> {
    set i: nat | i < |Row(dr, p)| && Row(dr, p)[i].employeeId == Some(id)
  }

  /** A row's count for `id` is the number of its cells holding `id`. */
  lemma CountInRowCells(dr: DayRows, p: nat, id: EmpId)
    ensures CountInRow(Row(dr, p), id) == |HeldCells(dr, p, id)|
  {
    var row := Row(dr, p);
    CountInRowIsWhere(row, id);
    CountWhereCells(row, Holds(id));
    assert IndicesWhere(row, Holds(id), |row|) == HeldCells(dr, p, id);
  }

  /** What a day's figures count: the livechat figure is the number of
      livechat cells holding `id`; with the three call lines, the call
      figure is the number of cells holding `id` on lines 0, 1 and 2. */
  lemma DayStatsCells(dr: DayRows, id: EmpId)
    ensures DayStats(dr, id).livechat == |HeldCells(dr, 0, id)|
    ensures |dr.ligacao| == LINE_COUNT ==>
      DayStats(dr, id).ligacao == |HeldCells(dr, 1, id)| + |HeldCells(dr, 2, id)| + |HeldCells(dr, 3, id)|
  {
    CountInRowCells(dr, 0, id);
    if |dr.ligacao| == LINE_COUNT {
      CountInRowCells(dr, 1, id);
      CountInRowCells(dr, 2, id);
      CountInRowCells(dr, 3, id);
      var rows := dr.ligacao;
      var r1 := rows[1..];
      var r2 := r1[1..];
      assert CountInRows(r2, id) == CountInRow(r2[0], id) + CountInRows(r2[1..], id);
      assert CountInRows(r1, id) == CountInRow(r1[0], id) + CountInRows(r2, id);
      assert CountInRows(rows, id) == CountInRow(rows[0], id) + CountInRows(r1, id);
      assert r1[0] == rows[1] && r2[0] == rows[2];
    }
  }

  /** The days of `days` that are materialised in `s`, summed. */
  function SumDays(days: seq<Day>, s: Schedule, id: EmpId): (r: Stats)
    ensures r.total == r.livechat + r.ligacao
  {
    if |days| == 0 then ZERO
    else Plus(if days[0] in s then DayStats(s[days[0]], id) else ZERO, SumDays(days[1..], s, id))
  }

  /** `getEmployeeStats`: over every materialised day, the livechat cells
      and the call-line cells holding `id`; the total is their sum. */
  function GetEmployeeStats(s: Schedule, id: EmpId): (r: Stats)
    ensures r.total == r.livechat + r.ligacao
  {
    SumDays(DAYS, s, id)
  }

  /** No cell of `s` holds `id`. */
  ghost predicate Absent(s: Schedule, id: EmpId) {
    forall d | d in s :: AbsentFromDay(s[d], id)
  }

  /** No cell of any row of `dr`, livechat or call line, holds `id`. */
  ghost predicate AbsentFromDay(dr: DayRows, id: EmpId) {
    forall p: nat, i: nat :: Cell(dr, p, i) != Some(id)
  }

  /** A day none of whose cells holds `id` contributes no hours for it. */
  lemma AbsentDayCountsZero(dr: DayRows, id: EmpId)
    requires AbsentFromDay(dr, id)
    ensures DayStats(dr, id).total == 0
  {
    forall i | 0 <= i < |dr.livechat|
      ensures dr.livechat[i].employeeId != Some(id)
    {
      assert Cell(dr, 0, i) != Some(id);
    }
    forall k, i | 0 <= k < |dr.ligacao| && 0 <= i < |dr.ligacao[k]|
      ensures dr.ligacao[k][i].employeeId != Some(id)
    {
      assert Cell(dr, k + 1, i) != Some(id);
    }
    CountInRowAbsent(dr.livechat, id);
    CountInRowsAbsent(dr.ligacao, id);
  }

  /** An employee in no cell of the grid has zero hours. */
  lemma {:induction false} SumDaysZero(days: seq<Day>, s: Schedule, id: EmpId)
    requires Absent(s, id)
    ensures SumDays(days, s, id).total == 0
    decreases |days|
  {
    if |days| > 0 {
      SumDaysZero(days[1..], s, id);
      if days[0] in s {
        AbsentDayCountsZero(s[days[0]], id);
      }
    }
  }

  /** Counting distributes over concatenation. */
  lemma {:induction false} CountInRowConcat(a: seq<ScheduleSlot>, b: seq<ScheduleSlot>, id: EmpId)
    ensures CountInRow(a + b, id) == CountInRow(a, id) + CountInRow(b, id)
    decreases |a|
  {
    if |a| == 0 {
      assert a + b == b;
    } else {
      assert (a + b)[0] == a[0] && (a + b)[1..] == a[1..] + b;
      CountInRowConcat(a[1..], b, id);
    }
  }

  /** A row none of whose cells holds `id` counts zero for it, and a row all
      of whose cells hold it counts its length. */
  lemma {:induction false} CountInUniformRow(row: seq<ScheduleSlot>, v: Option<EmpId>, id: EmpId)
    requires forall i | 0 <= i < |row| :: row[i].employeeId == v
    ensures CountInRow(row, id) == if v == Some(id) then |row| else 0
    decreases |row|
  {
    if |row| > 0 {
      CountInUniformRow(row[1..], v, id);
    }
  }

  /** A row none of whose cells holds `id` counts zero for it. */
  lemma {:induction false} CountInRowAbsent(row: seq<ScheduleSlot>, id: EmpId)
    requires forall i | 0 <= i < |row| :: row[i].employeeId != Some(id)
    ensures CountInRow(row, id) == 0
    decreases |row|
  {
    if |row| > 0 {
      CountInRowAbsent(row[1..], id);
    }
  }

  lemma {:induction false} CountInRowsAbsent(rows: seq<seq<ScheduleSlot>>, id: EmpId)
    requires forall k, i | 0 <= k < |rows| && 0 <= i < |rows[k]| :: rows[k][i].employeeId != Some(id)
    ensures CountInRows(rows, id) == 0
    decreases |rows|
  {
    if |rows| > 0 {
      CountInRowAbsent(rows[0], id);
      CountInRowsAbsent(rows[1..], id);
    }
  }

  /** A day with `id` cleared from it holds `id` in no cell. */
  lemma ClearedDayAbsent(dr: DayRows, id: EmpId)
    ensures AbsentFromDay(ClearIdInDay(dr, id), id)
  {
    var r := ClearIdInDay(dr, id);
    forall p: nat, i: nat
      ensures Cell(r, p, i) != Some(id)
    {
      if p > 0 && p - 1 < |dr.ligacao| {
        assert Row(r, p) == ClearIdInRow(dr.ligacao[p - 1], id);
      }
    }
  }

  /** After `removeEmployee` the removed id has no hours on the grid. */
  lemma RemovedEmployeeHasNoHours(employees: seq<Employee>, s: Schedule, id: EmpId)
    ensures GetEmployeeStats(RemoveEmployee(employees, s, id).1, id).total == 0
  {
    var r := RemoveEmployee(employees, s, id).1;
    forall d | d in r
      ensures AbsentFromDay(r[d], id)
    {
      ClearedDayAbsent(s[d], id);
    }
    SumDaysZero(DAYS, r, id);
  }
}

=== FILE: time_grid.dfy ===
/** The fixed time grid of the roster (src/types/index.ts): the five
    weekdays, the working hours 08:00-18:00 and the twenty half-hour slots
    that divide them, each identified by its zero-padded "HH:MM" text. */
module TimeGrid {
  import opened Wrappers
  import opened JsString

  /** The weekdays of the roster, in the order of the `DAYS` constant. */
  datatype Day = Segunda | Terca | Quarta | Quinta | Sexta

  /** The text the source uses as the day's key. */
  function DayName(d: Day): string {
    match d
    case Segunda => "Segunda"
    case Terca => "Terça"
    case Quarta => "Quarta"
    case Quinta => "Quinta"
    case Sexta => "Sexta"
  }

  const DAYS: seq<Day> := [Segunda, Terca, Quarta, Quinta, Sexta]

  /** The position of a day in `DAYS`. */
  function DayIndex(d: Day): (k: nat)
    ensures k < |DAYS| && DAYS[k] == d
  {
    match d
    case Segunda => 0
    case Terca => 1
    case Quarta => 2
    case Quinta => 3
    case Sexta => 4
  }

  /** `DAYS` lists every weekday exactly once, and the names are distinct. */
  lemma DaysListed()
    ensures |DAYS| == 5
    ensures forall d: Day :: d in DAYS
    ensures forall i, j | 0 <= i < j < |DAYS| :: DAYS[i] != DAYS[j]
    ensures forall d1: Day, d2: Day :: DayName(d1) == DayName(d2) ==> d1 == d2
  {
    forall d: Day ensures d in DAYS {
      assert DAYS[DayIndex(d)] == d;
    }
  }

  /** `WORK_HOURS`: the roster covers [08:00, 18:00). */
  const WORK_START: nat := 8
  const WORK_END: nat := 18

  /** The number of half-hour slots in a working day. */
  const SLOT_COUNT: nat := 20

  /** A slot of the grid; its text is computed from the hour and minute. */
  datatype TimeSlot = TimeSlot(hour: nat, minute: nat)

  function Digit(n: nat): char
    requires n < 10
  {
    (48 + n) as char
  }

  /** `n.toString().padStart(2, '0')` for a number below 100. */
  function Pad2(n: nat): string
    requires n < 100
  {
    [Digit(n / 10), Digit(n % 10)]
  }

  /** The slot's "HH:MM" text: the hour and the minute, each padded to two
      digits, around a colon. */
  function Label(slot: TimeSlot): string
    requires slot.hour < 100 && slot.minute < 100
  {
    Pad2(slot.hour) + ":" + Pad2(slot.minute)
  }

  function MakeSlot(hour: nat, minute: nat): TimeSlot {
    TimeSlot(hour, minute)
  }

  function SlotAt(i: nat): TimeSlot
    requires i < SLOT_COUNT
  {
    MakeSlot(WORK_START + i / 2, if i % 2 == 0 then 0 else 30)
  }

  /** The two slots of `hour` sit at positions 2 * (hour - 8) and the
      one after. */
  lemma SlotsOfHour(hour: nat)
    requires WORK_START <= hour < WORK_END
    ensures SlotAt(2 * (hour - WORK_START)) == MakeSlot(hour, 0)
    ensures SlotAt(2 * (hour - WORK_START) + 1) == MakeSlot(hour, 30)
  {
    var k := 2 * (hour - WORK_START);
    assert k / 2 == hour - WORK_START && k % 2 == 0;
    assert (k + 1) / 2 == hour - WORK_START && (k + 1) % 2 == 1;
  }

  /** The slots of the hours `hour` .. WORK_END - 1, two per hour: the
      `:00` slot, then the `:30` slot. */
  function SlotsFrom(hour: nat): (r: seq<TimeSlot>)
    requires WORK_START <= hour <= WORK_END
    ensures |r| == 2 * (WORK_END - hour)
    ensures forall k | 0 <= k < |r| :: r[k] == SlotAt(2 * (hour - WORK_START) + k)
    decreases WORK_END - hour
  {
    if hour == WORK_END then []
    else
      var rest := SlotsFrom(hour + 1);
      SlotsOfHour(hour);
      [MakeSlot(hour, 0), MakeSlot(hour, 30)] + rest
  }

  /** `generateTimeSlots`: the twenty slots of the day, in order. */
  function GenerateTimeSlots(): (r: seq<TimeSlot>)
    ensures |r| == SLOT_COUNT
    ensures forall i | 0 <= i < |r| :: r[i] == SlotAt(i)
  {
    SlotsFrom(WORK_START)
  }

  const TIME_SLOTS: seq<TimeSlot> := GenerateTimeSlots()

  /** `TIME_SLOTS.map(slot => slot.display)` written out, one label per
      slot; `DisplayIsLabel` proves each entry is the padded text that
      `generateTimeSlots` computes for its slot. */
  const TIME_LABELS: seq<string> :=
    ["08:00", "08:30", "09:00", "09:30", "10:00", "10:30", "11:00", "11:30", "12:00", "12:30",
     "13:00", "13:30", "14:00", "14:30", "15:00", "15:30", "16:00", "16:30", "17:00", "17:30"]

  /** The text of slot `i`, `TIME_SLOTS[i].display`. */
  function Display(i: nat): string
    requires i < SLOT_COUNT
  {
    TIME_LABELS[i]
  }

  /** The labels of the hours 8 .. 9. */
  lemma EarlyLabels(hour: nat)
    requires 8 <= hour <= 9
    ensures TIME_LABELS[2 * (hour - WORK_START)] == Pad2(hour) + ":" + Pad2(0)
    ensures TIME_LABELS[2 * (hour - WORK_START) + 1] == Pad2(hour) + ":" + Pad2(30)
  {
    assert Pad2(0) == "00" && Pad2(30) == "30";
    if hour == 8 { assert Pad2(8) == "08"; }
    else { assert Pad2(9) == "09"; }
  }

  /** The labels of the hours 10 .. 12. */
  lemma MorningLabels(hour: nat)
    requires 10 <= hour <= 12
    ensures TIME_LABELS[2 * (hour - WORK_START)] == Pad2(hour) + ":" + Pad2(0)
    ensures TIME_LABELS[2 * (hour - WORK_START) + 1] == Pad2(hour) + ":" + Pad2(30)
  {
    assert Pad2(0) == "00" && Pad2(30) == "30";
    if hour == 10 { assert Pad2(10) == "10"; }
    else if hour == 11 { assert Pad2(11) == "11"; }
    else { assert Pad2(12) == "12"; }
  }

  /** The labels of the hours 13 .. 15. */
  lemma AfternoonLabels(hour: nat)
    requires 13 <= hour <= 15
    ensures TIME_LABELS[2 * (hour - WORK_START)] == Pad2(hour) + ":" + Pad2(0)
    ensures TIME_LABELS[2 * (hour - WORK_START) + 1] == Pad2(hour) + ":" + Pad2(30)
  {
    assert Pad2(0) == "00" && Pad2(30) == "30";
    if hour == 13 { assert Pad2(13) == "13"; }
    else if hour == 14 { assert Pad2(14) == "14"; }
    else { assert Pad2(15) == "15"; }
  }

  /** The labels of the hours 16 .. 17. */
  lemma LateLabels(hour: nat)
    requires 16 <= hour <= 17
    ensures TIME_LABELS[2 * (hour - WORK_START)] == Pad2(hour) + ":" + Pad2(0)
    ensures TIME_LABELS[2 * (hour - WORK_START) + 1] == Pad2(hour) + ":" + Pad2(30)
  {
    assert Pad2(0) == "00" && Pad2(30) == "30";
    if hour == 16 { assert Pad2(16) == "16"; }
    else { assert Pad2(17) == "17"; }
  }

  /** Every label is the slot's hour and minute, each padded to two
      digits, around a colon. */
  lemma DisplayIsLabel(i: nat)
    requires i < SLOT_COUNT
    ensures Display(i) == Label(SlotAt(i))
  {
    var hour := WORK_START + i / 2;
    SlotsOfHour(hour);
    if hour < 10 {
      EarlyLabels(hour);
    } else if hour < 13 {
      MorningLabels(hour);
    } else if hour < 16 {
      AfternoonLabels(hour);
    } else {
      LateLabels(hour);
    }
    assert i == 2 * (hour - WORK_START) || i == 2 * (hour - WORK_START) + 1;
  }

  /** The constant table holds the closed-form slots, and their labels are
      the table's. */
  lemma TimeSlotsTable(i: nat)
    requires i < SLOT_COUNT
    ensures |TIME_SLOTS| == SLOT_COUNT && TIME_SLOTS[i] == SlotAt(i)
    ensures Label(TIME_SLOTS[i]) == Display(i)
  {
    DisplayIsLabel(i);
  }

  /** Slot `i` begins `480 + 30 * i` minutes after midnight, so the grid
      covers [WORK_START:00, WORK_END:00) in steps of 30 minutes. */
  lemma SlotStartMinutes(i: nat)
    requires i < SLOT_COUNT
    ensures 60 * TIME_SLOTS[i].hour + TIME_SLOTS[i].minute == 480 + 30 * i
    ensures 60 * WORK_START <= 60 * TIME_SLOTS[i].hour + TIME_SLOTS[i].minute
    ensures 60 * TIME_SLOTS[i].hour + TIME_SLOTS[i].minute + 30 <= 60 * WORK_END
  {
    TimeSlotsTable(i);
    assert i == 2 * (i / 2) + i % 2;
    assert TIME_SLOTS[i].hour == WORK_START + i / 2;
    assert TIME_SLOTS[i].minute == 30 * (i % 2);
  }

  /** The text of slot `i` spelled out: two hour digits, a colon, two
      minute digits. */
  lemma DisplayDigits(i: nat)
    requires i < SLOT_COUNT
    ensures var h := WORK_START + i / 2;
            var m := if i % 2 == 0 then 0 else 30;
            Display(i) == [Digit(h / 10), Digit(h % 10), ':', Digit(m / 10), Digit(m % 10)]
  {
    DisplayIsLabel(i);
  }

  /** `TIME_SLOTS.findIndex(slot => slot.display === text)`; `None`
      stands for -1. The first-match property is `SlotIndexSpec`. */
  function SlotIndex(text: string): (r: Option<nat>)
    ensures r.Some? ==> r.value < SLOT_COUNT
  {
    FindLabel(TIME_LABELS, text, 0)
  }

  /** The first position at or after `from` that holds `text`. */
  function FindLabel(labels: seq<string>, text: string, from: nat): (r: Option<nat>)
    requires from <= |labels|
    ensures r.Some? ==> from <= r.value < |labels|
    decreases |labels| - from
  {
    if from == |labels| then None
    else if labels[from] == text then Some(from)
    else FindLabel(labels, text, from + 1)
  }

  lemma {:induction false} FindLabelSpec(labels: seq<string>, text: string, from: nat)
    requires from <= |labels|
    ensures FindLabel(labels, text, from).Some? ==>
      labels[FindLabel(labels, text, from).value] == text &&
      forall j | from <= j < FindLabel(labels, text, from).value :: labels[j] != text
    ensures FindLabel(labels, text, from).None? <==> forall j | from <= j < |labels| :: labels[j] != text
    decreases |labels| - from
  {
    if from < |labels| && labels[from] != text {
      FindLabelSpec(labels, text, from + 1);
    }
  }

  /** `findIndex` returns the first slot whose label is `text`, and -1
      exactly when no label is. */
  lemma SlotIndexSpec(text: string)
    ensures SlotIndex(text).Some? ==> Display(SlotIndex(text).value) == text
    ensures SlotIndex(text).Some? ==> forall j | 0 <= j < SlotIndex(text).value :: Display(j) != text
    ensures SlotIndex(text).None? <==> forall j | 0 <= j < SLOT_COUNT :: Display(j) != text
  {
    FindLabelSpec(TIME_LABELS, text, 0);
  }

  /** `findIndex` on the labels, with -1 for a label off the grid. */
  function IndexOrMinusOne(time: string): (k: int)
    ensures -1 <= k < SLOT_COUNT
    ensures k == -1 <==> SlotIndex(time).None?
  {
    match SlotIndex(time)
    case None => -1
    case Some(i) => i
  }

  /** Padded numbers compare as the numbers do. */
  lemma Pad2Less(a: nat, b: nat)
    requires a < b < 100
    ensures StrLess(Pad2(a), Pad2(b))
  {
    var x, y := Pad2(a), Pad2(b);
    if a / 10 == b / 10 {
      assert x[0] == y[0] && x[1] < y[1];
      assert StrLess(x[1..], y[1..]);
    } else {
      assert x[0] < y[0];
    }
  }

  /** The labels increase strictly along the grid under JavaScript string
      comparison, so comparing labels compares slot positions. */
  lemma DisplayIncreasing(i: nat, j: nat)
    requires i < j < SLOT_COUNT
    ensures StrLess(Display(i), Display(j))
  {
    var si, sj := SlotAt(i), SlotAt(j);
    var hi, hj := Pad2(si.hour), Pad2(sj.hour);
    var mi, mj := Pad2(si.minute), Pad2(sj.minute);
    DisplayIsLabel(i);
    DisplayIsLabel(j);
    assert Display(i) == (hi + ":") + mi && Display(j) == (hj + ":") + mj;
    if si.hour < sj.hour {
      Pad2Less(si.hour, sj.hour);
      StrLessAppend(hi, hj, ":", ":");
      StrLessAppend(hi + ":", hj + ":", mi, mj);
    } else {
      assert si.hour == sj.hour && si.minute == 0 && sj.minute == 30;
      Pad2Less(0, 30);
      StrLessCommonPrefix(hi + ":", mi, mj);
    }
  }

  /** Comparing two labels with `<` is comparing their positions. */
  lemma DisplayOrder(i: nat, j: nat)
    requires i < SLOT_COUNT && j < SLOT_COUNT
    ensures StrLess(Display(i), Display(j)) <==> i < j
  {
    if i < j {
      DisplayIncreasing(i, j);
    } else if i == j {
      StrLessIrreflexive(Display(i));
    } else {
      DisplayIncreasing(j, i);
      StrLessAsymmetric(Display(j), Display(i));
    }
  }

  /** Different slots have different labels. */
  lemma DisplayDistinct(i: nat, j: nat)
    requires i < SLOT_COUNT && j < SLOT_COUNT && i != j
    ensures Display(i) != Display(j)
  {
    DisplayOrder(i, j);
    DisplayOrder(j, i);
  }

  /** Labels are distinct, so looking a text up gives back its position:
      `SlotIndex` is a bijection between the labels and 0..19. */
  lemma SlotIndexOfDisplay(i: nat)
    requires i < SLOT_COUNT
    ensures SlotIndex(Display(i)) == Some(i)
  {
    var t := Display(i);
    var r := SlotIndex(t);
    SlotIndexSpec(t);
    assert r.Some? && r.value <= i;
    var k := r.value;
    if k < i {
      DisplayIncreasing(k, i);
      StrLessIrreflexive(t);
      assert false;
    }
    assert k == i;
  }

  /** `generateTimeSlots` labels its first slot 08:00 and its last 17:30. */
  lemma GridBounds()
    ensures Label(SlotAt(0)) == "08:00" && Label(SlotAt(SLOT_COUNT - 1)) == "17:30"
  {
    DisplayIsLabel(0);
    DisplayIsLabel(SLOT_COUNT - 1);
  }
}

=== FILE: wrappers.dfy ===
/** The optional-value datatype used throughout the roster model: `None`
    stands for the source's `null` / `undefined`. */
module Wrappers {

  datatype Option<+T> = None | Some(value: T) {

    /** Returns the value held in `Some`, or `default` for `None`. */
    function GetOr(default: T): T {
      match this
      case Some(v) => v
      case None => default
    }
  }
}
